=== FILE: README.md ===
# aura-system ledger, modelled in Dafny

aura-system is a personal-finance web application. Each user has accounts and a ledger of
transactions. A transaction has these parts:

- a type: deposit, expense, investment or transfer;
- a status: pending or executed;
- a fulfilment: immediate, installment or forecast;
- an optional recurrence.

Saving an installment or recurring transaction stores a *root* row. The server then regenerates the
root's *children*: one row per later installment or occurrence. The dashboard sums a month of
transactions per type and per category. The transactions page shows each account's executed balance.
Subscription plans cap how many transactions a free user may create per month.

This project models the server actions, data loaders and client helpers that implement those rules.
It states and proves, in Dafny, what they guarantee. Services become parameters:

- the database is an immutable `Db` value: a sequence of transactions and a sequence of accounts;
- the signed-in user is an `Option<UserId>`;
- the clock is a `Day` or a `Clock` value;
- ids the database would mint come from a `mint: nat -> Id` function;
- `addMonths`, `addYears` and the first day of a month form a `Calendar` value. Proofs assume only
  that it is monotone (`Dates.ValidCalendar`).

Every action returns a `Result`, and its error cases appear in the contracts as if-and-only-if
statements. The files are:

- **ledger.dfy**: the entities.
- **transaction_schema.dfy**: the server's transaction validation.
- **upsert.dfy**: normalising a request, then generating and synchronising the children.
- **delete_transaction.dfy**: deleting transactions.
- **transaction_status.dfy**: status changes.
- **dashboard.dfy** and **dashboard_context.dfy**: the monthly summary and how its period is resolved.
- **account_schema.dfy**, **accounts.dfy** and **account_data.dfy**: account settings, deletion, and
  default-account set-up.
- **subscription_plans.dfy** and **transaction_limit.dfy**: plan lookup and the monthly limit.
- **transactions_page.dfy**: per-account balances.
- **transaction_dialog.dfy**: the transaction form's rules, recurrence presets, weekday picker and
  payload.
- **manage_accounts.dfy**: the account panel's payloads.
- **wrappers.dfy**, **text.dfy**, **seqs.dfy**, **sorting.dfy** and **dates.dfy**: shared helpers.

## Model

| member | source | states |
|---|---|---|
| Text.Trim | app/_actions/upsert-transaction/schema.ts:13 | the trimmed string is an infix of the input, does not start or end with white space, and only white space was cut at either end |
| Text.TrimEmptyIffAllSpace | app/_actions/accounts/schema.ts:5 | a name trims to the empty string exactly when it is all white space, which is when `min(1)` rejects it |
| Text.TrimIdempotent | app/_components/manage-accounts-button.tsx:85-96 | trimming an already trimmed name changes nothing, so the panel's trimmed name survives the server's trim |
| Sorting.SortBy | app/_data/accounts/index.ts:5-8 | `orderBy` returns a permutation of the selected rows in ascending key order |
| Dates.Weekday | app/_components/upsert-transaction-dialog.tsx:295-298 | `getDay()` is a weekday number 0..6 |
| Dates.MonthPeriod | app/_data/get-dashboard/index.ts:17-18 | a month runs from its first day to the day before the next month's first day |
| Dates.MonthPeriodsTile | app/_data/dashboard-context/index.ts:49-50 | in a monotone calendar a month is non-empty and ends the day before the next one starts |
| Dates.MonthZeroIsPreviousDecember | app/_data/dashboard-context/index.ts:49-59 | month 0 of a year normalises to December of the previous year |
| Seqs.Filter | app/_data/get-dashboard/index.ts:14-20 | a `where` keeps exactly the rows that satisfy it, in order, and invents none |
| Seqs.FilterConcat | app/_actions/upsert-transaction/index.ts:126-130 | selection distributes over concatenation |
| Seqs.FirstIndex | app/_actions/update-transaction-status/index.ts:21-26 | a `findFirst` finds the earliest element meeting the condition, and none exactly when no element meets it |
| Ledger.FindTransaction | app/transactions/_actions/delete-transaction/index.ts:10-13 | `findUnique` by id finds the first row with that id, and none exactly when no row has it |
| Ledger.TotalSplits | app/_data/get-dashboard/index.ts:22-67 | for complementary conditions, the two sums of the selected rows add up to the sum of all rows |
| Ledger.TotalOfConcat | app/_data/get-dashboard/index.ts:22-67 | the sum over two runs of rows is the sum of their sums |
| Ledger.AccountsOf | app/_actions/accounts/index.ts:63-65 | the user's accounts are exactly the stored accounts that belong to the user |
| TransactionSchema.FieldIssues | app/_actions/upsert-transaction/schema.ts:12-32 | no field issue exactly when: the trimmed name is non-empty, the amount is positive, the account id is a UUID, installment numbers and interval are at least 1, and weekdays are 0..6 |
| TransactionSchema.CrossFieldIssues | app/_actions/upsert-transaction/schema.ts:33-86 | each rule's issue is raised exactly under its condition. The recurrence rules never fire outside a repeating forecast. The skip-list rule looks only at the list's length being 7 |
| TransactionSchema.ServerAcceptsIffWellFormed | app/_actions/upsert-transaction/schema.ts:11-86 | the schema accepts exactly the requests that meet every field and cross-field constraint, stated as one order-independent predicate |
| TransactionSchema.ServerAccepts | app/_actions/upsert-transaction/schema.ts:11-86 | an accepted request has a non-blank name, a positive amount and a UUID account. An INSTALLMENT carries both numbers with index <= count. A repeating FORECAST with an end date ends after it starts |
| TransactionSchema.AcceptedInstallmentNumbers | app/_actions/upsert-transaction/schema.ts:22-46 | an accepted installment request has 1 <= index <= count |
| UpsertTransaction.PersistedRow | app/_actions/upsert-transaction/index.ts:45-112 | the amount is split by the count only for an installment whose value is the total, and `executedAt` is the date exactly when executed. The index defaults to 1, the interval to 1 for CUSTOM, and `endsAt` is dropped for NONE. An empty skip list is stored as null |
| UpsertTransaction.NextRecurrenceDate | app/_actions/upsert-transaction/index.ts:245-268 | a next occurrence exists exactly for every rule other than NONE. MONTHLY steps one calendar month and YEARLY one calendar year |
| UpsertTransaction.NextDateIsLater | app/_actions/upsert-transaction/index.ts:245-286 | DAILY is +1 day, WEEKLY +7, MONTHLY `addMonths(d, 1)`, YEARLY `addYears(d, 1)`, and CUSTOM +interval, or +1 when the interval is missing or not positive. Every rule except NONE moves strictly forward |
| UpsertTransaction.RecurrenceDatesChain | app/_actions/upsert-transaction/index.ts:195-214 | every generated date is <= the end date. The first is next(root date) and each later one is next(previous). The loop stops at the 120 cap or when the next date passes the end |
| UpsertTransaction.RecurrenceDatesIncrease | app/_actions/upsert-transaction/index.ts:205-214 | the generated dates come strictly after the root's date and strictly increase |
| UpsertTransaction.RecurrenceDates | app/_actions/upsert-transaction/index.ts:195-214 | the occurrence dates never exceed the 120-iteration cap |
| UpsertTransaction.ChildRow | app/_actions/upsert-transaction/index.ts:163-181 | a child copies the root's user, account, name, amount, type, category and payment method. It points at the root, is PENDING with no execution date and has no rule of its own. It takes the given date, fulfilment and installment numbers; the recurring children at lines 220-238 have the same shape |
| UpsertTransaction.InstallmentTrigger | app/_actions/upsert-transaction/index.ts:132-138 | it fires only for an INSTALLMENT. For an index of at least 1 it fires exactly when installment children would be created |
| UpsertTransaction.RecurrenceTrigger | app/_actions/upsert-transaction/index.ts:140-145 | it fires exactly for a rule other than NONE with an end date, whatever the fulfilment, and so guarantees the end date that bounds the recurring children |
| UpsertTransaction.CollectOccurrences | app/_actions/upsert-transaction/index.ts:195-214 | the `while` loop collects exactly the recurrence dates the recursive definition describes |
| UpsertTransaction.InstallmentChildren | app/_actions/upsert-transaction/index.ts:148-187 | there are count - index children (none when that is not positive). They are numbered index+1.., dated `addMonths(base, k)`, pending, non-recurring and pointing at the root |
| UpsertTransaction.InstallmentDatesIncrease | app/_actions/upsert-transaction/index.ts:159-161 | installment dates lie after the root's and strictly increase |
| UpsertTransaction.InstallmentSharesAddUpToTotal | app/_actions/upsert-transaction/index.ts:45-53 | when a total is split from installment 1, the root plus its children add back up to the total entered |
| UpsertTransaction.RecurringChildren | app/_actions/upsert-transaction/index.ts:189-243 | one child per generated date. Each inherits the root's fulfilment, has no installment numbers and is a pending, non-recurring child of the root |
| UpsertTransaction.GeneratedChildren | app/_actions/upsert-transaction/index.ts:132-145 | every generated row inherits name, amount, type, category, method, account and owner from the root, and points at it |
| UpsertTransaction.GeneratedChildrenSameContent | app/_actions/upsert-transaction/index.ts:148-243 | generating a root's children at another time with other ids gives the same rows in the same order, up to id and creation day |
| UpsertTransaction.SyncRelated | app/_actions/upsert-transaction/index.ts:121-146 | a child triggers nothing. For a root, the rows pointing at it become exactly the freshly generated children and every other row is untouched |
| UpsertTransaction.SyncIdempotent | app/_actions/upsert-transaction/index.ts:121-146 | synchronising again, at any time and with fresh ids, leaves the accounts and every row outside the series as the first run left them. The children agree with the first run's in order and content, except for their ids and creation days. With the same ids and time the ledger is identical |
| UpsertTransaction.SyncIgnoresSkipWeekdays | app/_actions/upsert-transaction/index.ts:189-243 | the skip-weekday list has no influence on the generated children |
| UpsertTransaction.InstallmentWithRecurrenceGetsBoth | app/_actions/upsert-transaction/index.ts:132-145 | a root that meets both trigger conditions gets both installment and recurring children |
| UpsertTransaction.SaveRoot | app/_actions/upsert-transaction/index.ts:90-114 | a known id is updated in place, keeping its id, parent and creation day. Otherwise one root row is appended. The saved row is the normalised request |
| UpsertTransaction.SavedRowIsFound | app/_actions/upsert-transaction/index.ts:90-114 | after saving with an id, looking that id up finds exactly the saved row |
| UpsertTransaction.ResaveChangesNothing | app/_actions/upsert-transaction/index.ts:90-114 | re-saving a request whose stored row is already its normalisation leaves the ledger as it was |
| UpsertTransaction.Upsert | app/_actions/upsert-transaction/index.ts:37-119 | the result is Invalid exactly when the schema rejects, and Unauthorized exactly when accepted without a user. Accounts are never touched |
| UpsertTransaction.UpsertIdempotent | app/_actions/upsert-transaction/index.ts:37-146 | re-submitting an accepted request with an id succeeds again, at any time and with fresh ids. The accounts and every row outside the series stay as the first submission left them, and the children differ at most in their ids and creation days. With the same ids and time the ledger is identical |
| DeleteTransaction.Delete | app/transactions/_actions/delete-transaction/index.ts:7-33 | an unknown id changes nothing. Otherwise exactly the removed rows disappear: the child alone, or the root and every row pointing at it. Nothing else changes |
| DeleteTransaction.DeleteRemovesTarget | app/transactions/_actions/delete-transaction/index.ts:19-28 | after deleting a known id, no row has that id |
| DeleteTransaction.DeleteRootLeavesNoOrphans | app/transactions/_actions/delete-transaction/index.ts:24-28 | after deleting a root, no row points at it |
| DeleteTransaction.DeleteChildKeepsSeries | app/transactions/_actions/delete-transaction/index.ts:19-22 | deleting a child keeps its parent and siblings |
| DeleteTransaction.DeleteIgnoresScope | app/transactions/_actions/delete-transaction/schema.ts:5 | every scope gives the same result |
| DeleteTransaction.DeleteIdempotent | app/transactions/_actions/delete-transaction/index.ts:7-33 | deleting the same id twice is deleting it once |
| TransactionStatus.ExecutionDate | app/_actions/update-transaction-status/index.ts:32-37 | an execution date exists exactly for EXECUTED. It is now when asked, else the row's own date |
| TransactionStatus.FindOwned | app/_actions/update-transaction-status/index.ts:21-26 | finds the first row with the id that belongs to the user, and none exactly when there is none |
| TransactionStatus.UpdateStatus | app/_actions/update-transaction-status/index.ts:9-47 | the result is Invalid for an empty id and Unauthorized without a user. It is NotFound exactly when the user owns no row with the id. Otherwise only that row's status and `executedAt` change, and they stay consistent |
| TransactionStatus.UpdateStatusRepeatable | app/_actions/update-transaction-status/index.ts:39-47 | applying the same status change again changes nothing |
| TransactionStatus.PendingThenExecutedRestores | app/_actions/update-transaction-status/index.ts:32-47 | marking an executed row pending, then executed on its own date, restores the ledger |
| Dashboard.Percentage | app/_data/get-dashboard/index.ts:68-78 | a finite share is the nearest integer to part/whole*100. A zero whole gives NaN, or an infinity with the part's sign |
| Dashboard.PercentageBounded | app/_data/get-dashboard/index.ts:68-78 | a part between 0 and a positive whole has a percentage in 0..100 |
| Dashboard.PeriodRows | app/_data/get-dashboard/index.ts:14-20 | the summary's rows are exactly the user's rows dated inside the period |
| Dashboard.SummaryPeriod | app/_data/get-dashboard/index.ts:7-19 | a month value that is whole, negative or at least 1 selects the month its truncation names, with the year read as `new Date` reads it. A value strictly between 0 and 1 selects no day |
| Dashboard.KindTotalsPartition | app/_data/get-dashboard/index.ts:22-67 | the four per-type totals add up to the total of all rows in the period |
| Dashboard.KindTotal | app/_data/get-dashboard/index.ts:22-56 | a per-type sum: it is the total of all the rows when every row has the type, and 0 when none has it |
| Dashboard.GetDashboard | app/_data/get-dashboard/index.ts:6-115 | Unauthorized exactly without a user; with a user, Invalid exactly when `Number(month)` is not finite. The totals are per-type sums over the user's rows in the summary period of the current year. balance = deposits - expenses - investments. Percentages are over the period total; categories are grouped expenses. At most 15 latest rows |
| Dashboard.GroupsHoldTotal | app/_data/get-dashboard/index.ts:79-87 | the per-category groups add up to the sum of the grouped rows |
| Dashboard.GroupHoldsCategoryTotal | app/_data/get-dashboard/index.ts:79-87 | each category's group holds the sum of that category's rows |
| Dashboard.GroupsPerCategory | app/_data/get-dashboard/index.ts:79-87 | there is one group per category present, and no category appears twice |
| Dashboard.AddToGroup | app/_data/get-dashboard/index.ts:79-87 | adding a row keeps every existing group in place with its category. It either keeps the group count or appends one new group that holds just the row's category and amount |
| Dashboard.GroupByCategory | app/_data/get-dashboard/index.ts:79-87 | there are never more groups than rows, and at least one group when there is a row |
| Dashboard.Shares | app/_data/get-dashboard/index.ts:88-97 | each breakdown entry keeps its group's category and total, with its percentage of the expense total |
| Dashboard.DashboardCategoryBreakdown | app/_data/get-dashboard/index.ts:79-97 | the breakdown's totals sum to the expense total. Each entry is the sum of its category's expenses, and categories are distinct |
| Dashboard.DashboardCategoriesCovered | app/_data/get-dashboard/index.ts:79-87 | a category is in the breakdown exactly when the month has an expense in it |
| Dashboard.LatestRows | app/_data/get-dashboard/index.ts:98-104 | `take: 15` ordered by date descending keeps min(n, 15) of the rows, newest first |
| Dashboard.LatestRowsAreNewest | app/_data/get-dashboard/index.ts:98-104 | no row left out is newer than a row shown |
| Dashboard.DashboardLatestTransactions | app/_data/get-dashboard/index.ts:98-104 | the rows shown are the user's, are in the period and are newest first. Every row left out is no newer than any row shown |
| Dashboard.DashboardPercentagesBounded | app/_data/get-dashboard/index.ts:60-78 | with non-negative amounts and a positive period total, every type percentage is in 0..100. An empty month gives NaN for all three |
| Dashboard.NonNegativeKindTotals | app/_data/get-dashboard/index.ts:22-56 | with non-negative amounts every type total is non-negative |
| Dates.Trunc | app/_data/dashboard-context/index.ts:38 | `Math.trunc` rounds toward zero |
| Dates.DateYear | app/_data/dashboard-context/index.ts:49-50 | `new Date(year, …)` reads a year of 0 to 99 as 1900 to 1999 and leaves every other year as it is |
| DashboardContext.SelectedMonth | app/_data/dashboard-context/index.ts:33-44 | a finite month whose truncation is in 1..12 is used truncated. Anything else falls back to the current month |
| DashboardContext.SelectedYear | app/_data/dashboard-context/index.ts:35-47 | a finite year is used as given, else the current year |
| DashboardContext.PreviousMonth | app/_data/dashboard-context/index.ts:52-53 | the previous month is the month whose index is one less, so January wraps to December of the year before |
| DashboardContext.GetDashboardContext | app/_data/dashboard-context/index.ts:22-83 | fails exactly without a user. The current period is the resolved month, in the year `new Date` reads from the truncated year. The previous period starts at the month before and ends the day before the current start, except for January of year 100, whose previous period is December 1999 |
| DashboardContext.ContextPeriodsAdjacent | app/_data/dashboard-context/index.ts:49-68 | outside January of year 100, the two periods are non-empty and ordered, and together cover exactly the days from the previous start to the current end |
| DashboardContext.CenturyJanuaryLooksAhead | app/_data/dashboard-context/index.ts:49-68 | for January of year 100 the current period is January 100 and the previous period is December 1999, which starts after the current one ends |
| DashboardContext.CenturyJanuary | app/_data/dashboard-context/index.ts:49-59 | it holds exactly for the months whose year `new Date` takes as written while the month before lands in a year (99) that it reads as 19xx |
| DashboardContext.DefaultContextIsCurrentMonth | app/_data/dashboard-context/index.ts:32-50 | without arguments the context is the clock's month and year |
| DashboardContext.ContextMatchesSummaryPeriod | app/_data/dashboard-context/index.ts:33-50 | for a whole month 1..12 of the current year, the context's current period is the period `getDashboard` sums |
| AccountSchema.NormalizeColor | app/_actions/accounts/schema.ts:6-14 | rejected exactly when the trimmed colour fails the pattern. An absent colour stays absent. Otherwise the stored colour is '#' and 3-8 hex digits, with '#' added only if it was missing |
| AccountSchema.Prefixed | app/_actions/accounts/schema.ts:12-14 | a colour that passes the pattern becomes a stored colour, gaining a leading '#' only if it lacks one |
| AccountSchema.StoredColorNormalizes | app/_actions/accounts/schema.ts:6-14 | a stored colour passes the schema unchanged |
| AccountSchema.NormalizeColorIdempotent | app/_actions/accounts/schema.ts:9-14 | a normalised colour is accepted and normalises to itself |
| AccountSchema.ParseAccountSettings | app/_actions/accounts/schema.ts:3-20 | rejected exactly for a blank name or a bad colour. Otherwise the name is trimmed and non-empty, and the colour is normalised |
| AccountSchema.ParseDeleteAccount | app/_actions/accounts/schema.ts:24-26 | accepted exactly for a non-empty id |
| Accounts.ApplyDefaults | app/_actions/accounts/index.ts:25-33 | every flag given is kept and every flag omitted becomes true |
| Accounts.FindOwnedAccount | app/_actions/accounts/index.ts:36-41 | finds the first account with the id that belongs to the user, and none exactly when there is none |
| Accounts.SaveAccount | app/_actions/accounts/index.ts:17-53 | Invalid, Unauthorized and NotFound each occur exactly under their condition. An update rewrites only the user's account; a create appends one account with the trimmed name, the normalised colour and defaulted flags. Transactions are untouched |
| Accounts.SaveAccountUpdateIdempotent | app/_actions/accounts/index.ts:35-42 | saving the same settings for an existing account twice is saving them once |
| Accounts.Fallback | app/_actions/accounts/index.ts:71-81 | the fallback is another account of the user's with the earliest creation day, and none exactly when the user has no other account |
| Accounts.Reassign | app/_actions/accounts/index.ts:83-91 | exactly the user's transactions on the deleted account move to the fallback |
| Accounts.MoveThenDelete | app/_actions/accounts/index.ts:83-98 | the transactions always move. The deletion then removes the user's account with that id, or fails after the move when there is none |
| Accounts.DeleteAccount | app/_actions/accounts/index.ts:55-101 | rejected in order: empty id, no user, at most one account, no fallback. Otherwise the transactions move first. The account is then removed, or the call fails with the move already done when the user owns no account with that id |
| Accounts.DeleteAccountKeepsReferences | app/_actions/accounts/index.ts:83-98 | after a deletion, every transaction that pointed at the deleted account points at a surviving account of the user's |
| Accounts.DeleteAccountTouchesOnlyItsTransactions | app/_actions/accounts/index.ts:83-91 | no other transaction changes |
| Accounts.DeleteAccountKeepsOneAccount | app/_actions/accounts/index.ts:63-98 | a successful deletion removes exactly one account, and the user still has one |
| AccountData.AccountsByAge | app/_data/accounts/index.ts:5-8 | the user's accounts, reordered oldest first |
| AccountData.EnsureDefaultAccount | app/_data/accounts/index.ts:4-26 | the list is never empty, is oldest first and holds exactly the user's accounts. A user without accounts gets one "Conta principal" with every flag on, and nothing else changes |
| AccountData.EnsureDefaultAccountIdempotent | app/_data/accounts/index.ts:10-25 | a second call creates nothing and returns the same list, in the same order |
| AccountData.FirstAccountIsOldest | app/_data/accounts/index.ts:5-8 | the first account listed is no younger than any of the user's accounts |
| AccountData.AssignOrphans | app/_data/accounts/index.ts:33-41 | exactly the user's transactions without an account move to the given account |
| AccountData.GetAccountsForUserId | app/_data/accounts/index.ts:28-45 | returns the ensured account list and moves the user's orphan transactions to its first account |
| AccountData.GetAccountsLeavesNoOrphans | app/_data/accounts/index.ts:32-42 | afterwards every transaction of the user has an account. Former orphans are on the oldest account; others are untouched |
| AccountData.GetAccountsForUserIdIdempotent | app/_data/accounts/index.ts:28-45 | a second call changes nothing |
| AccountData.GetUserAccounts | app/_data/accounts/index.ts:47-54 | fails exactly without a user. Otherwise it returns exactly what `getAccountsForUserId` returns for that user: a non-empty list of the user's accounts |
| SubscriptionPlans.PlanBySlug | app/_config/subscription-plans.ts:102-108 | the record keyed by slug maps every slug to a catalogue plan with that slug |
| SubscriptionPlans.LastWithSlug | app/_config/subscription-plans.ts:102-108 | the fold keeps the last plan with the slug: the result sits at a position after which no plan has that slug. Without such a plan it keeps the seed |
| SubscriptionPlans.VisiblePlans | app/_config/subscription-plans.ts:110-112 | exactly the catalogue's visible plans |
| SubscriptionPlans.VisiblePlansAreBasicAndPlus | app/_config/subscription-plans.ts:110-112 | the visible plans are basic then plus |
| SubscriptionPlans.IsPaidPlanId | app/_config/subscription-plans.ts:114-118 | holds exactly for the strings "plus" and "premium" |
| SubscriptionPlans.GetActiveSubscriptionPlan | app/_config/subscription-plans.ts:132-140 | a paid id gives the paid plan with that slug. Anything else, including none, gives the basic plan |
| SubscriptionPlans.ActivePlanRoundTrip | app/_config/subscription-plans.ts:124-140 | storing a paid plan's slug and reading the active plan back gives that plan. Basic maps to basic |
| SubscriptionPlans.PaidPlansUnlimited | app/_config/subscription-plans.ts:31-100 | a plan is paid exactly when its slug is a paid id. Paid plans are unlimited with AI reports; the free plan costs 0 and allows 10 |
| TransactionLimit.GetCurrentMonthTransactions | app/_data/get-current-month-transactions/index.ts:4-16 | counts the user's rows created, not dated, in the clock's month |
| TransactionLimit.CanUserAddTransaction | app/_data/can-user-add-transaction/index.ts:5-20 | fails exactly without a user. A missing or zero limit allows; otherwise the month's count must be below the limit |
| TransactionLimit.PaidPlanAlwaysAllowed | app/_data/can-user-add-transaction/index.ts:15-17 | a paid plan always allows |
| TransactionLimit.FreePlanAllowsTen | app/_data/can-user-add-transaction/index.ts:11-19 | missing or unknown plan metadata allows exactly while fewer than 10 rows were created this month |
| TransactionsPage.FoldAdds | app/transactions/page.tsx:36-48 | the reduction adds each row's signed amount to its own account's running total and no other. An account gets an entry exactly when a row names it |
| TransactionsPage.Step | app/transactions/page.tsx:36-46 | one reduction step adds the row's signed amount to its own account's total and leaves every other total alone. A row without an account, or with an empty one, is skipped. An entry is created only for the row's account |
| TransactionsPage.Fold | app/transactions/page.tsx:36-48 | the reduction keeps every entry it starts with. It adds an entry for each non-empty account id a row names, and for no other id |
| TransactionsPage.ExecutedBalances | app/transactions/page.tsx:34-48 | every account in the page's totals has a non-empty id and at least one executed row |
| TransactionsPage.ExecutedSelectionKeepsBalance | app/transactions/page.tsx:34-35 | selecting executed rows first does not change any balance |
| TransactionsPage.ExecutedBalancesCorrect | app/transactions/page.tsx:34-48 | the page's total for an account is the signed sum of its executed rows: deposits add, every other type subtracts. It has an entry exactly when such a row exists |
| TransactionsPage.BalanceOfPermutation | app/transactions/page.tsx:18-48 | a balance does not depend on the order the rows were read in |
| TransactionsPage.IgnoredRowsKeepBalances | app/transactions/page.tsx:35-39 | a pending row, or a row on another account or on none, does not move an account's balance |
| TransactionsPage.WithBalances | app/transactions/page.tsx:50-53 | each account is paired with its total, or 0 when it has none |
| TransactionsPage.UserTransactions | app/transactions/page.tsx:18-25 | the user's transactions, newest first |
| TransactionsPage.TransactionsPageData | app/transactions/page.tsx:12-53 | no user means the redirect. Otherwise the database is left as loading the accounts leaves it, and the page lists the user's transactions newest first as read before that, with the accounts' balances over those rows |
| TransactionsPage.PageBalancesAreExecutedSums | app/transactions/page.tsx:18-53 | each listed account's balance is the signed sum of the user's executed transactions on it, as read when the page loaded |
| TransactionsPage.PageListsRowsBeforeAssignment | app/transactions/page.tsx:18-53 | a row of the user's without an account is still listed, although the database returned has none of the user's rows without an account |
| TransactionDialog.ClientRulesMatchServer | app/_components/upsert-transaction-dialog.tsx:118-171 | the form's cross-field rules raise exactly the server schema's issues |
| TransactionDialog.ClientAcceptsIffServerAccepts | app/_components/upsert-transaction-dialog.tsx:83-171 | on the same values, the form accepts together with a UUID account exactly when the server accepts |
| TransactionDialog.ClientFieldsValid | app/_components/upsert-transaction-dialog.tsx:83-117 | for a UUID account, the form's per-field rules hold exactly when the server schema's per-field rules raise nothing |
| TransactionDialog.ClientCrossFieldIssues | app/_components/upsert-transaction-dialog.tsx:118-171 | the form raises, in order, exactly the issues the server schema's cross-field rules raise on the same values |
| TransactionDialog.ClientAccepts | app/_components/upsert-transaction-dialog.tsx:83-171 | a form that submits has a non-blank name, a positive amount and a chosen account. For an INSTALLMENT it has both numbers with index <= count |
| TransactionDialog.ClearUnused | app/_components/upsert-transaction-dialog.tsx:322-342 | the clean-up changes only the fulfilment fields. Installment numbers survive only for an INSTALLMENT, and the "value is total" switch becomes false elsewhere. The rule survives only for a FORECAST. The interval survives only under CUSTOM and the end date only under a repeating rule. A skip list (empty when absent) exists exactly under DAILY |
| TransactionDialog.Payload | app/_components/upsert-transaction-dialog.tsx:313-344 | the name is sent trimmed, as the form's resolver returns it. Installment fields only for INSTALLMENT, whose "value is total" is false otherwise. No recurrence outside FORECAST, the interval only for CUSTOM, `endsAt` only when repeating, and the skip list exactly for a DAILY forecast. Every field that is kept carries the form's value: type, category, method, account, status, and the installment numbers, recurrence, interval, end date and skip list (empty when unset) wherever they apply |
| TransactionDialog.SubmittedPayloadAccepted | app/_components/upsert-transaction-dialog.tsx:313-346 | a form the client accepts, with a UUID account, produces a payload the server accepts |
| TransactionDialog.PayloadKeepsWellFormed | app/_components/upsert-transaction-dialog.tsx:313-344 | trimming the name and clearing the unused fields keep a request the server would accept acceptable |
| TransactionDialog.PayloadNormalised | app/_components/upsert-transaction-dialog.tsx:322-344 | normalising a payload's values again gives the same payload |
| TransactionDialog.DerivePreset | app/_components/upsert-transaction-dialog.tsx:254-267 | DAILY with no skip list is "every day", and DAILY skipping exactly Sunday and Saturday is "weekdays only". Any other DAILY is "custom", and other types show as themselves |
| TransactionDialog.OtherWeekdays | app/_components/upsert-transaction-dialog.tsx:295-302 | the six weekdays other than the base one, ascending |
| TransactionDialog.ApplyPreset | app/_components/upsert-transaction-dialog.tsx:269-311 | a non-daily choice clears the skip list, and the daily choices set DAILY. "Custom" keeps a non-empty list; otherwise it skips every weekday but the date's |
| TransactionDialog.PresetRoundTrip | app/_components/upsert-transaction-dialog.tsx:254-311 | choosing "every day", "weekdays only" or a non-daily type and deriving again gives back the choice. "Custom" comes back unless its list is exactly the weekend |
| TransactionDialog.DerivedPresetRestores | app/_components/upsert-transaction-dialog.tsx:254-311 | re-applying the shown preset keeps the recurrence, and the DAILY skip list as a collection |
| TransactionDialog.ToggleWeekday | app/_components/upsert-transaction-dialog.tsx:641-656 | never commits seven skipped days. A committed list is ascending and has the day added or removed |
| TransactionDialog.ToggleKeepsSkipListValid | app/_components/upsert-transaction-dialog.tsx:641-656 | starting from distinct weekdays, every committed list is distinct weekdays with a day left |
| TransactionDialog.ToggleTwiceRestores | app/_components/upsert-transaction-dialog.tsx:641-656 | clicking the same weekday twice restores the skip list up to order |
| ManageAccounts.SetFlag | app/_components/manage-accounts-button.tsx:109-120 | the switched flag takes the new value and the other four keep theirs |
| ManageAccounts.AsInput | app/_components/manage-accounts-button.tsx:109-120 | sending every flag explicitly makes the server's defaults reproduce the account's flags exactly |
| ManageAccounts.TogglePayload | app/_components/manage-accounts-button.tsx:99-121 | keeps the account's id, name and colour (absent as null). The switched flag is `checked`; the other four are copied |
| ManageAccounts.ToggleChangesOnlyThatFlag | app/_components/manage-accounts-button.tsx:99-121 | saving a switch on a stored account changes that flag of that account and nothing else |
| ManageAccounts.CreatePayload | app/_components/manage-accounts-button.tsx:85-96 | nothing is sent for a blank name. Otherwise it sends the trimmed name and the colour, with an empty colour as null |
| ManageAccounts.CreateMakesTrimmedAccount | app/_components/manage-accounts-button.tsx:85-96 | a sent create request with an acceptable colour appends exactly one account: a fresh id, the trimmed name, the trimmed colour with a leading '#' (none for an empty colour), every flag on and today's creation day |
| ManageAccounts.OtherListedAccount | app/_components/manage-accounts-button.tsx:205 | when more than one account is listed, the user owns a listed account other than the one being deleted |
| ManageAccounts.OfferedDeleteSucceeds | app/_components/manage-accounts-button.tsx:205 | when the panel offers deletion (more than one account), deleting any listed account succeeds |

## Behaviour worth knowing

Some behaviour of the code is easy to miss. The model follows the code:

- **Installment and recurrence children are not exclusive.** `syncRelatedTransactions`
  (app/_actions/upsert-transaction/index.ts:132-145) tests the installment condition and the
  recurrence condition one after the other. An installment root with a recurrence and an end date
  gets both kinds of children (`UpsertTransaction.InstallmentWithRecurrenceGetsBoth`).
- **Deletion ignores its scope.** The delete schema takes a scope of CURRENT, FORWARD or ALL
  (app/transactions/_actions/delete-transaction/schema.ts:5), and the delete button sends each of
  them (app/transactions/_components/delete-transaction-button.tsx:67-81). The action reads only the
  id and checks no owner (app/transactions/_actions/delete-transaction/index.ts:7-29), so every scope
  deletes the same rows (`DeleteTransaction.DeleteIgnoresScope`).
- **Skip weekdays are stored, not applied.** The upsert stores the list
  (app/_actions/upsert-transaction/index.ts:79-98), and child generation (lines 121-243) never reads
  it (`UpsertTransaction.SyncIgnoresSkipWeekdays`).
- **An end date equal to the next occurrence is included.** The recurrence loop
  (app/_actions/upsert-transaction/index.ts:205) compares with `<=`.
- **An upsert updates by id alone.** The update matches only the id
  (app/_actions/upsert-transaction/index.ts:113) and writes the caller as owner (lines 100 and 111).
  The name is stored as submitted, because the schema's parsed result is discarded (lines 38-39).
  The transaction form trims the name before it submits, so only other callers can store an
  untrimmed one.
- **Account deletion is not atomic.** The transactions move to the fallback account
  (app/_actions/accounts/index.ts:83-91) before the account is deleted (line 93). When that delete
  matches no account of the user's, the transactions have already moved (`Accounts.DeleteAccount`,
  outcome `FailedAfterReassign`).
- **Percentages have no zero guard.** Dividing by a zero total (app/_data/get-dashboard/index.ts:68-77)
  yields NaN or an infinity. The model keeps those values instead of requiring a positive total.
- **The dashboard year is read as `new Date` reads it.** `getDashboardContext` returns the year
  untruncated (app/_data/dashboard-context/index.ts:81). The periods are built with `new Date`
  (lines 49-68), which truncates the year and reads 0 to 99 as 1900 to 1999. The month before is
  found on the real date first, so for January of year 100 the previous period is December 1999
  (`DashboardContext.CenturyJanuaryLooksAhead`).
- **A month strictly between 0 and 1 selects nothing.** `getDashboard` subtracts 1 from the month
  value and truncates each bound separately (app/_data/get-dashboard/index.ts:8-19). Both bounds
  then fall on the same month boundary, and no row is summed (`Dashboard.SummaryPeriod`).

## Left out

- The database, authentication, the clock and id generation are parameters. Cache revalidation, logging and thrown-error messages have no counterpart.
- The upsert's delete-then-recreate of children is not atomic, and two upserts can race. The model applies each action as one step.
- JavaScript `Date` is modelled as day numbers, with no time of day or time zone. The day overflow of `setMonth` and `setFullYear` is inside the abstract `Calendar`, of which only monotonicity is assumed.
- Floating point is modelled as exact reals: `amount / installmentCount` is real division, and `Math.round(x)` is `Floor(x + 0.5)`.
- Installment index and count are integers. The server schema would also accept fractional numbers of at least 1.
- `Number(month)` and `Number(year)` on strings are inputs of type `Num` (a finite real, NaN or an infinity). String parsing is not modelled.
- Dates outside JavaScript's range (more than 100,000,000 days from 1970) are not modelled: a finite but huge month or year is taken as a valid month.
- Database column defaults are not modelled, apart from `createdAt` and minted ids, which are parameters.
- `UpsertTransaction.ChildRow`: generated children get `installmentValueIsTotal` false and no skip-weekday list. Neither generator (app/_actions/upsert-transaction/index.ts:157-177 and 218-236) writes those two columns, so the stored values come from the database's column defaults. The model assumes those defaults are false and null.
- `Ledger.Transaction.IsRoot` treats only an absent parent id as a root. The source tests truthiness, so an empty-string parent id, which the application never stores, would also count as a root.
- The skip-weekday list is kept as a list of integers, not as its JSON text.
- `groupBy` returns groups in an order the database does not promise. The model's order is one fixed choice, and the proofs do not depend on it.
- The order among rows or accounts with equal sort keys is not promised by the database, so no contract depends on it.
- The UI is not modelled: JSX, the form's initial values, the account panel's `localeCompare` ordering, and currency formatting.
- Stripe checkout, the portal, webhooks and the AI report are outside this model.
- `Dashboard.GetDashboard`: the `lastTransactions` contract gives the count, ordering and membership (through `Dashboard.DashboardLatestTransactions`). The JSON round-trip of the rows is not modelled.
- `TransactionLimit.CanUserAddTransaction` and `TransactionLimit.FreePlanAllowsTen` take the plan table of app/_config/subscription-plans.ts. The function imports it from `@/app/_constants/subscription-plans`, which is not part of this model; the two are assumed to hold the same plans.

=== FILE: account_data.dfy ===
/** `ensureDefaultAccount`, `getAccountsForUserId` and `getUserAccounts`: every user has an account,
    and every transaction of theirs is on one. */
module AccountData {
  import opened Wrappers
  import opened Dates
  import opened Ledger
  import opened Seqs
  import opened Sorting

  const DefaultAccountName: string := "Conta principal"

  function AccountAge(a: Account): int {
    a.createdAt
  }

  /** The user's accounts, oldest first. */
  function AccountsByAge(accounts: seq<Account>, user: UserId): (r: seq<Account>)
    ensures SortedBy(r, AccountAge)
    ensures multiset(r) == multiset(AccountsOf(accounts, user))
  {
    SortBy(AccountsOf(accounts, user), AccountAge)
  }

  /** The account created for a user who has none. */
  function DefaultAccount(user: UserId, now: Day, mint: nat -> Id): Account {
    Account(mint(0), user, DefaultAccountName, None, AllIncluded, now)
  }

  /** `ensureDefaultAccount(userId)`: the user's accounts oldest first; a user without any gets one
      named "Conta principal" with every flag on, which is then the only one listed. */
  function EnsureDefaultAccount(db: Db, user: UserId, now: Day, mint: nat -> Id): (r: (Db, seq<Account>))
    ensures |r.1| > 0
    ensures r.0.transactions == db.transactions
    ensures |AccountsOf(db.accounts, user)| > 0 ==> r.0 == db
    ensures |AccountsOf(db.accounts, user)| == 0 ==>
      r.0.accounts == db.accounts + [DefaultAccount(user, now, mint)] && r.1 == [DefaultAccount(user, now, mint)]
    ensures SortedBy(r.1, AccountAge)
    ensures multiset(r.1) == multiset(AccountsOf(r.0.accounts, user))
  {
    var existing := AccountsByAge(db.accounts, user);
    if |existing| == 0 then
      var created := DefaultAccount(user, now, mint);
      var accounts := db.accounts + [created];
      FilterConcat(db.accounts, [created], OwnedBy(user));
      assert Filter([created], OwnedBy(user)) == [created];
      (db.(accounts := accounts), [created])
    else
      (db, existing)
  }

  /** Asking again returns the same accounts and creates nothing. */
  lemma EnsureDefaultAccountIdempotent(db: Db, user: UserId, now: Day, mint: nat -> Id)
    ensures var first := EnsureDefaultAccount(db, user, now, mint);
            EnsureDefaultAccount(first.0, user, now, mint).0 == first.0
            && EnsureDefaultAccount(first.0, user, now, mint).1 == first.1
  {
    var first := EnsureDefaultAccount(db, user, now, mint);
    assert first.1[0] in multiset(AccountsOf(first.0.accounts, user));
  }

  /** The listed first account is the user's oldest. */
  lemma FirstAccountIsOldest(db: Db, user: UserId, now: Day, mint: nat -> Id, k: nat)
    requires var r := EnsureDefaultAccount(db, user, now, mint);
             k < |r.0.accounts| && r.0.accounts[k].userId == user
    ensures var r := EnsureDefaultAccount(db, user, now, mint);
            r.1[0].createdAt <= r.0.accounts[k].createdAt
  {
    var r := EnsureDefaultAccount(db, user, now, mint);
    var a := r.0.accounts[k];
    assert OwnedBy(user)(a);
    assert a in AccountsOf(r.0.accounts, user);
    assert a in multiset(AccountsOf(r.0.accounts, user));
    SortedHeadIsLeast(r.1, AccountAge, a);
  }

  /** The `updateMany` that puts the user's transactions without an account on `to`. */
  function AssignOrphans(rows: seq<Transaction>, user: UserId, to: Id): (r: seq<Transaction>)
    ensures |r| == |rows|
    ensures forall k :: 0 <= k < |rows| ==>
      if rows[k].userId == user && rows[k].accountId.None?
      then r[k] == rows[k].(accountId := Some(to))
      else r[k] == rows[k]
  {
    seq(|rows|, k requires 0 <= k < |rows| =>
      if rows[k].userId == user && rows[k].accountId.None? then rows[k].(accountId := Some(to)) else rows[k])
  }

  /** `getAccountsForUserId(userId)`: the user's accounts (created if needed), with every transaction
      of theirs that had no account moved onto the first, oldest one. */
  function GetAccountsForUserId(db: Db, user: UserId, now: Day, mint: nat -> Id): (r: (Db, seq<Account>))
    ensures |r.1| > 0
    ensures r.1 == EnsureDefaultAccount(db, user, now, mint).1
    ensures r.0.accounts == EnsureDefaultAccount(db, user, now, mint).0.accounts
    ensures r.0.transactions == AssignOrphans(db.transactions, user, r.1[0].id)
  {
    var ensured := EnsureDefaultAccount(db, user, now, mint);
    (ensured.0.(transactions := AssignOrphans(ensured.0.transactions, user, ensured.1[0].id)), ensured.1)
  }

  /** Afterwards every transaction of the user is on an account, the ones that had none are on the
      oldest account, and every other row is as it was. */
  lemma GetAccountsLeavesNoOrphans(db: Db, user: UserId, now: Day, mint: nat -> Id, k: nat)
    requires k < |db.transactions|
    ensures var r := GetAccountsForUserId(db, user, now, mint);
            && |r.0.transactions| == |db.transactions|
            && (r.0.transactions[k].userId == user ==> r.0.transactions[k].accountId.Some?)
            && (db.transactions[k].accountId.None? && db.transactions[k].userId == user ==>
                  r.0.transactions[k].accountId == Some(r.1[0].id))
            && (db.transactions[k].accountId.Some? || db.transactions[k].userId != user ==>
                  r.0.transactions[k] == db.transactions[k])
  {
  }

  /** Loading the accounts a second time changes nothing more. */
  lemma GetAccountsForUserIdIdempotent(db: Db, user: UserId, now: Day, mint: nat -> Id)
    ensures var first := GetAccountsForUserId(db, user, now, mint);
            GetAccountsForUserId(first.0, user, now, mint).0 == first.0
  {
    var first := GetAccountsForUserId(db, user, now, mint);
    var ensured := EnsureDefaultAccount(db, user, now, mint);
    EnsuredAccountsPersist(db, user, now, mint);
    var again := EnsureDefaultAccount(first.0, user, now, mint);
    assert again.0 == first.0;
    NoOrphansLeft(db.transactions, user, first.1[0].id, again.1[0].id);
  }

  /** The accounts listed are stored, so a second call finds the user has some. */
  lemma EnsuredAccountsPersist(db: Db, user: UserId, now: Day, mint: nat -> Id)
    ensures |AccountsOf(EnsureDefaultAccount(db, user, now, mint).0.accounts, user)| > 0
  {
    var r := EnsureDefaultAccount(db, user, now, mint);
    assert r.1[0] in multiset(AccountsOf(r.0.accounts, user));
  }

  /** Once the orphans are placed, placing them again changes nothing, whatever the target. */
  lemma NoOrphansLeft(rows: seq<Transaction>, user: UserId, to: Id, other: Id)
    ensures AssignOrphans(AssignOrphans(rows, user, to), user, other) == AssignOrphans(rows, user, to)
  {
    var once := AssignOrphans(rows, user, to);
    assert forall k :: 0 <= k < |once| ==> !(once[k].userId == user && once[k].accountId.None?);
  }

  /** `getUserAccounts()`: the signed-in user's accounts. */
  function GetUserAccounts(db: Db, auth: Option<UserId>, now: Day, mint: nat -> Id): (r: Result<(Db, seq<Account>), Failure>)
    ensures r.Err? <==> auth.None?
    ensures r.Err? ==> r.error == Unauthorized
    ensures r.Ok? ==> |r.value.1| > 0 && forall k :: 0 <= k < |r.value.1| ==> r.value.1[k].userId == auth.value
    ensures r.Ok? ==> r.value == GetAccountsForUserId(db, auth.value, now, mint)
  {
    match auth
    case None => Err(Unauthorized)
    case Some(user) =>
      var r := GetAccountsForUserId(db, user, now, mint);
      assert forall k :: 0 <= k < |r.1| ==> r.1[k] in multiset(AccountsOf(r.0.accounts, user));
      Ok(r)
  }
}

=== FILE: account_schema.dfy ===
/** The validation of account settings and of account deletion requests. */
module AccountSchema {
  import opened Wrappers
  import opened Text
  import opened Ledger

  /** The five inclusion flags as submitted; an absent one is left for the action to default. */
  datatype FlagInput = FlagInput(
    includeInBalance: Option<bool>,
    includeInCashFlow: Option<bool>,
    includeInInvestments: Option<bool>,
    includeInAiReports: Option<bool>,
    includeInOverview: Option<bool>)

  /** The settings form as submitted: `color` is None when absent or null. */
  datatype AccountSettingsInput = AccountSettingsInput(id: Option<string>, name: string, color: Option<string>,
                                                       flags: FlagInput)

  /** The settings after validation: the name trimmed, the colour normalised. */
  datatype AccountSettings = AccountSettings(id: Option<string>, name: string, color: Option<string>,
                                             flags: FlagInput)

  /** `^#?[0-9a-fA-F]{3,8}$`: an optional `#` followed by three to eight hex digits. */
  predicate IsHexColor(s: string) {
    if StartsWith(s, '#') then HexRun(s[1..]) else HexRun(s)
  }

  /** Three to eight hex digits. */
  predicate HexRun(d: string) {
    3 <= |d| <= 8 && forall i :: 0 <= i < |d| ==> IsHexDigit(d[i])
  }

  /** A stored colour: `#` and three to eight hex digits. */
  predicate IsStoredColor(c: string) {
    4 <= |c| <= 9 && c[0] == '#' && forall i :: 1 <= i < |c| ==> IsHexDigit(c[i])
  }

  /** The colour field: trimmed, checked against the pattern, and given a leading `#` if it lacks one;
      an absent colour stays absent. */
  function NormalizeColor(color: Option<string>): (r: Result<Option<string>, Failure>)
    ensures r.Err? <==> color.Some? && !IsHexColor(Trim(color.value))
    ensures r.Err? ==> r.error == Invalid
    ensures r.Ok? ==> (r.value.None? <==> color.None?)
    ensures r.Ok? && r.value.Some? ==> IsStoredColor(r.value.value)
    ensures r.Ok? && r.value.Some? ==>
      var t := Trim(color.value);
      r.value.value == (if StartsWith(t, '#') then t else ['#'] + t)
  {
    match color
    case None => Ok(None)
    case Some(s) =>
      var t := Trim(s);
      if !IsHexColor(t) then Err(Invalid)
      else Ok(Some(Prefixed(t)))
  }

  /** A pattern-matching colour with its `#` ensured. */
  function Prefixed(t: string): (c: string)
    requires IsHexColor(t)
    ensures IsStoredColor(c)
    ensures c == (if StartsWith(t, '#') then t else ['#'] + t)
  {
    if StartsWith(t, '#') then
      assert HexRun(t[1..]);
      assert forall i :: 1 <= i < |t| ==> t[i] == t[1..][i - 1];
      t
    else
      var c := ['#'] + t;
      assert HexRun(t);
      assert forall i :: 1 <= i < |c| ==> c[i] == t[i - 1];
      c
  }

  /** A stored colour passes the pattern unchanged. */
  lemma StoredColorNormalizes(c: string)
    requires IsStoredColor(c)
    ensures NormalizeColor(Some(c)) == Ok(Some(c))
  {
    assert !IsHexDigit(c[|c| - 1]) ==> false;
    assert !IsSpace(c[0]) && !IsSpace(c[|c| - 1]);
    TrimUnchanged(c);
    assert StartsWith(c, '#');
    assert forall i :: 0 <= i < |c[1..]| ==> c[1..][i] == c[i + 1];
    assert HexRun(c[1..]);
  }

  /** A normalised colour is accepted as it is and normalises to itself. */
  lemma NormalizeColorIdempotent(color: Option<string>)
    requires NormalizeColor(color).Ok?
    ensures NormalizeColor(NormalizeColor(color).value) == NormalizeColor(color)
  {
    var c := NormalizeColor(color).value;
    if c.Some? {
      StoredColorNormalizes(c.value);
    }
  }

  /** `accountSettingsSchema.parse`: a name that trims to nothing, or a colour that does not match the
      pattern, is rejected. */
  function ParseAccountSettings(input: AccountSettingsInput): (r: Result<AccountSettings, Failure>)
    ensures r.Err? <==> AllSpace(input.name) || NormalizeColor(input.color).Err?
    ensures r.Err? ==> r.error == Invalid
    ensures r.Ok? ==>
      && r.value.id == input.id && r.value.flags == input.flags
      && r.value.name == Trim(input.name) && r.value.name != ""
      && r.value.color == NormalizeColor(input.color).value
  {
    TrimEmptyIffAllSpace(input.name);
    var name := Trim(input.name);
    if name == "" then Err(Invalid)
    else match NormalizeColor(input.color)
      case Err(e) => Err(e)
      case Ok(color) => Ok(AccountSettings(input.id, name, color, input.flags))
  }

  /** `deleteAccountSchema.parse`: the id must not be empty. */
  function ParseDeleteAccount(id: string): (r: Result<Id, Failure>)
    ensures r.Ok? <==> |id| > 0
    ensures r.Ok? ==> r.value == id
    ensures r.Err? ==> r.error == Invalid
  {
    if |id| > 0 then Ok(id) else Err(Invalid)
  }
}

=== FILE: accounts.dfy ===
/** `saveAccount` and `deleteAccount`: the account settings actions. */
module Accounts {
  import opened Wrappers
  import opened Dates
  import opened Ledger
  import opened Seqs
  import opened Sorting
  import opened AccountSchema

  /** The flags an account is saved with: each submitted flag as given, each absent one `true`. */
  function ApplyDefaults(f: FlagInput): (r: Flags)
    ensures f == FlagInput(None, None, None, None, None) ==> r == AllIncluded
    ensures f.includeInBalance.Some? ==> r.includeInBalance == f.includeInBalance.value
    ensures f.includeInCashFlow.Some? ==> r.includeInCashFlow == f.includeInCashFlow.value
    ensures f.includeInInvestments.Some? ==> r.includeInInvestments == f.includeInInvestments.value
    ensures f.includeInAiReports.Some? ==> r.includeInAiReports == f.includeInAiReports.value
    ensures f.includeInOverview.Some? ==> r.includeInOverview == f.includeInOverview.value
  {
    Flags(f.includeInBalance.GetOr(true), f.includeInCashFlow.GetOr(true), f.includeInInvestments.GetOr(true),
          f.includeInAiReports.GetOr(true), f.includeInOverview.GetOr(true))
  }

  /** The position of the first account with the id that belongs to the user. */
  function FindOwnedAccount(accounts: seq<Account>, id: Id, user: UserId): (r: Option<nat>)
    ensures r.Some? ==> r.value < |accounts| && accounts[r.value].id == id && accounts[r.value].userId == user
    ensures r.Some? ==> forall j :: 0 <= j < r.value ==> !(accounts[j].id == id && accounts[j].userId == user)
    ensures r.None? <==> forall j :: 0 <= j < |accounts| ==> !(accounts[j].id == id && accounts[j].userId == user)
  {
    FirstIndex(accounts, (a: Account) => a.id == id && a.userId == user)
  }

  /** Whether the settings name an account to update: a non-empty id. */
  predicate NamesAccount(s: AccountSettings) {
    s.id.Some? && s.id.value != ""
  }

  /** `saveAccount`: validation, then authentication; with an id, the caller's account with that id
      gets the new name, colour and flags (an id that is not the caller's fails); without one, a new
      account is created for the caller. Transactions are never touched. */
  function SaveAccount(db: Db, auth: Option<UserId>, input: AccountSettingsInput, now: Day, mint: nat -> Id)
    : (r: Result<Db, Failure>)
    ensures r == Err(Invalid) <==> ParseAccountSettings(input).Err?
    ensures r == Err(Unauthorized) <==> ParseAccountSettings(input).Ok? && auth.None?
    ensures r == Err(NotFound) <==>
      && ParseAccountSettings(input).Ok? && auth.Some? && NamesAccount(ParseAccountSettings(input).value)
      && FindOwnedAccount(db.accounts, ParseAccountSettings(input).value.id.value, auth.value).None?
    ensures r.Ok? ==> r.value.transactions == db.transactions
    ensures r.Ok? && NamesAccount(ParseAccountSettings(input).value) ==>
      var s := ParseAccountSettings(input).value;
      var i := FindOwnedAccount(db.accounts, s.id.value, auth.value).value;
      && |r.value.accounts| == |db.accounts|
      && r.value.accounts[i] == db.accounts[i].(name := s.name, color := s.color, flags := ApplyDefaults(s.flags))
      && forall j :: 0 <= j < |db.accounts| && j != i ==> r.value.accounts[j] == db.accounts[j]
    ensures r.Ok? && !NamesAccount(ParseAccountSettings(input).value) ==>
      && |r.value.accounts| == |db.accounts| + 1
      && r.value.accounts[..|db.accounts|] == db.accounts
      && var a := r.value.accounts[|db.accounts|];
         && a.id == mint(0) && a.userId == auth.value && a.createdAt == now
         && a.name == Text.Trim(input.name) && a.name != ""
         && a.color == NormalizeColor(input.color).value
         && a.flags == ApplyDefaults(input.flags)
  {
    match ParseAccountSettings(input)
    case Err(e) => Err(e)
    case Ok(s) =>
      if auth.None? then Err(Unauthorized)
      else
        var user := auth.value;
        var flags := ApplyDefaults(s.flags);
        if NamesAccount(s) then
          match FindOwnedAccount(db.accounts, s.id.value, user)
          case None => Err(NotFound)
          case Some(i) =>
            var updated := db.accounts[i].(name := s.name, color := s.color, flags := flags);
            Ok(db.(accounts := db.accounts[i := updated]))
        else
          var created := Account(mint(0), user, s.name, s.color, flags, now);
          assert (db.accounts + [created])[..|db.accounts|] == db.accounts;
          Ok(db.(accounts := db.accounts + [created]))
  }

  /** Saving the same settings for an existing account a second time changes nothing more. */
  lemma SaveAccountUpdateIdempotent(db: Db, auth: Option<UserId>, input: AccountSettingsInput, now: Day,
                                    mint: nat -> Id)
    requires SaveAccount(db, auth, input, now, mint).Ok?
    requires NamesAccount(ParseAccountSettings(input).value)
    ensures var once := SaveAccount(db, auth, input, now, mint).value;
            SaveAccount(once, auth, input, now, mint) == Ok(once)
  {
    var once := SaveAccount(db, auth, input, now, mint).value;
    var s := ParseAccountSettings(input).value;
    var i := FindOwnedAccount(db.accounts, s.id.value, auth.value).value;
    assert FindOwnedAccount(once.accounts, s.id.value, auth.value) == Some(i) by {
      assert forall j :: 0 <= j < i ==> once.accounts[j] == db.accounts[j];
    }
    assert once.accounts[i := once.accounts[i]] == once.accounts;
  }

  /** What `deleteAccount` leaves behind. Its two writes are not atomic: when the final deletion
      matches no account of the caller's, the transactions have already been moved. */
  datatype DeleteOutcome =
    | Deleted(db: Db)
    | Rejected(failure: Failure)
    | FailedAfterReassign(db: Db)

  function OtherAccountOf(user: UserId, id: Id): Account -> bool {
    (a: Account) => a.userId == user && a.id != id
  }

  /** `findFirst({ userId, NOT: { id } }, orderBy: createdAt asc)`: the caller's oldest account other
      than the one being deleted. Accounts created on the same day come in an order the database does
      not promise. */
  function Fallback(accounts: seq<Account>, user: UserId, id: Id): (r: Option<Account>)
    ensures r.None? <==> forall k :: 0 <= k < |accounts| ==> !(accounts[k].userId == user && accounts[k].id != id)
    ensures r.Some? ==> r.value in accounts && r.value.userId == user && r.value.id != id
    ensures r.Some? ==> forall k :: 0 <= k < |accounts| && accounts[k].userId == user && accounts[k].id != id ==>
      r.value.createdAt <= accounts[k].createdAt
  {
    var candidates := Filter(accounts, OtherAccountOf(user, id));
    var sorted := SortBy(candidates, (a: Account) => a.createdAt);
    if |sorted| == 0 then
      assert forall k :: 0 <= k < |accounts| && accounts[k].userId == user && accounts[k].id != id ==>
        accounts[k] in candidates;
      None
    else
      assert sorted[0] in multiset(candidates);
      forall k | 0 <= k < |accounts| && accounts[k].userId == user && accounts[k].id != id
        ensures sorted[0].createdAt <= accounts[k].createdAt
      {
        assert accounts[k] in candidates;
        assert accounts[k] in multiset(sorted);
        var m :| 0 <= m < |sorted| && sorted[m] == accounts[k];
      }
      Some(sorted[0])
  }

  /** The `updateMany` that moves the caller's transactions off an account onto another. */
  function Reassign(rows: seq<Transaction>, user: UserId, from: Id, to: Id): (r: seq<Transaction>)
    ensures |r| == |rows|
    ensures forall k :: 0 <= k < |rows| ==>
      if rows[k].userId == user && rows[k].accountId == Some(from)
      then r[k] == rows[k].(accountId := Some(to))
      else r[k] == rows[k]
  {
    seq(|rows|, k requires 0 <= k < |rows| =>
      if rows[k].userId == user && rows[k].accountId == Some(from) then rows[k].(accountId := Some(to)) else rows[k])
  }

  /** `deleteAccount`: validation, authentication, the caller must keep at least one account, the
      transactions of the deleted account move to the caller's oldest other account, and then the
      account is deleted. */
  function DeleteAccount(db: Db, auth: Option<UserId>, id: string): (r: DeleteOutcome)
    ensures r == Rejected(Invalid) <==> id == ""
    ensures r == Rejected(Unauthorized) <==> id != "" && auth.None?
    ensures r == Rejected(KeepOneAccount) <==> id != "" && auth.Some? && |AccountsOf(db.accounts, auth.value)| <= 1
    ensures r == Rejected(NoFallbackAccount) <==>
      id != "" && auth.Some? && |AccountsOf(db.accounts, auth.value)| > 1 && Fallback(db.accounts, auth.value, id).None?
    ensures r.Deleted? || r.FailedAfterReassign? ==>
      r.db.transactions == Reassign(db.transactions, auth.value, id, Fallback(db.accounts, auth.value, id).value.id)
    ensures r.FailedAfterReassign? <==> !r.Rejected? && FindOwnedAccount(db.accounts, id, auth.value).None?
    ensures r.FailedAfterReassign? ==> r.db.accounts == db.accounts
    ensures r.Deleted? ==>
      var i := FindOwnedAccount(db.accounts, id, auth.value).value;
      r.db.accounts == db.accounts[..i] + db.accounts[i + 1..]
  {
    if id == "" then Rejected(Invalid)
    else if auth.None? then Rejected(Unauthorized)
    else
      var user := auth.value;
      if |AccountsOf(db.accounts, user)| <= 1 then Rejected(KeepOneAccount)
      else match Fallback(db.accounts, user, id)
        case None => Rejected(NoFallbackAccount)
        case Some(fallback) => MoveThenDelete(db, user, id, fallback.id)
  }

  /** The two writes of a deletion that passed its checks. */
  function MoveThenDelete(db: Db, user: UserId, id: Id, to: Id): (r: DeleteOutcome)
    ensures !r.Rejected?
    ensures r.db.transactions == Reassign(db.transactions, user, id, to)
    ensures r.FailedAfterReassign? <==> FindOwnedAccount(db.accounts, id, user).None?
    ensures r.FailedAfterReassign? ==> r.db.accounts == db.accounts
    ensures r.Deleted? ==>
      var i := FindOwnedAccount(db.accounts, id, user).value;
      r.db.accounts == db.accounts[..i] + db.accounts[i + 1..]
  {
    var moved := Reassign(db.transactions, user, id, to);
    match FindOwnedAccount(db.accounts, id, user)
    case None => FailedAfterReassign(db.(transactions := moved))
    case Some(i) => Deleted(Db(moved, db.accounts[..i] + db.accounts[i + 1..]))
  }

  /** Removing one position keeps every other element. */
  lemma RemovalKeepsOthers<T>(s: seq<T>, i: nat, m: nat)
    requires i < |s| && m < |s| && m != i
    ensures s[m] in s[..i] + s[i + 1..]
  {
    if m < i {
      assert (s[..i] + s[i + 1..])[m] == s[m];
    } else {
      assert (s[..i] + s[i + 1..])[m - 1] == s[m];
    }
  }

  /** After a deletion no transaction of the caller points at the deleted account, every one that did
      now points at an account of the caller's that still exists, and the caller keeps an account. */
  lemma DeleteAccountKeepsReferences(db: Db, user: UserId, id: string, k: nat)
    requires DeleteAccount(db, Some(user), id).Deleted?
    requires k < |db.transactions| && db.transactions[k].userId == user && db.transactions[k].accountId == Some(id)
    ensures var after := DeleteAccount(db, Some(user), id).db;
            && after.transactions[k].accountId.Some?
            && after.transactions[k].accountId != Some(id)
            && exists a :: a in after.accounts && a.userId == user && Some(a.id) == after.transactions[k].accountId
  {
    var after := DeleteAccount(db, Some(user), id).db;
    var fallback := Fallback(db.accounts, user, id).value;
    var i := FindOwnedAccount(db.accounts, id, user).value;
    assert after.transactions[k].accountId == Some(fallback.id);
    var m :| 0 <= m < |db.accounts| && db.accounts[m] == fallback;
    RemovalKeepsOthers(db.accounts, i, m);
  }

  /** The caller's transactions on other accounts, and everyone else's transactions, are untouched. */
  lemma DeleteAccountTouchesOnlyItsTransactions(db: Db, user: UserId, id: string, k: nat)
    requires DeleteAccount(db, Some(user), id).Deleted? || DeleteAccount(db, Some(user), id).FailedAfterReassign?
    requires k < |db.transactions| && !(db.transactions[k].userId == user && db.transactions[k].accountId == Some(id))
    ensures DeleteAccount(db, Some(user), id).db.transactions[k] == db.transactions[k]
  {
  }

  /** A successful deletion removes exactly one account, and the caller still has one: the account
      that took over the transactions. */
  lemma DeleteAccountKeepsOneAccount(db: Db, user: UserId, id: string)
    requires DeleteAccount(db, Some(user), id).Deleted?
    ensures var after := DeleteAccount(db, Some(user), id).db;
            && |after.accounts| == |db.accounts| - 1
            && exists a :: a in after.accounts && a.userId == user && a.id != id
  {
    var after := DeleteAccount(db, Some(user), id).db;
    var fallback := Fallback(db.accounts, user, id).value;
    var i := FindOwnedAccount(db.accounts, id, user).value;
    var m :| 0 <= m < |db.accounts| && db.accounts[m] == fallback;
    RemovalKeepsOthers(db.accounts, i, m);
  }
}

=== FILE: dashboard.dfy ===
/** `getDashboard`: the month summary of the home page. */
module Dashboard {
  import opened Wrappers
  import opened Dates
  import opened Ledger
  import opened Seqs
  import opened Sorting

  /** How many of the month's transactions the summary lists. */
  const LastTransactionsShown: nat := 15

  /** `Math.round(part / whole * 100)`: a whole number, or one of the non-finite values a division by
      zero yields. */
  datatype Percent = Rounded(value: int) | PlusInfinity | MinusInfinity | NotANumber

  function Percentage(part: real, whole: real): (r: Percent)
    ensures whole != 0.0 ==>
      (r.Rounded? && r.value as real - 0.5 <= part / whole * 100.0 < r.value as real + 0.5)
    ensures whole == 0.0 ==>
      ((r == NotANumber <==> part == 0.0) && (r == PlusInfinity <==> part > 0.0)
       && (r == MinusInfinity <==> part < 0.0))
  {
    if whole == 0.0 then
      if part > 0.0 then PlusInfinity else if part < 0.0 then MinusInfinity else NotANumber
    else
      Rounded((part / whole * 100.0 + 0.5).Floor)
  }

  /** A share of a non-negative part in a positive whole it does not exceed lies between 0 and 100. */
  lemma PercentageBounded(part: real, whole: real)
    requires 0.0 <= part <= whole && whole > 0.0
    ensures Percentage(part, whole).Rounded?
    ensures 0 <= Percentage(part, whole).value <= 100
  {
    assert 0.0 <= part / whole <= 1.0;
  }

  datatype TypePercentages = TypePercentages(deposit: Percent, expense: Percent, investment: Percent)

  datatype CategoryTotal = CategoryTotal(category: Category, totalAmount: real)

  datatype CategoryShare = CategoryShare(category: Category, totalAmount: real, percentageOfTotal: Percent)

  datatype Summary = Summary(
    depositTotal: real,
    expensesTotal: real,
    investmentsTotal: real,
    balanceTotal: real,
    typesPercentage: TypePercentages,
    totalExpensePerCategory: seq<CategoryShare>,
    lastTransactions: seq<Transaction>)

  function InPeriodOf(user: UserId, period: Period): Transaction -> bool {
    (t: Transaction) => t.userId == user && period.Contains(t.date)
  }

  function OfKind(kind: TransactionType): Transaction -> bool {
    (t: Transaction) => t.kind == kind
  }

  function NotOfKind(kind: TransactionType): Transaction -> bool {
    (t: Transaction) => t.kind != kind
  }

  function OfCategory(c: Category): Transaction -> bool {
    (t: Transaction) => t.category == c
  }

  /** The user's rows dated inside the period: the `where` shared by every query of the summary. */
  function PeriodRows(rows: seq<Transaction>, user: UserId, period: Period): (r: seq<Transaction>)
    ensures forall k :: 0 <= k < |r| ==> r[k].userId == user && period.Contains(r[k].date)
    ensures forall k :: 0 <= k < |rows| && rows[k].userId == user && period.Contains(rows[k].date) ==>
      rows[k] in r
  {
    Filter(rows, InPeriodOf(user, period))
  }

  /** The total of the rows of one type: all of them when every row has it, 0 when none does. */
  function KindTotal(rows: seq<Transaction>, kind: TransactionType): (r: real)
    ensures (forall k :: 0 <= k < |rows| ==> rows[k].kind == kind) ==> r == TotalAmount(rows)
    ensures (forall k :: 0 <= k < |rows| ==> rows[k].kind != kind) ==> r == 0.0
  {
    if forall k :: 0 <= k < |rows| ==> rows[k].kind == kind then
      FilterAll(rows, OfKind(kind));
      TotalAmount(Filter(rows, OfKind(kind)))
    else if forall k :: 0 <= k < |rows| ==> rows[k].kind != kind then
      FilterNone(rows, OfKind(kind));
      TotalAmount(Filter(rows, OfKind(kind)))
    else
      TotalAmount(Filter(rows, OfKind(kind)))
  }

  /** One row contributes its amount to the total of its own type and nothing to the others. */
  lemma KindTotalStep(rows: seq<Transaction>, kind: TransactionType)
    requires |rows| > 0
    ensures KindTotal(rows, kind) ==
      (if rows[0].kind == kind then rows[0].amount else 0.0) + KindTotal(rows[1..], kind)
  {
    var rest := Filter(rows[1..], OfKind(kind));
    if rows[0].kind == kind {
      assert Filter(rows, OfKind(kind)) == [rows[0]] + rest;
      assert ([rows[0]] + rest)[1..] == rest;
    } else {
      assert Filter(rows, OfKind(kind)) == rest;
    }
  }

  /** The period's total splits into the totals of the four types. */
  lemma {:induction false} KindTotalsPartition(rows: seq<Transaction>)
    ensures KindTotal(rows, Deposit) + KindTotal(rows, Expense) + KindTotal(rows, Investment)
          + KindTotal(rows, Transfer) == TotalAmount(rows)
  {
    if |rows| == 0 {
      assert KindTotal(rows, Deposit) == 0.0 && KindTotal(rows, Expense) == 0.0;
      assert KindTotal(rows, Investment) == 0.0 && KindTotal(rows, Transfer) == 0.0;
    } else {
      KindTotalsPartition(rows[1..]);
      KindTotalStep(rows, Deposit);
      KindTotalStep(rows, Expense);
      KindTotalStep(rows, Investment);
      KindTotalStep(rows, Transfer);
    }
  }

  /* Grouping the month's expenses by category: `groupBy(["category"])` with a sum per group. The
     database returns the groups in no promised order; the model keeps one group per category. */

  /** Adding an amount keeps the existing groups where they are, with their categories; otherwise
      the amount goes into a new group at the end. */
  function AddToGroup(groups: seq<CategoryTotal>, c: Category, a: real): (r: seq<CategoryTotal>)
    ensures |r| == |groups| || (|r| == |groups| + 1 && r[|groups|] == CategoryTotal(c, a))
    ensures forall k :: 0 <= k < |groups| ==> r[k].category == groups[k].category
  {
    if |groups| == 0 then [CategoryTotal(c, a)]
    else if groups[0].category == c then [groups[0].(totalAmount := groups[0].totalAmount + a)] + groups[1..]
    else [groups[0]] + AddToGroup(groups[1..], c, a)
  }

  /** At most one group per row, and at least one when there is a row. */
  function GroupByCategory(rows: seq<Transaction>): (r: seq<CategoryTotal>)
    ensures |r| <= |rows|
    ensures |rows| > 0 ==> |r| > 0
  {
    if |rows| == 0 then [] else AddToGroup(GroupByCategory(rows[1..]), rows[0].category, rows[0].amount)
  }

  function GroupsTotal(groups: seq<CategoryTotal>): real {
    if |groups| == 0 then 0.0 else groups[0].totalAmount + GroupsTotal(groups[1..])
  }

  /** The total of the group for `c`; 0 when there is none. */
  function TotalOf(groups: seq<CategoryTotal>, c: Category): real {
    if |groups| == 0 then 0.0
    else if groups[0].category == c then groups[0].totalAmount
    else TotalOf(groups[1..], c)
  }

  function CategoriesOf(groups: seq<CategoryTotal>): set<Category> {
    set i | 0 <= i < |groups| :: groups[i].category
  }

  function RowCategories(rows: seq<Transaction>): set<Category> {
    set k | 0 <= k < |rows| :: rows[k].category
  }

  ghost predicate DistinctCategories(groups: seq<CategoryTotal>) {
    forall i, j :: 0 <= i < j < |groups| ==> groups[i].category != groups[j].category
  }

  lemma CategoriesOfCons(g: CategoryTotal, groups: seq<CategoryTotal>)
    ensures CategoriesOf([g] + groups) == {g.category} + CategoriesOf(groups)
  {
    var r := [g] + groups;
    assert r[0].category == g.category;
    forall x | x in CategoriesOf(r) ensures x in {g.category} + CategoriesOf(groups) {
      var i :| 0 <= i < |r| && r[i].category == x;
      if i > 0 {
        assert groups[i - 1].category == x;
      }
    }
    forall x | x in CategoriesOf(groups) ensures x in CategoriesOf(r) {
      var i :| 0 <= i < |groups| && groups[i].category == x;
      assert r[i + 1].category == x;
    }
  }

  lemma RowCategoriesCons(rows: seq<Transaction>)
    requires |rows| > 0
    ensures RowCategories(rows) == {rows[0].category} + RowCategories(rows[1..])
  {
    forall y | y in RowCategories(rows) ensures y in {rows[0].category} + RowCategories(rows[1..]) {
      var k :| 0 <= k < |rows| && rows[k].category == y;
      if k > 0 {
        assert rows[1..][k - 1].category == y;
      }
    }
    forall y | y in RowCategories(rows[1..]) ensures y in RowCategories(rows) {
      var k :| 0 <= k < |rows[1..]| && rows[1..][k].category == y;
      assert rows[k + 1].category == y;
    }
  }

  /** Adding an amount to a category grows the overall total and that category's total by the
      amount, and nothing else's. */
  lemma {:induction false} AddToGroupTotals(groups: seq<CategoryTotal>, c: Category, a: real, d: Category)
    ensures GroupsTotal(AddToGroup(groups, c, a)) == GroupsTotal(groups) + a
    ensures TotalOf(AddToGroup(groups, c, a), d) == TotalOf(groups, d) + (if d == c then a else 0.0)
  {
    if |groups| > 0 && groups[0].category != c {
      AddToGroupTotals(groups[1..], c, a, d);
      assert AddToGroup(groups, c, a)[1..] == AddToGroup(groups[1..], c, a);
    } else if |groups| > 0 {
      assert AddToGroup(groups, c, a)[1..] == groups[1..];
    }
  }

  /** Adding an amount to a category adds the category if it was missing and keeps one group per
      category. */
  lemma AddToGroupCategories(groups: seq<CategoryTotal>, c: Category, a: real)
    ensures CategoriesOf(AddToGroup(groups, c, a)) == CategoriesOf(groups) + {c}
    ensures DistinctCategories(groups) ==> DistinctCategories(AddToGroup(groups, c, a))
  {
    AddToGroupCategorySet(groups, c, a);
    if DistinctCategories(groups) {
      AddToGroupKeepsDistinct(groups, c, a);
    }
  }

  lemma {:induction false} AddToGroupCategorySet(groups: seq<CategoryTotal>, c: Category, a: real)
    ensures CategoriesOf(AddToGroup(groups, c, a)) == CategoriesOf(groups) + {c}
  {
    var r := AddToGroup(groups, c, a);
    if |groups| == 0 {
      assert CategoriesOf(r) == {c} by {
        assert r[0].category == c;
      }
    } else {
      var g := groups[0];
      assert groups == [g] + groups[1..];
      CategoriesOfCons(g, groups[1..]);
      if g.category == c {
        CategoriesOfCons(r[0], groups[1..]);
        assert r == [r[0]] + groups[1..];
      } else {
        var tail := AddToGroup(groups[1..], c, a);
        AddToGroupCategorySet(groups[1..], c, a);
        assert r == [g] + tail;
        CategoriesOfCons(g, tail);
      }
    }
  }

  lemma DistinctCons(g: CategoryTotal, tail: seq<CategoryTotal>)
    requires DistinctCategories(tail) && g.category !in CategoriesOf(tail)
    ensures DistinctCategories([g] + tail)
  {
    var r := [g] + tail;
    forall i, j | 0 <= i < j < |r| ensures r[i].category != r[j].category {
      if i == 0 {
        assert r[j] == tail[j - 1];
      } else {
        assert r[i] == tail[i - 1] && r[j] == tail[j - 1];
      }
    }
  }

  lemma {:induction false} AddToGroupKeepsDistinct(groups: seq<CategoryTotal>, c: Category, a: real)
    requires DistinctCategories(groups)
    ensures DistinctCategories(AddToGroup(groups, c, a))
  {
    if |groups| > 0 && groups[0].category != c {
      var g := groups[0];
      var tail := AddToGroup(groups[1..], c, a);
      AddToGroupKeepsDistinct(groups[1..], c, a);
      AddToGroupCategorySet(groups[1..], c, a);
      assert g.category !in CategoriesOf(groups[1..]) by {
        CategoriesOfCons(g, groups[1..]);
        assert groups == [g] + groups[1..];
      }
      DistinctCons(g, tail);
    }
  }

  /** The groups together hold the sum of all the rows. */
  lemma {:induction false} GroupsHoldTotal(rows: seq<Transaction>)
    ensures GroupsTotal(GroupByCategory(rows)) == TotalAmount(rows)
  {
    if |rows| > 0 {
      GroupsHoldTotal(rows[1..]);
      AddToGroupTotals(GroupByCategory(rows[1..]), rows[0].category, rows[0].amount, rows[0].category);
    }
  }

  /** The group of a category holds the sum of that category's rows. */
  lemma {:induction false} GroupHoldsCategoryTotal(rows: seq<Transaction>, c: Category)
    ensures TotalOf(GroupByCategory(rows), c) == TotalAmount(Filter(rows, OfCategory(c)))
  {
    if |rows| > 0 {
      var x := rows[0];
      GroupHoldsCategoryTotal(rows[1..], c);
      AddToGroupTotals(GroupByCategory(rows[1..]), x.category, x.amount, c);
      var rest := Filter(rows[1..], OfCategory(c));
      if x.category == c {
        assert Filter(rows, OfCategory(c)) == [x] + rest;
        assert ([x] + rest)[1..] == rest;
      } else {
        assert Filter(rows, OfCategory(c)) == rest;
      }
    }
  }

  /** There is one group per category that occurs among the rows, and no other. */
  lemma {:induction false} GroupsPerCategory(rows: seq<Transaction>)
    ensures CategoriesOf(GroupByCategory(rows)) == RowCategories(rows)
    ensures DistinctCategories(GroupByCategory(rows))
  {
    if |rows| > 0 {
      GroupsPerCategory(rows[1..]);
      AddToGroupCategories(GroupByCategory(rows[1..]), rows[0].category, rows[0].amount);
      RowCategoriesCons(rows);
    }
  }

  /** With one group per category, a group's total is the total looked up for its category. */
  lemma {:induction false} TotalOfDistinct(groups: seq<CategoryTotal>, i: nat)
    requires DistinctCategories(groups) && i < |groups|
    ensures TotalOf(groups, groups[i].category) == groups[i].totalAmount
  {
    if i > 0 {
      assert DistinctCategories(groups[1..]) by {
        forall a, b | 0 <= a < b < |groups[1..]| ensures groups[1..][a].category != groups[1..][b].category {
          assert groups[1..][a] == groups[a + 1] && groups[1..][b] == groups[b + 1];
        }
      }
      TotalOfDistinct(groups[1..], i - 1);
    }
  }

  /* The newest transactions: `orderBy: { date: "desc" }, take: 15`. Rows of the same date come in
     an order the database does not promise. */

  function Smaller(a: nat, b: nat): nat {
    if a < b then a else b
  }

  function LatestRows(rows: seq<Transaction>, n: nat): (r: seq<Transaction>)
    ensures |r| == Smaller(|rows|, n)
    ensures forall i, j :: 0 <= i < j < |r| ==> r[i].date >= r[j].date
    ensures multiset(r) <= multiset(rows)
  {
    var sorted := SortBy(rows, (t: Transaction) => -t.date);
    var m := Smaller(|rows|, n);
    assert sorted == sorted[..m] + sorted[m..];
    assert multiset(sorted) == multiset(sorted[..m]) + multiset(sorted[m..]);
    sorted[..m]
  }

  /** A row left out of the newest rows is no newer than any row that was kept. */
  lemma LatestRowsAreNewest(rows: seq<Transaction>, n: nat, t: Transaction)
    requires t in multiset(rows) - multiset(LatestRows(rows, n))
    ensures forall i :: 0 <= i < |LatestRows(rows, n)| ==> t.date <= LatestRows(rows, n)[i].date
  {
    var key := (t: Transaction) => -t.date;
    var sorted := SortBy(rows, key);
    var m := Smaller(|rows|, n);
    assert LatestRows(rows, n) == sorted[..m];
    SortedPrefixDominates(sorted, key, m, t);
  }

  /** Each group with its share of `whole`. */
  function Shares(groups: seq<CategoryTotal>, whole: real): (r: seq<CategoryShare>)
    ensures |r| == |groups|
    ensures forall i :: 0 <= i < |r| ==>
      && r[i].category == groups[i].category && r[i].totalAmount == groups[i].totalAmount
      && r[i].percentageOfTotal == Percentage(groups[i].totalAmount, whole)
  {
    seq(|groups|, i requires 0 <= i < |groups| =>
      CategoryShare(groups[i].category, groups[i].totalAmount, Percentage(groups[i].totalAmount, whole)))
  }

  /** The days `getDashboard` asks for, given the finite value `Number(month)` and the clock's year:
      from `new Date(year, m - 1, 1)` to `new Date(year, m, 0, 23, 59, 59, 999)`, each month
      argument truncated and the year read as `new Date` reads it. A whole month, a negative one or
      one of at least 1 selects the month its truncation names; a value strictly between 0 and 1
      truncates to 0 at both ends and selects no day at all. */
  function SummaryPeriod(cal: Calendar, year: int, m: real): (p: Period)
    ensures !(0.0 < m < 1.0) ==> p == MonthPeriod(cal, DateYear(year), Trunc(m))
    ensures 0.0 < m < 1.0 ==> p.end < p.start && p.start == MonthPeriod(cal, DateYear(year), 1).start
  {
    var base := DateYear(year) * 12;
    Period(cal.monthStart(base + Trunc(m - 1.0)), cal.monthStart(base + Trunc(m)) - 1)
  }

  /** `getDashboard(month)`: authentication first, then every figure over the user's rows dated in
      the given month of the clock's year. A month that is not a finite number makes both bounds an
      invalid date, which the query rejects. */
  function GetDashboard(db: Db, auth: Option<UserId>, month: Num, cal: Calendar, clock: Clock)
    : (r: Result<Summary, Failure>)
    ensures r.Err? <==> auth.None? || !month.Finite?
    ensures auth.None? ==> r == Err(Unauthorized)
    ensures auth.Some? && !month.Finite? ==> r == Err(Invalid)
    ensures r.Ok? ==>
      var rows := PeriodRows(db.transactions, auth.value, SummaryPeriod(cal, clock.year, month.value));
      var s := r.value;
      && s.depositTotal == KindTotal(rows, Deposit)
      && s.expensesTotal == KindTotal(rows, Expense)
      && s.investmentsTotal == KindTotal(rows, Investment)
      && s.balanceTotal == s.depositTotal - s.expensesTotal - s.investmentsTotal
      && s.typesPercentage == TypePercentages(
           Percentage(s.depositTotal, TotalAmount(rows)),
           Percentage(s.expensesTotal, TotalAmount(rows)),
           Percentage(s.investmentsTotal, TotalAmount(rows)))
      && s.totalExpensePerCategory == Shares(GroupByCategory(Filter(rows, OfKind(Expense))), s.expensesTotal)
      && |s.lastTransactions| == Smaller(|rows|, LastTransactionsShown)
  {
    match auth
    case None => Err(Unauthorized)
    case Some(user) =>
      if !month.Finite? then Err(Invalid) else
      var rows := PeriodRows(db.transactions, user, SummaryPeriod(cal, clock.year, month.value));
      var deposits := KindTotal(rows, Deposit);
      var expenses := KindTotal(rows, Expense);
      var investments := KindTotal(rows, Investment);
      var all := TotalAmount(rows);
      var groups := GroupByCategory(Filter(rows, OfKind(Expense)));
      Ok(Summary(
        deposits, expenses, investments, deposits - expenses - investments,
        TypePercentages(Percentage(deposits, all), Percentage(expenses, all), Percentage(investments, all)),
        Shares(groups, expenses),
        LatestRows(rows, LastTransactionsShown)))
  }

  function SharesTotal(shares: seq<CategoryShare>): real {
    if |shares| == 0 then 0.0 else shares[0].totalAmount + SharesTotal(shares[1..])
  }

  /** The per-category expense figures: one entry per category that has an expense in the month,
      each the sum of that category's expenses, all adding up to the month's expense total. */
  lemma DashboardCategoryBreakdown(db: Db, user: UserId, month: real, cal: Calendar, clock: Clock, i: nat)
    requires i < |GetDashboard(db, Some(user), Finite(month), cal, clock).value.totalExpensePerCategory|
    ensures var rows := PeriodRows(db.transactions, user, SummaryPeriod(cal, clock.year, month));
            var expenses := Filter(rows, OfKind(Expense));
            var s := GetDashboard(db, Some(user), Finite(month), cal, clock).value;
            && SharesTotal(s.totalExpensePerCategory) == s.expensesTotal
            && s.totalExpensePerCategory[i].totalAmount
                 == TotalAmount(Filter(expenses, OfCategory(s.totalExpensePerCategory[i].category)))
            && (forall j :: 0 <= j < |s.totalExpensePerCategory| && j != i ==>
                  s.totalExpensePerCategory[j].category != s.totalExpensePerCategory[i].category)
  {
    var rows := PeriodRows(db.transactions, user, SummaryPeriod(cal, clock.year, month));
    var expenses := Filter(rows, OfKind(Expense));
    var groups := GroupByCategory(expenses);
    var s := GetDashboard(db, Some(user), Finite(month), cal, clock).value;
    assert s.expensesTotal == TotalAmount(expenses);
    var shares := s.totalExpensePerCategory;
    assert shares == Shares(groups, s.expensesTotal);
    GroupsHoldTotal(expenses);
    GroupHoldsCategoryTotal(expenses, groups[i].category);
    GroupsPerCategory(expenses);
    TotalOfDistinct(groups, i);
    SharesMatchGroups(shares, groups);
  }

  lemma {:induction false} SharesMatchGroups(shares: seq<CategoryShare>, groups: seq<CategoryTotal>)
    requires |shares| == |groups|
    requires forall j :: 0 <= j < |shares| ==> shares[j].totalAmount == groups[j].totalAmount
    ensures SharesTotal(shares) == GroupsTotal(groups)
  {
    if |shares| > 0 {
      SharesMatchGroups(shares[1..], groups[1..]);
    }
  }

  /** The categories listed are exactly those of the month's expenses. */
  lemma DashboardCategoriesCovered(db: Db, user: UserId, month: real, cal: Calendar, clock: Clock, c: Category)
    ensures var rows := PeriodRows(db.transactions, user, SummaryPeriod(cal, clock.year, month));
            var s := GetDashboard(db, Some(user), Finite(month), cal, clock).value;
            (exists i :: 0 <= i < |s.totalExpensePerCategory| && s.totalExpensePerCategory[i].category == c)
            <==> (exists k :: 0 <= k < |rows| && rows[k].kind == Expense && rows[k].category == c)
  {
    var rows := PeriodRows(db.transactions, user, SummaryPeriod(cal, clock.year, month));
    var expenses := Filter(rows, OfKind(Expense));
    var groups := GroupByCategory(expenses);
    var shares := GetDashboard(db, Some(user), Finite(month), cal, clock).value.totalExpensePerCategory;
    assert shares == Shares(groups, KindTotal(rows, Expense));
    GroupsPerCategory(expenses);
    SharesCategories(groups, KindTotal(rows, Expense), c);
    ExpenseCategories(rows, c);
  }

  /** The shares list the groups' categories. */
  lemma SharesCategories(groups: seq<CategoryTotal>, whole: real, c: Category)
    ensures var shares := Shares(groups, whole);
            (exists i :: 0 <= i < |shares| && shares[i].category == c) <==> c in CategoriesOf(groups)
  {
    var shares := Shares(groups, whole);
    if c in CategoriesOf(groups) {
      var i :| 0 <= i < |groups| && groups[i].category == c;
      assert shares[i].category == c;
    }
  }

  /** A category occurs among the expense rows exactly when some expense row has it. */
  lemma ExpenseCategories(rows: seq<Transaction>, c: Category)
    ensures c in RowCategories(Filter(rows, OfKind(Expense)))
        <==> (exists k :: 0 <= k < |rows| && rows[k].kind == Expense && rows[k].category == c)
  {
    if exists k :: 0 <= k < |rows| && rows[k].kind == Expense && rows[k].category == c {
      var k :| 0 <= k < |rows| && rows[k].kind == Expense && rows[k].category == c;
      ExpenseRowListed(rows, k);
    }
    if c in RowCategories(Filter(rows, OfKind(Expense))) {
      ListedRowIsExpense(rows, c);
    }
  }

  lemma ExpenseRowListed(rows: seq<Transaction>, k: nat)
    requires k < |rows| && rows[k].kind == Expense
    ensures rows[k].category in RowCategories(Filter(rows, OfKind(Expense)))
  {
    var expenses := Filter(rows, OfKind(Expense));
    assert OfKind(Expense)(rows[k]);
    assert rows[k] in expenses;
    var m :| 0 <= m < |expenses| && expenses[m] == rows[k];
  }

  lemma ListedRowIsExpense(rows: seq<Transaction>, c: Category)
    requires c in RowCategories(Filter(rows, OfKind(Expense)))
    ensures exists k :: 0 <= k < |rows| && rows[k].kind == Expense && rows[k].category == c
  {
    var expenses := Filter(rows, OfKind(Expense));
    var m :| 0 <= m < |expenses| && expenses[m].category == c;
    assert OfKind(Expense)(expenses[m]) && expenses[m] in rows;
    var k :| 0 <= k < |rows| && rows[k] == expenses[m];
    assert rows[k].kind == Expense && rows[k].category == c;
  }

  /** The newest rows of a period are rows of that period, newest first, and no row of the period
      left out is newer than one kept. */
  lemma NewestOfPeriod(txs: seq<Transaction>, user: UserId, period: Period, t: Transaction)
    ensures var rows := PeriodRows(txs, user, period);
            var shown := LatestRows(rows, LastTransactionsShown);
            && (forall i :: 0 <= i < |shown| ==> shown[i].userId == user && period.Contains(shown[i].date))
            && (forall i, j :: 0 <= i < j < |shown| ==> shown[i].date >= shown[j].date)
            && (t in multiset(rows) - multiset(shown) ==> forall i :: 0 <= i < |shown| ==> t.date <= shown[i].date)
  {
    var rows := PeriodRows(txs, user, period);
    var shown := LatestRows(rows, LastTransactionsShown);
    forall i | 0 <= i < |shown| ensures shown[i].userId == user && period.Contains(shown[i].date) {
      assert shown[i] in multiset(shown);
      assert shown[i] in multiset(rows);
    }
    if t in multiset(rows) - multiset(shown) {
      LatestRowsAreNewest(rows, LastTransactionsShown, t);
    }
  }

  /** The listed transactions are the month's newest: each belongs to the user and the month, they
      come newest first, and no row of the month left out is newer than one listed. */
  lemma DashboardLatestTransactions(db: Db, user: UserId, month: real, cal: Calendar, clock: Clock, t: Transaction)
    ensures var period := SummaryPeriod(cal, clock.year, month);
            var rows := PeriodRows(db.transactions, user, period);
            var shown := GetDashboard(db, Some(user), Finite(month), cal, clock).value.lastTransactions;
            && (forall i :: 0 <= i < |shown| ==> shown[i].userId == user && period.Contains(shown[i].date))
            && (forall i, j :: 0 <= i < j < |shown| ==> shown[i].date >= shown[j].date)
            && (t in multiset(rows) - multiset(shown) ==> forall i :: 0 <= i < |shown| ==> t.date <= shown[i].date)
  {
    var period := SummaryPeriod(cal, clock.year, month);
    NewestOfPeriod(db.transactions, user, period, t);
    assert GetDashboard(db, Some(user), Finite(month), cal, clock).value.lastTransactions
        == LatestRows(PeriodRows(db.transactions, user, period), LastTransactionsShown);
  }

  /** The type totals never exceed the period's total when amounts are non-negative, so each share
      is a whole percentage between 0 and 100; with nothing in the period, each is `NaN`. */
  lemma DashboardPercentagesBounded(db: Db, user: UserId, month: real, cal: Calendar, clock: Clock)
    requires forall k :: 0 <= k < |db.transactions| ==> db.transactions[k].amount >= 0.0
    ensures var rows := PeriodRows(db.transactions, user, SummaryPeriod(cal, clock.year, month));
            var p := GetDashboard(db, Some(user), Finite(month), cal, clock).value.typesPercentage;
            && (TotalAmount(rows) > 0.0 ==>
                  && p.deposit.Rounded? && 0 <= p.deposit.value <= 100
                  && p.expense.Rounded? && 0 <= p.expense.value <= 100
                  && p.investment.Rounded? && 0 <= p.investment.value <= 100)
            && (|rows| == 0 ==> p == TypePercentages(NotANumber, NotANumber, NotANumber))
  {
    var rows := PeriodRows(db.transactions, user, SummaryPeriod(cal, clock.year, month));
    assert forall k :: 0 <= k < |rows| ==> rows[k].amount >= 0.0 by {
      forall k | 0 <= k < |rows| ensures rows[k].amount >= 0.0 {
        assert rows[k] in db.transactions;
      }
    }
    KindTotalsPartition(rows);
    NonNegativeKindTotals(rows);
    if TotalAmount(rows) > 0.0 {
      PercentageBounded(KindTotal(rows, Deposit), TotalAmount(rows));
      PercentageBounded(KindTotal(rows, Expense), TotalAmount(rows));
      PercentageBounded(KindTotal(rows, Investment), TotalAmount(rows));
    }
  }

  lemma {:induction false} NonNegativeKindTotals(rows: seq<Transaction>)
    requires forall k :: 0 <= k < |rows| ==> rows[k].amount >= 0.0
    ensures KindTotal(rows, Deposit) >= 0.0 && KindTotal(rows, Expense) >= 0.0
    ensures KindTotal(rows, Investment) >= 0.0 && KindTotal(rows, Transfer) >= 0.0
  {
    if |rows| > 0 {
      NonNegativeKindTotals(rows[1..]);
      KindTotalStep(rows, Deposit);
      KindTotalStep(rows, Expense);
      KindTotalStep(rows, Investment);
      KindTotalStep(rows, Transfer);
    }
  }
}

=== FILE: dashboard_context.dfy ===
/** `getDashboardContext`: choosing the month a dashboard shows, and the month before it. */
module DashboardContext {
  import opened Wrappers
  import opened Dates
  import opened Ledger
  import opened Dashboard

  /** The month and year a query names, and the days of that month and of the month before. The
      year is returned as given; `new Date` truncates it, and reads 0 to 99 as 1900 to 1999, when it
      builds the periods. */
  datatype Context = Context(
    userId: UserId,
    currentPeriod: Period,
    previousPeriod: Period,
    month: MonthNumber,
    year: real)

  /** The month a query asks for: a finite value whose whole part is 1 to 12; anything else (absent,
      not a number, infinite, out of range) falls back to the clock's month. */
  function SelectedMonth(month: Option<Num>, clock: Clock): (r: MonthNumber)
    ensures (month.Some? && month.value.Finite? && 1 <= Trunc(month.value.value) <= 12) ==>
      r == Trunc(month.value.value)
    ensures !(month.Some? && month.value.Finite? && 1 <= Trunc(month.value.value) <= 12) ==>
      r == clock.month
  {
    match month
    case Some(Finite(x)) => if 1 <= Trunc(x) <= 12 then Trunc(x) else clock.month
    case _ => clock.month
  }

  /** The year a query asks for: any finite value, otherwise the clock's year. */
  function SelectedYear(year: Option<Num>, clock: Clock): (r: real)
    ensures year.Some? && year.value.Finite? ==> r == year.value.value
    ensures !(year.Some? && year.value.Finite?) ==> r == clock.year as real
  {
    match year
    case Some(Finite(y)) => y
    case _ => clock.year as real
  }

  /** The month before, as moving the first day of a month back by one month gives it: January
      wraps to December of the year before. */
  function PreviousMonth(year: int, month: MonthNumber): (r: (int, MonthNumber))
    ensures MonthIndex(r.0, r.1) + 1 == MonthIndex(year, month)
  {
    if month == 1 then (year - 1, 12) else (year, month - 1)
  }

  /** January of year 100: the one month whose year `new Date` takes as written while the year of
      the month before (99) is read as 1999. */
  predicate CenturyJanuary(year: int, month: MonthNumber): (r: bool)
    ensures r <==> DateYear(year) == year && DateYear(PreviousMonth(year, month).0) != PreviousMonth(year, month).0
  {
    year == 100 && month == 1
  }

  /** Both periods are built with `new Date(year, month, ...)`, so both years are read as `DateYear`
      reads them; the month before is found on the real date, before that reading. */
  function GetDashboardContext(auth: Option<UserId>, month: Option<Num>, year: Option<Num>,
                               cal: Calendar, clock: Clock): (r: Result<Context, Failure>)
    ensures r.Err? <==> auth.None?
    ensures r.Err? ==> r.error == Unauthorized
    ensures r.Ok? ==>
      var c := r.value;
      && c.userId == auth.value
      && c.month == SelectedMonth(month, clock)
      && c.year == SelectedYear(year, clock)
      && c.currentPeriod == MonthPeriod(cal, DateYear(Trunc(c.year)), c.month)
      && (!CenturyJanuary(Trunc(c.year), c.month) ==>
            && c.previousPeriod.end + 1 == c.currentPeriod.start
            && c.previousPeriod.start == cal.monthStart(MonthIndex(DateYear(Trunc(c.year)), c.month) - 1))
      && (CenturyJanuary(Trunc(c.year), c.month) ==> c.previousPeriod == MonthPeriod(cal, 1999, 12))
  {
    match auth
    case None => Err(Unauthorized)
    case Some(user) =>
      var m := SelectedMonth(month, clock);
      var y := SelectedYear(year, clock);
      var current := DateYear(Trunc(y));
      var previous := PreviousMonth(current, m);
      Ok(Context(user, MonthPeriod(cal, current, m), MonthPeriod(cal, DateYear(previous.0), previous.1), m, y))
  }

  /** In a valid calendar the two periods are consecutive non-empty months: the previous one ends on
      the day before the current one starts, and it is the month the calendar puts there. January
      of year 100 is the exception (see `CenturyJanuaryLooksAhead`). */
  lemma ContextPeriodsAdjacent(auth: Option<UserId>, month: Option<Num>, year: Option<Num>, cal: Calendar,
                               clock: Clock)
    requires ValidCalendar(cal) && auth.Some?
    requires !CenturyJanuary(Trunc(SelectedYear(year, clock)), SelectedMonth(month, clock))
    ensures var c := GetDashboardContext(auth, month, year, cal, clock).value;
            && c.previousPeriod.start <= c.previousPeriod.end < c.currentPeriod.start <= c.currentPeriod.end
            && (forall d :: c.previousPeriod.Contains(d) || c.currentPeriod.Contains(d)
                  <==> c.previousPeriod.start <= d <= c.currentPeriod.end)
  {
    var c := GetDashboardContext(auth, month, year, cal, clock).value;
    var i := MonthIndex(DateYear(Trunc(c.year)), c.month);
    assert cal.monthStart(i - 1) < cal.monthStart(i) < cal.monthStart(i + 1);
  }

  /** For January of year 100 the "previous" period is December 1999, which lies after the current
      one instead of just before it. */
  lemma CenturyJanuaryLooksAhead(user: UserId, cal: Calendar, clock: Clock)
    requires ValidCalendar(cal)
    ensures var c := GetDashboardContext(Some(user), Some(Finite(1.0)), Some(Finite(100.0)), cal, clock).value;
            && c.currentPeriod == MonthPeriod(cal, 100, 1)
            && c.previousPeriod == MonthPeriod(cal, 1999, 12)
            && c.currentPeriod.end < c.previousPeriod.start
  {
    assert Trunc(1.0) == 1 && Trunc(100.0) == 100;
    assert cal.monthStart(MonthIndex(100, 1) + 1) <= cal.monthStart(MonthIndex(1999, 12));
  }

  /** With no query at all the context is the clock's own month. */
  lemma DefaultContextIsCurrentMonth(user: UserId, cal: Calendar, clock: Clock)
    ensures var c := GetDashboardContext(Some(user), None, None, cal, clock).value;
            c.month == clock.month && c.year == clock.year as real
            && c.currentPeriod == MonthPeriod(cal, DateYear(clock.year), clock.month)
  {
    assert Trunc(clock.year as real) == clock.year;
  }

  /** A month parameter that is a whole number from 1 to 12 selects that month, and the summary for
      that month covers exactly the context's current period when the year is the clock's. */
  lemma ContextMatchesSummaryPeriod(user: UserId, m: MonthNumber, cal: Calendar, clock: Clock)
    ensures var c := GetDashboardContext(Some(user), Some(Finite(m as real)), None, cal, clock).value;
            c.month == m && c.currentPeriod == SummaryPeriod(cal, clock.year, m as real)
  {
    assert Trunc(m as real) == m;
    assert Trunc(clock.year as real) == clock.year;
  }
}

=== FILE: dates.dfy ===
/** Calendar arithmetic on day numbers.

    A date is the number of days since 1970-01-01 in local time; the time of day is not modelled,
    so "from the first day at 00:00 to the last day at 23:59:59.999" is an inclusive range of day
    numbers. Adding days is concrete. Adding months or years (JavaScript's `setMonth` and
    `setFullYear`, with their day-overflow rules) and locating the first day of a month are
    supplied as a `Calendar` value, of which the proofs only assume monotonicity. */
module Dates {

  type Day = int

  /** A month of the year, 1 (January) to 12 (December). */
  type MonthNumber = m: int | 1 <= m <= 12 witness 1

  /** `setDate(getDate() + n)`. */
  function AddDays(d: Day, n: int): Day {
    d + n
  }

  /** `getDay()`: 0 is Sunday, 6 is Saturday; day 0 (1970-01-01) was a Thursday. */
  function Weekday(d: Day): (w: int)
    ensures 0 <= w <= 6
  {
    (d + 4) % 7
  }

  /** The calendar operations that the model leaves abstract.
      `monthStart(i)` is the first day of the month with absolute index `i` (year * 12 + month - 1),
      which is how `new Date(year, monthIndex, 1)` normalises an out-of-range month. */
  datatype Calendar = Calendar(
    addMonths: (Day, int) -> Day,
    addYears: (Day, int) -> Day,
    monthStart: int -> Day)

  /** What is assumed of a real calendar: adding more months (years) gives a later day, adding none
      changes nothing, and later months start later. */
  ghost predicate ValidCalendar(cal: Calendar) {
    && (forall d, j, k | j < k :: cal.addMonths(d, j) < cal.addMonths(d, k))
    && (forall d :: cal.addMonths(d, 0) == d)
    && (forall d, j, k | j < k :: cal.addYears(d, j) < cal.addYears(d, k))
    && (forall d :: cal.addYears(d, 0) == d)
    && (forall i, j | i < j :: cal.monthStart(i) < cal.monthStart(j))
  }

  /** One reading of the clock: today, and the year and month it falls in. */
  datatype Clock = Clock(today: Day, year: int, month: MonthNumber)

  /** An inclusive range of days. */
  datatype Period = Period(start: Day, end: Day) {
    predicate Contains(d: Day) {
      start <= d <= end
    }
  }

  /** A JavaScript number as `Number(...)` yields it from a query parameter. */
  datatype Num = Finite(value: real) | NaN | PositiveInfinity | NegativeInfinity

  /** `Math.trunc` on a finite number: towards zero. */
  function Trunc(x: real): (r: int)
    ensures x >= 0.0 ==> r as real <= x < r as real + 1.0
    ensures x < 0.0 ==> r as real - 1.0 < x <= r as real
  {
    if x >= 0.0 then x.Floor else -((-x).Floor)
  }

  /** The full year `new Date(year, month, day)` uses for a year argument: it truncates the year,
      then reads 0 to 99 as 1900 to 1999. (`setMonth` on an existing date does not do this.) */
  function DateYear(year: int): (r: int)
    ensures 0 <= year <= 99 <==> r != year
    ensures 0 <= year <= 99 ==> r == 1900 + year
    ensures r < 0 || r >= 100
  {
    if 0 <= year <= 99 then 1900 + year else year
  }

  /** The absolute index of a month: the value `new Date(year, month - 1, 1)` normalises to. */
  function MonthIndex(year: int, month: int): int {
    year * 12 + (month - 1)
  }

  /** From `new Date(year, month - 1, 1)` to `new Date(year, month, 0, 23, 59, 59, 999)`: the days of
      the month, ending the day before the next month starts. */
  function MonthPeriod(cal: Calendar, year: int, month: int): (p: Period)
    ensures p.start == cal.monthStart(MonthIndex(year, month))
    ensures p.end + 1 == cal.monthStart(MonthIndex(year, month) + 1)
  {
    var i := MonthIndex(year, month);
    Period(cal.monthStart(i), cal.monthStart(i + 1) - 1)
  }

  /** In a valid calendar a month period is never empty, and consecutive months tile the days:
      the day after one month's last day is the next month's first. */
  lemma MonthPeriodsTile(cal: Calendar, year: int, month: int)
    requires ValidCalendar(cal)
    ensures MonthPeriod(cal, year, month).start <= MonthPeriod(cal, year, month).end
    ensures MonthPeriod(cal, year, month).end + 1 == MonthPeriod(cal, year, month + 1).start
  {
    var i := MonthIndex(year, month);
    assert cal.monthStart(i) < cal.monthStart(i + 1);
    assert MonthIndex(year, month + 1) == i + 1;
  }

  /** Month 0 of a year is December of the year before, as `Date` normalises it. */
  lemma MonthZeroIsPreviousDecember(cal: Calendar, year: int)
    ensures MonthPeriod(cal, year, 0) == MonthPeriod(cal, year - 1, 12)
  {
    assert MonthIndex(year, 0) == MonthIndex(year - 1, 12);
  }
}

=== FILE: delete_transaction.dfy ===
/** `deleteTransaction`: removing one row of a series, or a whole series. */
module DeleteTransaction {
  import opened Wrappers
  import opened Ledger
  import opened Seqs

  /** How much of a series the caller asked to delete. The action receives it and never reads it. */
  datatype Scope = Current | Forward | All

  function WithoutId(id: Id): Transaction -> bool {
    (t: Transaction) => t.id != id
  }

  function OutsideSeries(id: Id): Transaction -> bool {
    (t: Transaction) => t.id != id && t.parentId != Some(id)
  }

  /** The rows a deletion removes: an unknown id removes nothing; a child row removes that row
      alone; a root removes itself and every row pointing at it. No ownership is checked. */
  predicate Removed(db: Db, target: Id, t: Transaction) {
    match FindTransaction(db.transactions, target)
    case None => false
    case Some(i) =>
      if db.transactions[i].IsRoot() then t.id == target || t.parentId == Some(target)
      else t.id == target
  }

  function Delete(db: Db, transactionId: Id, scope: Scope): (r: Db)
    ensures r.accounts == db.accounts
    ensures FindTransaction(db.transactions, transactionId).None? ==> r == db
    ensures multiset(r.transactions) <= multiset(db.transactions)
    ensures forall k :: 0 <= k < |r.transactions| ==> !Removed(db, transactionId, r.transactions[k])
    ensures forall k :: 0 <= k < |db.transactions| && !Removed(db, transactionId, db.transactions[k]) ==>
      db.transactions[k] in r.transactions
  {
    match FindTransaction(db.transactions, transactionId)
    case None => db
    case Some(i) =>
      if db.transactions[i].IsRoot() then
        db.(transactions := Filter(db.transactions, OutsideSeries(transactionId)))
      else
        db.(transactions := Filter(db.transactions, WithoutId(transactionId)))
  }

  /** A found row is always among the removed ones, and once gone its id is gone entirely. */
  lemma DeleteRemovesTarget(db: Db, transactionId: Id, scope: Scope)
    requires FindTransaction(db.transactions, transactionId).Some?
    ensures FindTransaction(Delete(db, transactionId, scope).transactions, transactionId).None?
  {
    var r := Delete(db, transactionId, scope);
    var i := FindTransaction(db.transactions, transactionId).value;
    forall k | 0 <= k < |r.transactions| ensures r.transactions[k].id != transactionId {
      assert !Removed(db, transactionId, r.transactions[k]);
    }
  }

  /** Deleting a root leaves no row that still points at it. */
  lemma DeleteRootLeavesNoOrphans(db: Db, transactionId: Id, scope: Scope)
    requires FindTransaction(db.transactions, transactionId).Some?
    requires db.transactions[FindTransaction(db.transactions, transactionId).value].IsRoot()
    ensures forall k :: 0 <= k < |Delete(db, transactionId, scope).transactions| ==>
      Delete(db, transactionId, scope).transactions[k].parentId != Some(transactionId)
  {
    var r := Delete(db, transactionId, scope);
    forall k | 0 <= k < |r.transactions| ensures r.transactions[k].parentId != Some(transactionId) {
      assert !Removed(db, transactionId, r.transactions[k]);
    }
  }

  /** Deleting one child keeps its root and its siblings. */
  lemma DeleteChildKeepsSeries(db: Db, transactionId: Id, scope: Scope, k: nat)
    requires FindTransaction(db.transactions, transactionId).Some?
    requires !db.transactions[FindTransaction(db.transactions, transactionId).value].IsRoot()
    requires k < |db.transactions| && db.transactions[k].id != transactionId
    ensures db.transactions[k] in Delete(db, transactionId, scope).transactions
  {
    assert !Removed(db, transactionId, db.transactions[k]);
  }

  /** The outcome does not depend on the requested scope. */
  lemma DeleteIgnoresScope(db: Db, transactionId: Id, a: Scope, b: Scope)
    ensures Delete(db, transactionId, a) == Delete(db, transactionId, b)
  {
  }

  /** Deleting the same id twice is deleting it once. */
  lemma DeleteIdempotent(db: Db, transactionId: Id, scope: Scope)
    ensures var once := Delete(db, transactionId, scope);
            Delete(once, transactionId, scope) == once
  {
    if FindTransaction(db.transactions, transactionId).Some? {
      DeleteRemovesTarget(db, transactionId, scope);
    }
  }
}

=== FILE: ledger.dfy ===
/** The persisted entities: transactions, accounts and the two tables that hold them.

    Enumerations follow the database's enums. `TransactionType` carries both `Investment`, which the
    dashboard queries, and `Transfer`, which the transaction form offers: the application uses both. */
module Ledger {
  import opened Wrappers
  import opened Dates
  import opened Seqs

  type Id = string
  type UserId = string

  datatype TransactionType = Deposit | Expense | Investment | Transfer

  datatype Category =
    | Education | Entertainment | Food | Health | Housing | OtherCategory
    | Salary | Transportation | Utility | InvestmentCategory

  datatype PaymentMethod = Pix | Cash | DebitCard | CreditCard | BankSlip | BankTransfer | OtherMethod

  datatype Status = Pending | Executed

  datatype Fulfillment = Immediate | Installment | Forecast

  datatype Recurrence = NoRecurrence | Daily | Weekly | Monthly | Yearly | Custom

  /** A row of the transactions table. `amount` is positive; its direction comes from `kind`.
      `recurrenceSkipWeekdays` is stored as JSON text; the model keeps the list it encodes.
      A row without `parentId` is a root; rows with one were generated from that root. */
  datatype Transaction = Transaction(
    id: Id,
    userId: UserId,
    accountId: Option<Id>,
    name: string,
    amount: real,
    kind: TransactionType,
    category: Category,
    paymentMethod: PaymentMethod,
    date: Day,
    status: Status,
    executedAt: Option<Day>,
    fulfillment: Fulfillment,
    installmentIndex: Option<int>,
    installmentCount: Option<int>,
    installmentValueIsTotal: bool,
    recurrence: Recurrence,
    recurrenceInterval: Option<int>,
    recurrenceEndsAt: Option<Day>,
    recurrenceSkipWeekdays: Option<seq<int>>,
    parentId: Option<Id>,
    createdAt: Day)
  {
    predicate IsRoot() {
      parentId.None?
    }

    /** The realisation date is recorded exactly for executed rows. */
    predicate ExecutionConsistent() {
      executedAt.Some? <==> status == Executed
    }
  }

  /** The five per-account inclusion flags. */
  datatype Flags = Flags(
    includeInBalance: bool,
    includeInCashFlow: bool,
    includeInInvestments: bool,
    includeInAiReports: bool,
    includeInOverview: bool)

  const AllIncluded := Flags(true, true, true, true, true)

  /** A row of the accounts table. */
  datatype Account = Account(
    id: Id,
    userId: UserId,
    name: string,
    color: Option<string>,
    flags: Flags,
    createdAt: Day)

  /** The database: the two tables, each in storage order. */
  datatype Db = Db(transactions: seq<Transaction>, accounts: seq<Account>)

  /** The errors the server code raises. */
  datatype Failure =
    | Unauthorized       // no authenticated user
    | Invalid            // the input schema rejected the arguments
    | NotFound           // no row matched an update or lookup
    | KeepOneAccount     // deleting the user's last account
    | NoFallbackAccount  // no other account to move transactions to

  /** The position of the first row with `id`, as `findUnique` / `findFirst` locate it. */
  function FindTransaction(rows: seq<Transaction>, id: Id): (r: Option<nat>)
    ensures r.Some? ==> r.value < |rows| && rows[r.value].id == id
    ensures r.Some? ==> forall j :: 0 <= j < r.value ==> rows[j].id != id
    ensures r.None? <==> forall j :: 0 <= j < |rows| ==> rows[j].id != id
  {
    FirstIndex(rows, (t: Transaction) => t.id == id)
  }

  /** A row with the id that no earlier row carries is the one found. */
  lemma FindIsFirst(rows: seq<Transaction>, id: Id, p: nat)
    requires p < |rows| && rows[p].id == id
    requires forall j :: 0 <= j < p ==> rows[j].id != id
    ensures FindTransaction(rows, id) == Some(p)
  {
  }

  /** Account ids are unique: they are the table's primary key. */
  ghost predicate UniqueAccountIds(accounts: seq<Account>) {
    forall i, j :: 0 <= i < j < |accounts| ==> accounts[i].id != accounts[j].id
  }

  /** The sum of the rows' amounts; 0 for no rows (the `|| 0` the application applies to an empty sum). */
  function TotalAmount(rows: seq<Transaction>): real {
    if |rows| == 0 then 0.0 else rows[0].amount + TotalAmount(rows[1..])
  }

  /** Rows that all carry the same amount add up to that amount times their number. */
  lemma {:induction false} TotalOfEqualAmounts(rows: seq<Transaction>, a: real)
    requires forall k :: 0 <= k < |rows| ==> rows[k].amount == a
    ensures TotalAmount(rows) == |rows| as real * a
  {
    if |rows| > 0 {
      TotalOfEqualAmounts(rows[1..], a);
    }
  }

  /** Totals add over concatenation. */
  lemma {:induction false} TotalOfConcat(a: seq<Transaction>, b: seq<Transaction>)
    ensures TotalAmount(a + b) == TotalAmount(a) + TotalAmount(b)
  {
    if |a| == 0 {
      assert a + b == b;
    } else {
      assert (a + b)[1..] == a[1..] + b;
      TotalOfConcat(a[1..], b);
    }
  }

  /** Splitting rows by any condition splits their total: the selected and the rejected rows add up
      to the whole. */
  lemma {:induction false} TotalSplits(rows: seq<Transaction>, p: Transaction -> bool, q: Transaction -> bool)
    requires forall k :: 0 <= k < |rows| ==> q(rows[k]) == !p(rows[k])
    ensures TotalAmount(Filter(rows, p)) + TotalAmount(Filter(rows, q)) == TotalAmount(rows)
  {
    if |rows| > 0 {
      var x := rows[0];
      var fp := Filter(rows[1..], p);
      var fq := Filter(rows[1..], q);
      TotalSplits(rows[1..], p, q);
      if p(x) {
        assert Filter(rows, p) == [x] + fp;
        assert Filter(rows, q) == fq;
        assert ([x] + fp)[1..] == fp;
      } else {
        assert Filter(rows, p) == fp;
        assert Filter(rows, q) == [x] + fq;
        assert ([x] + fq)[1..] == fq;
      }
    }
  }

  /** The accounts that belong to `user`, in storage order. */
  function AccountsOf(accounts: seq<Account>, user: UserId): (r: seq<Account>)
    ensures forall k :: 0 <= k < |r| ==> r[k].userId == user && r[k] in accounts
    ensures forall k :: 0 <= k < |accounts| && accounts[k].userId == user ==> accounts[k] in r
  {
    Filter(accounts, OwnedBy(user))
  }

  function OwnedBy(user: UserId): Account -> bool {
    (a: Account) => a.userId == user
  }
}

=== FILE: manage_accounts.dfy ===
/** The account manager panel: the payloads its flag switches and its "create" button send to
    `saveAccount`, and when it offers to delete an account. */
module ManageAccounts {
  import opened Wrappers
  import opened Text
  import opened Ledger
  import Seqs
  import opened AccountSchema
  import opened Accounts

  /** The five switches of an account row. */
  datatype FlagField = IncludeInBalance | IncludeInCashFlow | IncludeInInvestments | IncludeInAiReports | IncludeInOverview

  function FlagValue(flags: Flags, field: FlagField): bool {
    match field
    case IncludeInBalance => flags.includeInBalance
    case IncludeInCashFlow => flags.includeInCashFlow
    case IncludeInInvestments => flags.includeInInvestments
    case IncludeInAiReports => flags.includeInAiReports
    case IncludeInOverview => flags.includeInOverview
  }

  /** The account's flags with `field` switched to `checked`. */
  function SetFlag(flags: Flags, field: FlagField, checked: bool): (r: Flags)
    ensures FlagValue(r, field) == checked
    ensures forall other: FlagField :: other != field ==> FlagValue(r, other) == FlagValue(flags, other)
  {
    Flags(
      if field == IncludeInBalance then checked else flags.includeInBalance,
      if field == IncludeInCashFlow then checked else flags.includeInCashFlow,
      if field == IncludeInInvestments then checked else flags.includeInInvestments,
      if field == IncludeInAiReports then checked else flags.includeInAiReports,
      if field == IncludeInOverview then checked else flags.includeInOverview)
  }

  /** Every flag given explicitly. */
  function AsInput(flags: Flags): (r: FlagInput)
    ensures ApplyDefaults(r) == flags
  {
    FlagInput(Some(flags.includeInBalance), Some(flags.includeInCashFlow), Some(flags.includeInInvestments),
              Some(flags.includeInAiReports), Some(flags.includeInOverview))
  }

  /** `handleToggle`: the account's id, name and colour (a missing colour as null) with all five
      flags, the switched one set to `checked` and the other four copied from the account. */
  function TogglePayload(a: Account, field: FlagField, checked: bool): (r: AccountSettingsInput)
    ensures r.id == Some(a.id) && r.name == a.name && r.color == a.color
    ensures ApplyDefaults(r.flags) == SetFlag(a.flags, field, checked)
    ensures FlagValue(ApplyDefaults(r.flags), field) == checked
    ensures forall other: FlagField :: other != field ==>
      FlagValue(ApplyDefaults(r.flags), other) == FlagValue(a.flags, other)
  {
    AccountSettingsInput(Some(a.id), a.name, a.color, AsInput(SetFlag(a.flags, field, checked)))
  }

  /** A switch on a stored account with a trimmed name changes that one flag of that one account and
      nothing else. */
  lemma ToggleChangesOnlyThatFlag(db: Db, user: UserId, i: nat, field: FlagField, checked: bool, now: Dates.Day,
                                  mint: nat -> Id)
    requires i < |db.accounts| && db.accounts[i].id != ""
    requires FindOwnedAccount(db.accounts, db.accounts[i].id, user) == Some(i)
    requires db.accounts[i].name != "" && Trim(db.accounts[i].name) == db.accounts[i].name
    requires db.accounts[i].color.Some? ==> IsStoredColor(db.accounts[i].color.value)
    ensures SaveAccount(db, Some(user), TogglePayload(db.accounts[i], field, checked), now, mint)
      == Ok(db.(accounts := db.accounts[i := db.accounts[i].(flags := SetFlag(db.accounts[i].flags, field, checked))]))
  {
    var a := db.accounts[i];
    var input := TogglePayload(a, field, checked);
    if a.color.Some? {
      StoredColorNormalizes(a.color.value);
    }
    TrimEmptyIffAllSpace(a.name);
    var s := ParseAccountSettings(input).value;
    assert s.name == a.name && s.color == a.color;
    assert a.(name := s.name, color := s.color, flags := ApplyDefaults(s.flags))
        == a.(flags := SetFlag(a.flags, field, checked));
  }

  /** `handleCreateAccount`: nothing is sent for a name that trims to nothing; otherwise the trimmed
      name, and the colour unless the field is empty. The flags are left to their defaults. */
  function CreatePayload(name: string, color: string): (r: Option<AccountSettingsInput>)
    ensures r.None? <==> AllSpace(name)
    ensures r.Some? ==> r.value.id.None? && r.value.name == Trim(name) && r.value.name != ""
    ensures r.Some? ==> (r.value.color.None? <==> color == "")
    ensures r.Some? && color != "" ==> r.value.color == Some(color)
  {
    TrimEmptyIffAllSpace(name);
    if Trim(name) == "" then None
    else Some(AccountSettingsInput(None, Trim(name), if color == "" then None else Some(color),
                                   FlagInput(None, None, None, None, None)))
  }

  /** A sent create request with a valid or empty colour makes a new account for the caller, named
      with the trimmed name, coloured with the trimmed colour carrying its `#` (none for an empty
      colour) and included everywhere. */
  lemma CreateMakesTrimmedAccount(db: Db, user: UserId, name: string, color: string, now: Dates.Day,
                                  mint: nat -> Id)
    requires CreatePayload(name, color).Some?
    requires color != "" ==> IsHexColor(Trim(color))
    ensures var r := SaveAccount(db, Some(user), CreatePayload(name, color).value, now, mint);
      && r.Ok?
      && r.value.accounts == db.accounts + [Account(mint(0), user, Trim(name),
                                                    if color == "" then None else Some(Prefixed(Trim(color))),
                                                    AllIncluded, now)]
  {
    var input := CreatePayload(name, color).value;
    TrimIdempotent(name);
    TrimEmptyIffAllSpace(input.name);
    var r := SaveAccount(db, Some(user), input, now, mint);
    assert r.value.accounts == r.value.accounts[..|db.accounts|] + [r.value.accounts[|db.accounts|]];
  }

  /** The delete control appears only while the panel lists more than one account. */
  predicate OffersDelete(listed: seq<Account>) {
    |listed| > 1
  }

  /** With unique ids, no account occurs twice. */
  lemma {:induction false} UniqueIdsOccurOnce(accounts: seq<Account>, a: Account)
    requires UniqueAccountIds(accounts)
    ensures multiset(accounts)[a] <= 1
  {
    if |accounts| > 0 {
      UniqueIdsOccurOnce(accounts[1..], a);
      assert accounts == [accounts[0]] + accounts[1..];
      if accounts[0] == a {
        assert forall j :: 0 <= j < |accounts[1..]| ==> accounts[1..][j].id != a.id;
        assert a !in accounts[1..];
      }
    }
  }

  /** With unique ids, the first two accounts listed for a user have different ids. */
  lemma FirstListedIdsDiffer(accounts: seq<Account>, user: UserId)
    requires UniqueAccountIds(accounts)
    requires OffersDelete(AccountsOf(accounts, user))
    ensures AccountsOf(accounts, user)[0].id != AccountsOf(accounts, user)[1].id
  {
    var listed := AccountsOf(accounts, user);
    if listed[0].id == listed[1].id {
      var p :| 0 <= p < |accounts| && accounts[p] == listed[0];
      var q :| 0 <= q < |accounts| && accounts[q] == listed[1];
      assert p == q;
      assert multiset(listed)[listed[0]] >= 2 by {
        assert listed == [listed[0], listed[0]] + listed[2..];
      }
      assert multiset(listed) <= multiset(accounts) by {
        assert listed == Seqs.Filter(accounts, OwnedBy(user));
      }
      UniqueIdsOccurOnce(accounts, listed[0]);
      assert false;
    }
  }

  /** Two listed accounts never share an id, so a second one always has an id of its own. */
  lemma OtherListedAccount(db: Db, user: UserId, a: Account) returns (m: nat)
    requires UniqueAccountIds(db.accounts)
    requires OffersDelete(AccountsOf(db.accounts, user))
    ensures m < |db.accounts| && db.accounts[m].userId == user && db.accounts[m].id != a.id
  {
    var listed := AccountsOf(db.accounts, user);
    FirstListedIdsDiffer(db.accounts, user);
    var b := if listed[0].id != a.id then listed[0] else listed[1];
    m :| 0 <= m < |db.accounts| && db.accounts[m] == b;
  }

  /** Deleting from a panel that lists the caller's accounts and offers deletion succeeds for any
      listed account: another account is always there to take its transactions. */
  lemma OfferedDeleteSucceeds(db: Db, user: UserId, a: Account)
    requires UniqueAccountIds(db.accounts)
    requires a in AccountsOf(db.accounts, user) && a.id != ""
    requires OffersDelete(AccountsOf(db.accounts, user))
    ensures DeleteAccount(db, Some(user), a.id).Deleted?
  {
    var m := OtherListedAccount(db, user, a);
    assert Fallback(db.accounts, user, a.id).Some?;
    var k :| 0 <= k < |db.accounts| && db.accounts[k] == a;
    assert FindOwnedAccount(db.accounts, a.id, user).Some?;
  }
}

=== FILE: seqs.dfy ===
/** Order-preserving selection from a sequence: the shape of every `where` clause over a table. */
module Seqs {
  import opened Wrappers

  /** The elements of `s` that satisfy `p`, in their original order. */
  function Filter<T>(s: seq<T>, p: T -> bool): (r: seq<T>)
    ensures |r| <= |s|
    ensures forall i :: 0 <= i < |r| ==> p(r[i]) && r[i] in s
    ensures forall i :: 0 <= i < |s| && p(s[i]) ==> s[i] in r
    ensures multiset(r) <= multiset(s)
  {
    if |s| == 0 then []
    else
      assert s == [s[0]] + s[1..];
      (if p(s[0]) then [s[0]] else []) + Filter(s[1..], p)
  }

  /** The position of the first element that satisfies `p`, as a `findFirst` over a table returns it. */
  function FirstIndex<T>(s: seq<T>, p: T -> bool): (r: Option<nat>)
    ensures r.Some? ==> r.value < |s| && p(s[r.value])
    ensures r.Some? ==> forall j :: 0 <= j < r.value ==> !p(s[j])
    ensures r.None? <==> forall j :: 0 <= j < |s| ==> !p(s[j])
  {
    if |s| == 0 then None
    else if p(s[0]) then Some(0)
    else match FirstIndex(s[1..], p)
      case Some(i) => Some(i + 1)
      case None => None
  }

  /** An element that passes the selection splits the selection at its position. */
  lemma FilterSplitAt<T>(s: seq<T>, i: nat, p: T -> bool)
    requires i < |s| && p(s[i])
    ensures Filter(s, p) == Filter(s[..i], p) + [s[i]] + Filter(s[i + 1..], p)
  {
    var rest := s[i..];
    assert s == s[..i] + rest;
    FilterConcat(s[..i], rest, p);
    assert Filter(rest, p) == [s[i]] + Filter(s[i + 1..], p) by {
      assert rest[0] == s[i] && rest[1..] == s[i + 1..];
    }
  }

  /** Selection distributes over concatenation. */
  lemma {:induction false} FilterConcat<T>(s: seq<T>, t: seq<T>, p: T -> bool)
    ensures Filter(s + t, p) == Filter(s, p) + Filter(t, p)
  {
    if |s| == 0 {
      assert s + t == t;
    } else {
      assert (s + t)[1..] == s[1..] + t;
      FilterConcat(s[1..], t, p);
    }
  }

  /** Selecting from a sequence whose every element qualifies changes nothing. */
  lemma {:induction false} FilterAll<T>(s: seq<T>, p: T -> bool)
    requires forall i :: 0 <= i < |s| ==> p(s[i])
    ensures Filter(s, p) == s
  {
    if |s| > 0 {
      FilterAll(s[1..], p);
    }
  }

  /** Selecting from a sequence no element of which qualifies gives nothing. */
  lemma {:induction false} FilterNone<T>(s: seq<T>, p: T -> bool)
    requires forall i :: 0 <= i < |s| ==> !p(s[i])
    ensures Filter(s, p) == []
  {
    if |s| > 0 {
      FilterNone(s[1..], p);
    }
  }
}

=== FILE: sorting.dfy ===
/** Sorting by an integer key, as the database's `orderBy` and the client's `sort` do. */
module Sorting {

  /** `s` is in ascending order of `key`. */
  ghost predicate SortedBy<T>(s: seq<T>, key: T -> int) {
    forall i, j :: 0 <= i < j < |s| ==> key(s[i]) <= key(s[j])
  }

  /** Inserts `x` into an already sorted sequence. */
  function Insert<T>(x: T, s: seq<T>, key: T -> int): (r: seq<T>)
    requires SortedBy(s, key)
    ensures SortedBy(r, key)
    ensures multiset(r) == multiset(s) + multiset{x}
    ensures |r| == |s| + 1 && (r[0] == x || (|s| > 0 && r[0] == s[0]))
  {
    if |s| == 0 then [x]
    else if key(x) <= key(s[0]) then [x] + s
    else
      var rest := Insert(x, s[1..], key);
      assert s == [s[0]] + s[1..];
      assert multiset(s) == multiset{s[0]} + multiset(s[1..]);
      assert key(s[0]) <= key(rest[0]);
      [s[0]] + rest
  }

  /** Ascending order of `key`; the order among equal keys is left unspecified by the callers. */
  function SortBy<T>(s: seq<T>, key: T -> int): (r: seq<T>)
    ensures SortedBy(r, key)
    ensures multiset(r) == multiset(s)
    ensures |r| == |s|
  {
    if |s| == 0 then []
    else
      assert s == [s[0]] + s[1..];
      Insert(s[0], SortBy(s[1..], key), key)
  }

  /** The elements past a prefix of a sorted sequence are never ahead of those inside it. */
  lemma {:induction false} SortedPrefixDominates<T>(s: seq<T>, key: T -> int, n: nat, t: T)
    requires SortedBy(s, key) && n <= |s|
    requires t in multiset(s) - multiset(s[..n])
    ensures forall i :: 0 <= i < n ==> key(s[i]) <= key(t)
  {
    assert s == s[..n] + s[n..];
    assert multiset(s) == multiset(s[..n]) + multiset(s[n..]);
    assert t in multiset(s[n..]);
    var j :| 0 <= j < |s[n..]| && s[n..][j] == t;
    assert s[n + j] == t;
  }

  /** The head of a sorted sequence has the smallest key of all its elements. */
  lemma SortedHeadIsLeast<T>(s: seq<T>, key: T -> int, t: T)
    requires SortedBy(s, key) && t in multiset(s)
    ensures key(s[0]) <= key(t)
  {
    var j :| 0 <= j < |s| && s[j] == t;
  }
}

=== FILE: subscription_plans.dfy ===
/** The subscription plan catalogue and the lookup of a user's active plan. */
module SubscriptionPlans {
  import opened Wrappers

  datatype Slug = Basic | Plus | Premium

  datatype PlanType = Free | Paid

  datatype Feature = Feature(caption: string, included: bool)

  /** `transactionsLimit` is None when the plan has no limit. */
  datatype Capabilities = Capabilities(aiReports: bool, transactionsLimit: Option<int>)

  datatype Plan = Plan(
    slug: Slug,
    name: string,
    priceInCents: int,
    currency: string,
    billingPeriodLabel: string,
    features: seq<Feature>,
    stripePriceIdEnvKey: Option<string>,
    kind: PlanType,
    visible: bool,
    capabilities: Capabilities)

  const BasicPlan: Plan := Plan(Basic, "Plano Básico", 0, "R$", "/mês",
    [Feature("Até 10 transações por mês", true), Feature("Relatórios com IA", false),
     Feature("Suporte prioritário", false)],
    None, Free, true, Capabilities(false, Some(10)))

  const PlusPlan: Plan := Plan(Plus, "Plano Pro", 1990, "R$", "/mês",
    [Feature("Transações ilimitadas", true), Feature("Relatórios com IA", true),
     Feature("Suporte prioritário", false)],
    Some("STRIPE_PLUS_PLAN_PRICE_ID"), Paid, true, Capabilities(true, None))

  const PremiumPlan: Plan := Plan(Premium, "Plano Vision", 3990, "R$", "/mês",
    [Feature("Transações ilimitadas", true), Feature("Relatórios com IA avançados", true),
     Feature("Suporte prioritário", true)],
    Some("STRIPE_PREMIUM_PLAN_PRICE_ID"), Paid, false, Capabilities(true, None))

  const Plans: seq<Plan> := [BasicPlan, PlusPlan, PremiumPlan]

  /** The ids a paid subscription is stored under. */
  const PaidPlanIds: seq<string> := ["plus", "premium"]

  function SlugText(s: Slug): string {
    match s
    case Basic => "basic"
    case Plus => "plus"
    case Premium => "premium"
  }

  /** `SUBSCRIPTION_PLAN_BY_SLUG`: the catalogue folded into a record keyed by slug, a later plan
      overwriting an earlier one with the same slug. */
  function PlanBySlug(s: Slug): (p: Plan)
    ensures p in Plans && p.slug == s
  {
    assert Plans[0].slug == Basic && Plans[1].slug == Plus && Plans[2].slug == Premium;
    LastWithSlug(Plans, s, BasicPlan)
  }

  function LastWithSlug(plans: seq<Plan>, s: Slug, acc: Plan): (p: Plan)
    ensures p == acc || p in plans
    ensures (acc.slug == s || exists k :: 0 <= k < |plans| && plans[k].slug == s) ==> p.slug == s
    ensures (exists k :: 0 <= k < |plans| && plans[k].slug == s) ==> p in plans
    ensures (forall k :: 0 <= k < |plans| ==> plans[k].slug != s) ==> p == acc
    ensures (exists k :: 0 <= k < |plans| && plans[k].slug == s) ==>
      exists k :: 0 <= k < |plans| && plans[k] == p && forall j :: k < j < |plans| ==> plans[j].slug != s
  {
    if |plans| == 0 then acc
    else
      assert forall k :: 1 <= k < |plans| ==> plans[k] == plans[1..][k - 1];
      var found := LastWithSlug(plans[1..], s, if plans[0].slug == s then plans[0] else acc);
      if exists k :: 0 <= k < |plans[1..]| && plans[1..][k].slug == s then
        var k :| 0 <= k < |plans[1..]| && plans[1..][k] == found && forall j :: k < j < |plans[1..]| ==> plans[1..][j].slug != s;
        assert plans[k + 1] == found && forall j :: k + 1 < j < |plans| ==> plans[j].slug != s;
        found
      else
        found
  }

  /** `VISIBLE_SUBSCRIPTION_PLANS`: the catalogue's visible plans, in catalogue order. */
  function VisiblePlans(): (r: seq<Plan>)
    ensures forall p :: p in r <==> p in Plans && p.visible
  {
    if Plans[2].visible then Plans else Plans[..2]
  }

  /** `isPaidSubscriptionPlanId(value)`: a string naming a paid plan; None stands for a value that is
      not a string. */
  function IsPaidPlanId(value: Option<string>): (r: bool)
    ensures r <==> value.Some? && value.value in PaidPlanIds
  {
    value.Some? && (value.value == "plus" || value.value == "premium")
  }

  /** `getActiveSubscriptionPlan(id)`: the paid plan the id names, otherwise the basic plan. */
  function GetActiveSubscriptionPlan(id: Option<string>): (p: Plan)
    ensures p in Plans
    ensures p.kind == Paid <==> IsPaidPlanId(id)
    ensures IsPaidPlanId(id) ==> SlugText(p.slug) == id.value
    ensures !IsPaidPlanId(id) ==> p == BasicPlan
  {
    if id.Some? && id.value != "" && IsPaidPlanId(id) then
      PlanBySlug(if id.value == "plus" then Plus else Premium)
    else
      PlanBySlug(Basic)
  }

  /** `isPaidSubscriptionPlan(plan)`. */
  function IsPaidPlan(p: Plan): bool {
    p.kind == Paid
  }

  /** Storing a plan's slug and reading the active plan back gives that plan. */
  lemma ActivePlanRoundTrip(s: Slug)
    ensures GetActiveSubscriptionPlan(Some(SlugText(s))) == PlanBySlug(s)
  {
  }

  /** A catalogue plan is paid exactly when its slug is one of the paid ids, and then it has no
      transaction limit and includes AI reports; the free plan allows ten transactions a month. */
  lemma PaidPlansUnlimited(p: Plan)
    requires p in Plans
    ensures IsPaidPlan(p) <==> SlugText(p.slug) in PaidPlanIds
    ensures IsPaidPlan(p) ==> p.capabilities.transactionsLimit.None? && p.capabilities.aiReports
    ensures !IsPaidPlan(p) ==> p.capabilities.transactionsLimit == Some(10) && p.priceInCents == 0
  {
  }

  /** The visible plans are the basic and the Pro plan; the Vision plan is hidden. */
  lemma VisiblePlansAreBasicAndPlus()
    ensures VisiblePlans() == [BasicPlan, PlusPlan]
  {
  }
}

=== FILE: text.dfy ===
/** The string primitives the validators rely on: JavaScript's `trim` and the hex-digit class. */
module Text {

  /** The characters `String.prototype.trim` strips: white space and line terminators. */
  predicate IsSpace(c: char) {
    || c == ' ' || c == '\t' || c == '\n' || c == '\r' || c == '\U{000B}' || c == '\U{000C}'
    || c == '\U{00A0}' || c == '\U{1680}' || ('\U{2000}' <= c <= '\U{200A}')
    || c == '\U{2028}' || c == '\U{2029}' || c == '\U{202F}' || c == '\U{205F}'
    || c == '\U{3000}' || c == '\U{FEFF}'
  }

  predicate AllSpace(s: string) {
    forall i :: 0 <= i < |s| ==> IsSpace(s[i])
  }

  /** Drops leading white space. */
  function TrimStart(s: string): (r: string)
    ensures |r| <= |s| && r == s[|s| - |r|..]
    ensures AllSpace(s[..|s| - |r|])
    ensures |r| > 0 ==> !IsSpace(r[0])
  {
    if |s| > 0 && IsSpace(s[0]) then TrimStart(s[1..]) else s
  }

  /** Drops trailing white space. */
  function TrimEnd(s: string): (r: string)
    ensures |r| <= |s| && r == s[..|r|]
    ensures AllSpace(s[|r|..])
    ensures |r| > 0 ==> !IsSpace(r[|r| - 1])
  {
    if |s| > 0 && IsSpace(s[|s| - 1]) then TrimEnd(s[..|s| - 1]) else s
  }

  /** JavaScript's `s.trim()`: the longest infix of `s` that neither starts nor ends with white space. */
  function Trim(s: string): (r: string)
    ensures |r| <= |s|
    ensures |r| > 0 ==> !IsSpace(r[0]) && !IsSpace(r[|r| - 1])
    ensures |r| <= |TrimStart(s)| && r == TrimStart(s)[..|r|]
    ensures AllSpace(TrimStart(s)[|r|..])
  {
    TrimEnd(TrimStart(s))
  }

  /** A string trims to nothing exactly when it consists of white space only. */
  lemma {:induction false} TrimEmptyIffAllSpace(s: string)
    ensures Trim(s) == "" <==> AllSpace(s)
  {
    var t := TrimStart(s);
    var k := |s| - |t|;
    if Trim(s) == "" {
      assert t[0..] == t;
      assert k == |s|;
      assert s[..k] == s;
    } else {
      assert s[k] == Trim(s)[0];
    }
  }

  /** A string with no white space at either end is its own trim. */
  lemma TrimUnchanged(s: string)
    requires |s| > 0 ==> !IsSpace(s[0]) && !IsSpace(s[|s| - 1])
    ensures Trim(s) == s
  {
    if |s| > 0 {
      assert TrimStart(s) == s;
      assert TrimEnd(s) == s;
    }
  }

  /** Trimming twice is trimming once. */
  lemma TrimIdempotent(s: string)
    ensures Trim(Trim(s)) == Trim(s)
  {
    TrimUnchanged(Trim(s));
  }

  predicate IsHexDigit(c: char) {
    ('0' <= c <= '9') || ('a' <= c <= 'f') || ('A' <= c <= 'F')
  }

  function StartsWith(s: string, c: char): bool {
    |s| > 0 && s[0] == c
  }
}

=== FILE: transaction_dialog.dfy ===
/** The pure logic of the create/edit transaction dialog: its form rules, the recurrence presets,
    the weekday picker and the payload it submits to `upsertTransaction`. */
module TransactionDialog {
  import opened Wrappers
  import opened Text
  import opened Dates
  import opened Seqs
  import opened Sorting
  import opened Ledger
  import opened TransactionSchema

  /** The form's values. Integer fields are `int`, as the form's `int()` rules demand. */
  datatype FormData = FormData(
    name: string,
    amount: real,
    kind: TransactionType,
    category: Category,
    paymentMethod: PaymentMethod,
    date: Day,
    accountId: string,
    status: Status,
    fulfillment: Fulfillment,
    installmentIndex: Option<int>,
    installmentCount: Option<int>,
    installmentValueIsTotal: Option<bool>,
    recurrence: Recurrence,
    recurrenceInterval: Option<int>,
    recurrenceEndsAt: Option<Day>,
    recurrenceSkipWeekdays: Option<seq<int>>)

  /** The number of weekday choices (Sunday 0 to Saturday 6). */
  const WeekdayCount := 7

  /** The form's per-field rules: like the server's, except that the account only has to be chosen. */
  predicate ClientFieldsValid(f: FormData): (r: bool)
    ensures IsUuid(f.accountId) ==> forall id :: r <==> FieldIssues(AsRequest(f, id)) == []
  {
    && Trim(f.name) != ""
    && f.amount > 0.0
    && |f.accountId| >= 1
    && (f.installmentIndex.Some? ==> f.installmentIndex.value >= 1)
    && (f.installmentCount.Some? ==> f.installmentCount.value >= 1)
    && (f.recurrenceInterval.Some? ==> f.recurrenceInterval.value >= 1)
    && (f.recurrenceSkipWeekdays.Some? ==> AllWeekdays(f.recurrenceSkipWeekdays.value))
  }

  /** The form's own `superRefine`, rule by rule: the installment rule for every form, then, for a
      repeating FORECAST only, the end-date, interval and skip-list rules. */
  function ClientCrossFieldIssues(f: FormData): (r: seq<Issue>)
    ensures forall id :: r == CrossFieldIssues(AsRequest(f, id))
  {
    var installment :=
      if f.fulfillment == Installment
         && (f.installmentCount.None? || f.installmentIndex.None?
             || f.installmentIndex.value > f.installmentCount.value)
      then [InstallmentsMissing] else [];
    if f.fulfillment != Forecast then installment
    else if f.recurrence == NoRecurrence then installment
    else
      var ends := if f.recurrenceEndsAt.Some? && f.recurrenceEndsAt.value <= f.date then [EndsNotAfterStart] else [];
      var interval :=
        if f.recurrence == Custom && (f.recurrenceInterval.None? || f.recurrenceInterval.value == 0)
        then [IntervalMissing] else [];
      var weekdays :=
        if f.recurrence == Daily && f.recurrenceSkipWeekdays.Some? && |f.recurrenceSkipWeekdays.value| == WeekdayCount
        then [NoWeekdayLeft] else [];
      installment + ends + interval + weekdays
  }

  /** The form submits: a non-blank name, a positive amount, a chosen account and, for an
      INSTALLMENT, both numbers with index <= count. */
  predicate ClientAccepts(f: FormData): (r: bool)
    ensures r ==> Trim(f.name) != "" && f.amount > 0.0 && |f.accountId| >= 1
    ensures r && f.fulfillment == Installment ==>
      && f.installmentIndex.Some? && f.installmentCount.Some?
      && f.installmentIndex.value <= f.installmentCount.value
  {
    ClientFieldsValid(f) && ClientCrossFieldIssues(f) == []
  }

  /** The form's values sent as they are, with the edited transaction's id. */
  function AsRequest(f: FormData, id: Option<Id>): UpsertRequest {
    UpsertRequest(id, f.name, f.amount, f.kind, f.category, f.paymentMethod, f.date, f.accountId, f.status,
                  f.fulfillment, f.installmentIndex, f.installmentCount, f.installmentValueIsTotal,
                  f.recurrence, f.recurrenceInterval, f.recurrenceEndsAt, f.recurrenceSkipWeekdays)
  }

  /** The form's cross-field rules raise exactly the server schema's issues. */
  lemma ClientRulesMatchServer(f: FormData, id: Option<Id>)
    ensures ClientCrossFieldIssues(f) == CrossFieldIssues(AsRequest(f, id))
  {
  }

  /** On the same values, the form and the server schema agree, except that the server also
      demands that the account id be a UUID. */
  lemma ClientAcceptsIffServerAccepts(f: FormData, id: Option<Id>)
    ensures ClientAccepts(f) && IsUuid(f.accountId) <==> ServerAccepts(AsRequest(f, id))
  {
    var req := AsRequest(f, id);
    ClientRulesMatchServer(f, id);
    assert FieldIssues(req) + CrossFieldIssues(req) == [] <==> FieldIssues(req) == [] && CrossFieldIssues(req) == [];
  }

  /** `onSubmit`'s clean-up: installment fields only for INSTALLMENT (the "value is total" switch
      otherwise false), no recurrence unless FORECAST, the interval only for a CUSTOM forecast, the end
      date only for a repeating forecast and the skip list only for a DAILY forecast. */
  function ClearUnused(q: UpsertRequest): (r: UpsertRequest)
    ensures r.id == q.id && r.name == q.name && r.amount == q.amount && r.kind == q.kind
    ensures r.category == q.category && r.paymentMethod == q.paymentMethod && r.date == q.date
    ensures r.accountId == q.accountId && r.status == q.status && r.fulfillment == q.fulfillment
    ensures r.installmentIndex.Some? || r.installmentCount.Some? ==> q.fulfillment == Installment
    ensures q.fulfillment == Installment ==>
      r.installmentIndex == q.installmentIndex && r.installmentCount == q.installmentCount
    ensures r.installmentValueIsTotal == Some(q.fulfillment == Installment && q.installmentValueIsTotal == Some(true))
    ensures r.recurrence == (if q.fulfillment == Forecast then q.recurrence else NoRecurrence)
    ensures r.recurrenceInterval.Some? ==> r.recurrence == Custom
    ensures r.recurrence == Custom ==> r.recurrenceInterval == q.recurrenceInterval
    ensures r.recurrenceEndsAt == (if r.recurrence != NoRecurrence then q.recurrenceEndsAt else None)
    ensures r.recurrenceSkipWeekdays.Some? <==> r.recurrence == Daily
    ensures r.recurrence == Daily ==> r.recurrenceSkipWeekdays.value == q.recurrenceSkipWeekdays.GetOr([])
  {
    var isInstallment := q.fulfillment == Installment;
    var isForecast := q.fulfillment == Forecast;
    q.(
      installmentCount := if isInstallment then q.installmentCount else None,
      installmentIndex := if isInstallment then q.installmentIndex else None,
      installmentValueIsTotal := Some(if isInstallment then q.installmentValueIsTotal.GetOr(false) else false),
      recurrence := if isForecast then q.recurrence else NoRecurrence,
      recurrenceInterval := if isForecast && q.recurrence == Custom then q.recurrenceInterval else None,
      recurrenceEndsAt := if isForecast && q.recurrence != NoRecurrence then q.recurrenceEndsAt else None,
      recurrenceSkipWeekdays :=
        if isForecast && q.recurrence == Daily then Some(q.recurrenceSkipWeekdays.GetOr([])) else None)
  }

  /** `onSubmit`'s payload, built from the values the form's resolver has parsed (so the name arrives
      trimmed), with the fields the chosen fulfilment does not use cleared. */
  function Payload(f: FormData, transactionId: Option<Id>): (r: UpsertRequest)
    ensures r.id == transactionId
    ensures r.fulfillment == f.fulfillment && r.date == f.date && r.name == Trim(f.name) && r.amount == f.amount
    ensures r.installmentIndex.Some? || r.installmentCount.Some? ==> f.fulfillment == Installment
    ensures f.fulfillment != Installment ==> r.installmentValueIsTotal == Some(false)
    ensures r.recurrence != NoRecurrence ==> f.fulfillment == Forecast
    ensures r.recurrenceInterval.Some? ==> r.recurrence == Custom
    ensures r.recurrenceEndsAt.Some? ==> r.recurrence != NoRecurrence
    ensures r.recurrenceSkipWeekdays.Some? <==> f.fulfillment == Forecast && f.recurrence == Daily
    ensures r.kind == f.kind && r.category == f.category && r.paymentMethod == f.paymentMethod
    ensures r.accountId == f.accountId && r.status == f.status
    ensures f.fulfillment == Installment ==>
      && r.installmentIndex == f.installmentIndex && r.installmentCount == f.installmentCount
      && r.installmentValueIsTotal == Some(f.installmentValueIsTotal.GetOr(false))
    ensures f.fulfillment == Forecast ==> r.recurrence == f.recurrence
    ensures f.fulfillment == Forecast && f.recurrence == Custom ==> r.recurrenceInterval == f.recurrenceInterval
    ensures f.fulfillment == Forecast && f.recurrence != NoRecurrence ==> r.recurrenceEndsAt == f.recurrenceEndsAt
    ensures f.fulfillment == Forecast && f.recurrence == Daily ==>
      r.recurrenceSkipWeekdays == Some(f.recurrenceSkipWeekdays.GetOr([]))
  {
    ClearUnused(AsRequest(f, transactionId)).(name := Trim(f.name))
  }

  /** A submitted form whose account is a UUID yields a payload the server accepts. */
  lemma SubmittedPayloadAccepted(f: FormData, id: Option<Id>)
    requires ClientAccepts(f) && IsUuid(f.accountId)
    ensures ServerAccepts(Payload(f, id))
  {
    ClientAcceptsIffServerAccepts(f, id);
    ServerAcceptsIffWellFormed(AsRequest(f, id));
    PayloadKeepsWellFormed(f, id);
    ServerAcceptsIffWellFormed(Payload(f, id));
  }

  /** Normalising the form's values into the payload keeps a well-formed request well-formed. */
  lemma PayloadKeepsWellFormed(f: FormData, id: Option<Id>)
    requires WellFormedRequest(AsRequest(f, id))
    ensures WellFormedRequest(Payload(f, id))
  {
    var q := AsRequest(f, id);
    ClearUnusedKeepsWellFormed(q);
    TrimIdempotent(f.name);
    RenamedKeepsWellFormed(ClearUnused(q), Trim(f.name));
  }

  /** Clearing the fields the chosen fulfilment does not use keeps a request well-formed. */
  lemma ClearUnusedKeepsWellFormed(q: UpsertRequest)
    requires WellFormedRequest(q)
    ensures WellFormedRequest(ClearUnused(q))
  {
    var p := ClearUnused(q);
    if p.fulfillment == Installment {
      assert p.installmentIndex == q.installmentIndex && p.installmentCount == q.installmentCount;
    }
    if p.fulfillment == Forecast && p.recurrence != NoRecurrence {
      assert p.recurrence == q.recurrence && p.recurrenceEndsAt == q.recurrenceEndsAt;
    }
  }

  /** Well-formedness reads the name only through its trimmed form. */
  lemma RenamedKeepsWellFormed(q: UpsertRequest, name: string)
    requires WellFormedRequest(q) && Trim(name) != ""
    ensures WellFormedRequest(q.(name := name))
  {
  }

  /** The form a payload would fill in again. */
  function FormOf(r: UpsertRequest): FormData {
    FormData(r.name, r.amount, r.kind, r.category, r.paymentMethod, r.date, r.accountId, r.status,
             r.fulfillment, r.installmentIndex, r.installmentCount, r.installmentValueIsTotal,
             r.recurrence, r.recurrenceInterval, r.recurrenceEndsAt, r.recurrenceSkipWeekdays)
  }

  /** Submitting a payload's values again yields the same payload: it is already normalised. */
  lemma PayloadNormalised(f: FormData, id: Option<Id>)
    ensures Payload(FormOf(Payload(f, id)), id) == Payload(f, id)
  {
    var cleared := ClearUnused(AsRequest(f, id));
    var name := Trim(f.name);
    var p := Payload(f, id);
    assert p == cleared.(name := name);
    assert AsRequest(FormOf(p), id) == p;
    TrimIdempotent(f.name);
    assert Trim(p.name) == name;
    ClearUnusedIgnoresName(cleared, name);
    ClearUnusedIdempotent(AsRequest(f, id));
  }

  /** Clearing unused fields does not touch the name. */
  lemma ClearUnusedIgnoresName(q: UpsertRequest, name: string)
    ensures ClearUnused(q.(name := name)) == ClearUnused(q).(name := name)
  {
  }

  /** Clearing unused fields twice clears nothing more. */
  lemma ClearUnusedIdempotent(q: UpsertRequest)
    ensures ClearUnused(ClearUnused(q)) == ClearUnused(q)
  {
  }

  // ----- Recurrence presets -----

  /** The choices of the recurrence picker: three DAILY variants, or a recurrence type as is. */
  datatype Preset = DailyAll | DailySkipWeekends | DailyCustom | Plain(recurrence: Recurrence)

  /** The preset shown for a recurrence and skip list: a DAILY recurrence is "every day" without a
      skip list, "weekdays only" when it skips exactly Sunday and Saturday (in either order) and
      "custom" otherwise; every other type is shown as itself. */
  function DerivePreset(recurrence: Recurrence, skip: seq<int>): (p: Preset)
    ensures recurrence != Daily ==> p == Plain(recurrence)
    ensures recurrence == Daily ==> !p.Plain?
    ensures p == DailyAll <==> recurrence == Daily && skip == []
    ensures p == DailySkipWeekends <==> recurrence == Daily && multiset(skip) == multiset{0, 6}
  {
    if recurrence == Daily then
      if |skip| == 0 then DailyAll
      else if multiset(skip) == multiset{0, 6} then DailySkipWeekends
      else DailyCustom
    else Plain(recurrence)
  }

  /** The weekdays 0..6 other than `base`, in ascending order. */
  function OtherWeekdays(base: int): (r: seq<int>)
    requires 0 <= base <= 6
    ensures |r| == 6
    ensures forall d :: 0 <= d <= 6 ==> (d in r <==> d != base)
    ensures forall i, j :: 0 <= i < j < |r| ==> r[i] < r[j]
  {
    var r := seq(6, i requires 0 <= i < 6 => if i < base then i else i + 1);
    assert forall i :: 0 <= i < 6 ==> r[i] != base;
    forall d | 0 <= d <= 6 && d != base ensures d in r {
      assert r[Slot(d, base)] == d;
    }
    r
  }

  /** Where weekday `d` sits among the others than `base`. */
  function Slot(d: int, base: int): int {
    if d < base then d else d - 1
  }

  /** `handleRecurrencePresetChange`: the recurrence and skip list a choice sets. "Custom" keeps a
      non-empty skip list and otherwise skips every weekday but the transaction date's (today's when
      the date is not set). */
  function ApplyPreset(preset: Preset, skip: seq<int>, date: Option<Day>, today: Day): (r: (Recurrence, seq<int>))
    ensures preset.Plain? ==> r == (preset.recurrence, [])
    ensures !preset.Plain? ==> r.0 == Daily
    ensures preset == DailyCustom && skip != [] ==> r.1 == skip
    ensures preset == DailyCustom && skip == [] ==>
      var base := Weekday(date.GetOr(today));
      |r.1| == 6 && (forall d :: 0 <= d <= 6 ==> (d in r.1 <==> d != base))
  {
    match preset
    case DailyAll => (Daily, [])
    case DailySkipWeekends => (Daily, [0, 6])
    case DailyCustom =>
      if |skip| > 0 then (Daily, skip) else (Daily, OtherWeekdays(Weekday(date.GetOr(today))))
    case Plain(recurrence) => (recurrence, [])
  }

  /** Choosing a preset and deriving the shown preset again gives back the choice: always for
      "every day", "weekdays only" and the non-daily types, and for "custom" unless the kept skip list
      is exactly the weekend. */
  lemma PresetRoundTrip(preset: Preset, skip: seq<int>, date: Option<Day>, today: Day)
    requires preset != Plain(Daily)
    requires preset == DailyCustom ==> multiset(skip) != multiset{0, 6}
    ensures var (recurrence, next) := ApplyPreset(preset, skip, date, today);
      DerivePreset(recurrence, next) == preset
  {
    if preset == DailyCustom && skip == [] {
      var next := ApplyPreset(preset, skip, date, today).1;
      assert |multiset(next)| == 6;
    }
  }

  /** Re-applying the shown preset keeps the recurrence, and the skip list as a collection, except
      that a non-daily recurrence drops its stale skip list. */
  lemma DerivedPresetRestores(recurrence: Recurrence, skip: seq<int>, date: Option<Day>, today: Day)
    ensures var (r, next) := ApplyPreset(DerivePreset(recurrence, skip), skip, date, today);
      && r == recurrence
      && (recurrence == Daily ==> multiset(next) == multiset(skip))
      && (recurrence != Daily ==> next == [])
  {
  }

  // ----- Weekday picker -----

  /** A usable skip list: weekday numbers, each at most once, not all seven of them. */
  ghost predicate ValidSkipList(s: seq<int>) {
    && AllWeekdays(s)
    && (forall x :: multiset(s)[x] <= 1)
    && |s| < WeekdayCount
  }

  /** The sort key of `sort((a, b) => a - b)`: a weekday's own number. */
  function WeekdayNumber(d: int): int {
    d
  }

  /** Selects the entries other than `day`, as `filter((d) => d !== day)` does. */
  function NotDay(day: int): int -> bool {
    (d: int) => d != day
  }

  /** Clicking weekday `day` in the custom picker: a selected day (one not skipped) becomes skipped,
      a skipped one is selected again. A click that would skip all seven days is ignored (None);
      otherwise the new list is committed in ascending order. */
  function ToggleWeekday(skipped: seq<int>, day: int): (r: Option<seq<int>>)
    ensures r.Some? ==> |r.value| != WeekdayCount
    ensures r.Some? ==> SortedBy(r.value, WeekdayNumber)
    ensures r.Some? && day !in skipped ==> multiset(r.value) == multiset(skipped) + multiset{day}
    ensures r.Some? && day in skipped ==> multiset(r.value) == multiset(Filter(skipped, NotDay(day)))
    ensures day !in skipped && |skipped| + 1 == WeekdayCount ==> r.None?
    ensures r.None? && |skipped| <= WeekdayCount ==> day !in skipped && |skipped| + 1 == WeekdayCount
  {
    var next := if day !in skipped then skipped + [day] else Filter(skipped, NotDay(day));
    assert day in skipped ==> |next| < |skipped| by {
      if day in skipped {
        FilterDropsMember(skipped, day);
      }
    }
    if |next| == WeekdayCount then None else Some(SortBy(next, WeekdayNumber))
  }

  /** Dropping every copy of a member makes a list strictly shorter. */
  lemma FilterDropsMember(s: seq<int>, day: int)
    requires day in s
    ensures |Filter(s, NotDay(day))| < |s|
  {
    var p := NotDay(day);
    var i :| 0 <= i < |s| && s[i] == day;
    assert s == s[..i] + [s[i]] + s[i + 1..];
    FilterConcat(s[..i] + [s[i]], s[i + 1..], p);
    FilterConcat(s[..i], [s[i]], p);
    assert Filter([s[i]], p) == [];
  }

  /** Dropping the copies of `day` removes its occurrences and keeps every other value's count. */
  lemma {:induction false} FilterMultiplicity(s: seq<int>, day: int, x: int)
    ensures multiset(Filter(s, NotDay(day)))[x] == if x == day then 0 else multiset(s)[x]
  {
    var p := NotDay(day);
    if |s| > 0 {
      FilterMultiplicity(s[1..], day, x);
      assert s == [s[0]] + s[1..];
      assert multiset(s) == multiset{s[0]} + multiset(s[1..]);
      if p(s[0]) {
        assert Filter(s, p) == [s[0]] + Filter(s[1..], p);
        assert multiset(Filter(s, p)) == multiset{s[0]} + multiset(Filter(s[1..], p));
      } else {
        assert s[0] == day;
        assert Filter(s, p) == Filter(s[1..], p);
      }
    }
  }

  /** Every entry of a sequence is counted by its multiset, so the entries' range follows from the counts. */
  lemma WeekdaysByCount(s: seq<int>)
    requires forall x :: multiset(s)[x] > 0 ==> 0 <= x <= 6
    ensures AllWeekdays(s)
  {
    forall i | 0 <= i < |s| ensures 0 <= s[i] <= 6 {
      assert s[i] in multiset(s);
    }
  }

  /** The picker keeps the skip list usable: starting from distinct weekdays, every committed list
      is distinct weekdays with at least one day left, so the form's "no day left" rule never fires. */
  lemma ToggleKeepsSkipListValid(skipped: seq<int>, day: int)
    requires ValidSkipList(skipped) && 0 <= day <= 6
    requires ToggleWeekday(skipped, day).Some?
    ensures ValidSkipList(ToggleWeekday(skipped, day).value)
  {
    var r := ToggleWeekday(skipped, day).value;
    if day in skipped {
      forall x ensures multiset(r)[x] == if x == day then 0 else multiset(skipped)[x] {
        FilterMultiplicity(skipped, day, x);
      }
      FilterDropsMember(skipped, day);
    } else {
      assert multiset(skipped)[day] == 0;
      assert forall x :: multiset(r)[x] == multiset(skipped)[x] + (if x == day then 1 else 0);
    }
    forall x | multiset(r)[x] > 0 ensures 0 <= x <= 6 {
      if x != day {
        assert x in multiset(skipped);
        var i :| 0 <= i < |skipped| && skipped[i] == x;
      }
    }
    WeekdaysByCount(r);
  }

  /** Clicking a skipped weekday twice restores the skip list, up to order. */
  lemma ToggleTwiceRestoresSkipped(skipped: seq<int>, day: int)
    requires ValidSkipList(skipped) && 0 <= day <= 6 && day in skipped
    ensures ToggleWeekday(skipped, day).Some?
    ensures var once := ToggleWeekday(skipped, day).value;
      ToggleWeekday(once, day).Some? && multiset(ToggleWeekday(once, day).value) == multiset(skipped)
  {
    FilterDropsMember(skipped, day);
    var once := ToggleWeekday(skipped, day).value;
    forall x ensures multiset(once)[x] == if x == day then 0 else multiset(skipped)[x] {
      FilterMultiplicity(skipped, day, x);
    }
    assert day !in once by {
      assert multiset(once)[day] == 0;
    }
    var twice := ToggleWeekday(once, day).value;
    assert multiset(twice) == multiset(once) + multiset{day};
  }

  /** Clicking a selected weekday twice restores the skip list, up to order. */
  lemma ToggleTwiceRestoresSelected(skipped: seq<int>, day: int)
    requires ValidSkipList(skipped) && 0 <= day <= 6 && day !in skipped
    requires ToggleWeekday(skipped, day).Some?
    ensures var once := ToggleWeekday(skipped, day).value;
      ToggleWeekday(once, day).Some? && multiset(ToggleWeekday(once, day).value) == multiset(skipped)
  {
    var once := ToggleWeekday(skipped, day).value;
    ToggleKeepsSkipListValid(skipped, day);
    assert day in multiset(once);
    FilterDropsMember(once, day);
    var twice := ToggleWeekday(once, day).value;
    forall x ensures multiset(twice)[x] == multiset(skipped)[x] {
      FilterMultiplicity(once, day, x);
    }
  }

  /** Clicking the same weekday twice restores the skip list, up to order. */
  lemma ToggleTwiceRestores(skipped: seq<int>, day: int)
    requires ValidSkipList(skipped) && 0 <= day <= 6
    requires ToggleWeekday(skipped, day).Some?
    ensures var once := ToggleWeekday(skipped, day).value;
      ToggleWeekday(once, day).Some? && multiset(ToggleWeekday(once, day).value) == multiset(skipped)
  {
    if day in skipped {
      ToggleTwiceRestoresSkipped(skipped, day);
    } else {
      ToggleTwiceRestoresSelected(skipped, day);
    }
  }
}

=== FILE: transaction_limit.dfy ===
/** `getCurrentMonthTransactions` and `canUserAddTransaction`: the monthly transaction allowance. */
module TransactionLimit {
  import opened Wrappers
  import opened Dates
  import opened Ledger
  import opened Seqs
  import opened DashboardContext
  import opened SubscriptionPlans

  function CreatedInBy(user: UserId, period: Period): Transaction -> bool {
    (t: Transaction) => t.userId == user && period.Contains(t.createdAt)
  }

  /** `getCurrentMonthTransactions()`: how many of the caller's rows were created in the clock's month
      (by creation date, not by transaction date; generated rows count too). */
  function GetCurrentMonthTransactions(db: Db, auth: Option<UserId>, cal: Calendar, clock: Clock)
    : (r: Result<nat, Failure>)
    ensures r.Err? <==> auth.None?
    ensures r.Err? ==> r.error == Unauthorized
    ensures r.Ok? ==>
      var period := MonthPeriod(cal, DateYear(clock.year), clock.month);
      r.value == |Filter(db.transactions, CreatedInBy(auth.value, period))|
  {
    match GetDashboardContext(auth, None, None, cal, clock)
    case Err(e) => Err(e)
    case Ok(context) =>
      DefaultContextIsCurrentMonth(context.userId, cal, clock);
      Ok(|Filter(db.transactions, CreatedInBy(context.userId, context.currentPeriod))|)
  }

  /** `canUserAddTransaction()`: a plan without a limit (absent or 0) always allows; otherwise the
      month's count must be below the limit. `planId` is the plan stored in the user's metadata. */
  function CanUserAddTransaction(db: Db, auth: Option<UserId>, planId: Option<string>, cal: Calendar, clock: Clock)
    : (r: Result<bool, Failure>)
    ensures r.Err? <==> auth.None?
    ensures r.Err? ==> r.error == Unauthorized
    ensures r.Ok? ==>
      var limit := GetActiveSubscriptionPlan(planId).capabilities.transactionsLimit;
      (r.value <==> limit.None? || limit.value == 0
                    || GetCurrentMonthTransactions(db, auth, cal, clock).value < limit.value)
  {
    if auth.None? then Err(Unauthorized)
    else
      var plan := GetActiveSubscriptionPlan(planId);
      match plan.capabilities.transactionsLimit
      case None => Ok(true)
      case Some(limit) =>
        if limit == 0 then Ok(true)
        else Ok(GetCurrentMonthTransactions(db, auth, cal, clock).value < limit)
  }

  /** Subscribers to a paid plan may always add transactions. */
  lemma PaidPlanAlwaysAllowed(db: Db, user: UserId, planId: string, cal: Calendar, clock: Clock)
    requires planId in PaidPlanIds
    ensures CanUserAddTransaction(db, Some(user), Some(planId), cal, clock) == Ok(true)
  {
    PaidPlansUnlimited(GetActiveSubscriptionPlan(Some(planId)));
  }

  /** Everyone else may add a transaction while fewer than ten were created this month. */
  lemma FreePlanAllowsTen(db: Db, user: UserId, planId: Option<string>, cal: Calendar, clock: Clock)
    requires !IsPaidPlanId(planId)
    ensures var count := |Filter(db.transactions, CreatedInBy(user, MonthPeriod(cal, DateYear(clock.year), clock.month)))|;
            CanUserAddTransaction(db, Some(user), planId, cal, clock) == Ok(count < 10)
  {
  }
}

=== FILE: transaction_schema.dfy ===
/** The server-side input schema of `upsertTransaction`: per-field constraints followed by the
    cross-field rules of its `superRefine`. */
module TransactionSchema {
  import opened Wrappers
  import opened Text
  import opened Dates
  import opened Ledger

  /** The arguments of `upsertTransaction`; absent and `null` optional fields are both `None`. */
  datatype UpsertRequest = UpsertRequest(
    id: Option<Id>,
    name: string,
    amount: real,
    kind: TransactionType,
    category: Category,
    paymentMethod: PaymentMethod,
    date: Day,
    accountId: Id,
    status: Status,
    fulfillment: Fulfillment,
    installmentIndex: Option<int>,
    installmentCount: Option<int>,
    installmentValueIsTotal: Option<bool>,
    recurrence: Recurrence,
    recurrenceInterval: Option<int>,
    recurrenceEndsAt: Option<Day>,
    recurrenceSkipWeekdays: Option<seq<int>>)

  /** One reason for rejecting the input. */
  datatype Issue =
    | NameRequired | AmountNotPositive | AccountIdNotUuid
    | IndexBelowOne | CountBelowOne | IntervalBelowOne | WeekdayOutOfRange
    | InstallmentsMissing | EndsNotAfterStart | IntervalMissing | NoWeekdayLeft

  /** The canonical textual form of a UUID: 8-4-4-4-12 hexadecimal digits separated by hyphens. */
  predicate IsUuid(s: string) {
    |s| == 36 && forall i :: 0 <= i < 36 ==> if i in {8, 13, 18, 23} then s[i] == '-' else IsHexDigit(s[i])
  }

  /** Every entry is a weekday number, 0 (Sunday) to 6 (Saturday). */
  predicate AllWeekdays(days: seq<int>) {
    forall i :: 0 <= i < |days| ==> 0 <= days[i] <= 6
  }

  /** `[issue]` when `ok` fails. */
  function Check(ok: bool, issue: Issue): (r: seq<Issue>)
    ensures r == [] <==> ok
  {
    if ok then [] else [issue]
  }

  /** The per-field constraints, in field order. */
  function FieldIssues(req: UpsertRequest): (r: seq<Issue>)
    ensures r == [] <==>
      && Trim(req.name) != ""
      && req.amount > 0.0
      && IsUuid(req.accountId)
      && (req.installmentIndex.Some? ==> req.installmentIndex.value >= 1)
      && (req.installmentCount.Some? ==> req.installmentCount.value >= 1)
      && (req.recurrenceInterval.Some? ==> req.recurrenceInterval.value >= 1)
      && (req.recurrenceSkipWeekdays.Some? ==> AllWeekdays(req.recurrenceSkipWeekdays.value))
  {
    Check(Trim(req.name) != "", NameRequired)
    + Check(req.amount > 0.0, AmountNotPositive)
    + Check(IsUuid(req.accountId), AccountIdNotUuid)
    + Check(req.installmentIndex.None? || req.installmentIndex.value >= 1, IndexBelowOne)
    + Check(req.installmentCount.None? || req.installmentCount.value >= 1, CountBelowOne)
    + Check(req.recurrenceInterval.None? || req.recurrenceInterval.value >= 1, IntervalBelowOne)
    + Check(req.recurrenceSkipWeekdays.None? || AllWeekdays(req.recurrenceSkipWeekdays.value), WeekdayOutOfRange)
  }

  /** The cross-field rules. The installment rule applies to every request; the recurrence rules
      only to a FORECAST whose recurrence is not NONE. `!interval` is also true of 0. */
  function CrossFieldIssues(req: UpsertRequest): (r: seq<Issue>)
    ensures InstallmentsMissing in r <==>
      req.fulfillment == Installment
      && (req.installmentCount.None? || req.installmentIndex.None?
          || req.installmentIndex.value > req.installmentCount.value)
    ensures req.fulfillment != Forecast || req.recurrence == NoRecurrence ==>
      forall i :: 0 <= i < |r| ==> r[i] == InstallmentsMissing
    ensures EndsNotAfterStart in r <==>
      req.fulfillment == Forecast && req.recurrence != NoRecurrence
      && req.recurrenceEndsAt.Some? && req.recurrenceEndsAt.value <= req.date
    ensures IntervalMissing in r <==>
      req.fulfillment == Forecast && req.recurrence == Custom
      && (req.recurrenceInterval.None? || req.recurrenceInterval.value == 0)
    ensures NoWeekdayLeft in r <==>
      req.fulfillment == Forecast && req.recurrence == Daily
      && req.recurrenceSkipWeekdays.Some? && |req.recurrenceSkipWeekdays.value| == 7
  {
    var installment :=
      if req.fulfillment == Installment
         && (req.installmentCount.None? || req.installmentIndex.None?
             || req.installmentIndex.value > req.installmentCount.value)
      then [InstallmentsMissing] else [];
    if req.fulfillment != Forecast || req.recurrence == NoRecurrence then installment
    else
      installment
      + (if req.recurrenceEndsAt.Some? && req.recurrenceEndsAt.value <= req.date
         then [EndsNotAfterStart] else [])
      + (if req.recurrence == Custom && (req.recurrenceInterval.None? || req.recurrenceInterval.value == 0)
         then [IntervalMissing] else [])
      + (if req.recurrence == Daily && req.recurrenceSkipWeekdays.Some? && |req.recurrenceSkipWeekdays.value| == 7
         then [NoWeekdayLeft] else [])
  }

  /** `upsertTransactionSchema.parse` succeeds. An accepted request names something, has a positive
      amount and a UUID account, carries both installment numbers (index <= count) when it is an
      INSTALLMENT, and ends after it starts when it is a repeating FORECAST with an end date. */
  predicate ServerAccepts(req: UpsertRequest): (r: bool)
    ensures r ==> Trim(req.name) != "" && req.amount > 0.0 && IsUuid(req.accountId)
    ensures r && req.fulfillment == Installment ==>
      && req.installmentIndex.Some? && req.installmentCount.Some?
      && req.installmentIndex.value <= req.installmentCount.value
    ensures r && req.fulfillment == Forecast && req.recurrence != NoRecurrence && req.recurrenceEndsAt.Some? ==>
      req.recurrenceEndsAt.value > req.date
  {
    FieldIssues(req) + CrossFieldIssues(req) == []
  }

  /** What an accepted request looks like, stated independently of the rule order: the field
      constraints, both installment numbers for an INSTALLMENT with index <= count, and for a
      repeating FORECAST an end after the start, an interval for CUSTOM and a DAILY skip list that
      does not have seven entries. */
  ghost predicate WellFormedRequest(req: UpsertRequest) {
    && Trim(req.name) != ""
    && req.amount > 0.0
    && IsUuid(req.accountId)
    && (req.installmentIndex.Some? ==> req.installmentIndex.value >= 1)
    && (req.installmentCount.Some? ==> req.installmentCount.value >= 1)
    && (req.recurrenceInterval.Some? ==> req.recurrenceInterval.value >= 1)
    && (req.recurrenceSkipWeekdays.Some? ==> AllWeekdays(req.recurrenceSkipWeekdays.value))
    && (req.fulfillment == Installment ==>
          req.installmentIndex.Some? && req.installmentCount.Some?
          && req.installmentIndex.value <= req.installmentCount.value)
    && (req.fulfillment == Forecast && req.recurrence != NoRecurrence ==>
          && (req.recurrenceEndsAt.Some? ==> req.recurrenceEndsAt.value > req.date)
          && (req.recurrence == Custom ==> req.recurrenceInterval.Some?)
          && (req.recurrence == Daily && req.recurrenceSkipWeekdays.Some? ==>
                |req.recurrenceSkipWeekdays.value| != 7))
  }

  /** The schema accepts exactly the well-formed requests. */
  lemma ServerAcceptsIffWellFormed(req: UpsertRequest)
    ensures ServerAccepts(req) <==> WellFormedRequest(req)
  {
    var f := FieldIssues(req);
    var c := CrossFieldIssues(req);
    assert f + c == [] <==> f == [] && c == [];
    if c != [] {
      assert c[0] in c;
    }
  }

  /** An accepted INSTALLMENT request numbers its installments 1 <= index <= count. */
  lemma AcceptedInstallmentNumbers(req: UpsertRequest)
    requires ServerAccepts(req) && req.fulfillment == Installment
    ensures req.installmentIndex.Some? && req.installmentCount.Some?
    ensures 1 <= req.installmentIndex.value <= req.installmentCount.value
  {
    ServerAcceptsIffWellFormed(req);
  }
}

=== FILE: transaction_status.dfy ===
/** `updateTransactionStatus`: marking a transaction as executed or pending. */
module TransactionStatus {
  import opened Wrappers
  import opened Dates
  import opened Ledger
  import opened Seqs

  datatype StatusRequest = StatusRequest(id: Id, status: Status, useCurrentDate: Option<bool>)

  /** The first row with the id that belongs to the user. */
  function FindOwned(rows: seq<Transaction>, id: Id, user: UserId): (r: Option<nat>)
    ensures r.Some? ==> r.value < |rows| && rows[r.value].id == id && rows[r.value].userId == user
    ensures r.Some? ==> forall j :: 0 <= j < r.value ==> !(rows[j].id == id && rows[j].userId == user)
    ensures r.None? <==> forall j :: 0 <= j < |rows| ==> !(rows[j].id == id && rows[j].userId == user)
  {
    FirstIndex(rows, (t: Transaction) => t.id == id && t.userId == user)
  }

  /** The execution date recorded for a new status: none while pending; otherwise today when asked
      for, else the transaction's own date. */
  function ExecutionDate(status: Status, useCurrentDate: Option<bool>, date: Day, now: Day): (r: Option<Day>)
    ensures r.Some? <==> status == Executed
    ensures r.Some? ==> r.value == (if useCurrentDate == Some(true) then now else date)
  {
    if status == Executed then Some(if useCurrentDate.GetOr(false) then now else date) else None
  }

  /** The request is validated first (a non-empty id), then the caller authenticated, then the row
      looked up among the caller's own; only its status and execution date change. */
  function UpdateStatus(db: Db, auth: Option<UserId>, req: StatusRequest, now: Day): (r: Result<Db, Failure>)
    ensures r == Err(Invalid) <==> req.id == ""
    ensures r == Err(Unauthorized) <==> req.id != "" && auth.None?
    ensures r == Err(NotFound) <==>
      req.id != "" && auth.Some? && FindOwned(db.transactions, req.id, auth.value).None?
    ensures r.Ok? ==>
      var i := FindOwned(db.transactions, req.id, auth.value).value;
      var before := db.transactions[i];
      && r.value.accounts == db.accounts
      && |r.value.transactions| == |db.transactions|
      && r.value.transactions[i] == before.(status := req.status,
                                            executedAt := ExecutionDate(req.status, req.useCurrentDate, before.date, now))
      && r.value.transactions[i].ExecutionConsistent()
      && forall j :: 0 <= j < |db.transactions| && j != i ==> r.value.transactions[j] == db.transactions[j]
  {
    if req.id == "" then Err(Invalid)
    else if auth.None? then Err(Unauthorized)
    else match FindOwned(db.transactions, req.id, auth.value)
      case None => Err(NotFound)
      case Some(i) =>
        var row := db.transactions[i];
        var updated := row.(status := req.status,
                            executedAt := ExecutionDate(req.status, req.useCurrentDate, row.date, now));
        Ok(db.(transactions := db.transactions[i := updated]))
  }

  /** Setting the same status again at the same moment leaves the rows as the first call left them. */
  lemma UpdateStatusRepeatable(db: Db, auth: Option<UserId>, req: StatusRequest, now: Day)
    requires UpdateStatus(db, auth, req, now).Ok?
    ensures var once := UpdateStatus(db, auth, req, now).value;
            UpdateStatus(once, auth, req, now) == Ok(once)
  {
    var once := UpdateStatus(db, auth, req, now).value;
    var i := FindOwned(db.transactions, req.id, auth.value).value;
    assert FindOwned(once.transactions, req.id, auth.value) == Some(i) by {
      assert forall j :: 0 <= j < i ==> once.transactions[j] == db.transactions[j];
    }
    assert once.transactions[i := once.transactions[i]] == once.transactions;
  }

  /** Marking pending and then executed from the row's date restores an executed row exactly. */
  lemma PendingThenExecutedRestores(db: Db, user: UserId, id: Id, now: Day)
    requires id != ""
    requires FindOwned(db.transactions, id, user).Some?
    requires var t := db.transactions[FindOwned(db.transactions, id, user).value];
             t.status == Executed && t.executedAt == Some(t.date)
    ensures var pending := UpdateStatus(db, Some(user), StatusRequest(id, Pending, None), now).value;
            UpdateStatus(pending, Some(user), StatusRequest(id, Executed, Some(false)), now) == Ok(db)
  {
    var i := FindOwned(db.transactions, id, user).value;
    var pending := UpdateStatus(db, Some(user), StatusRequest(id, Pending, None), now).value;
    assert FindOwned(pending.transactions, id, user) == Some(i) by {
      assert forall j :: 0 <= j < i ==> pending.transactions[j] == db.transactions[j];
    }
    var back := UpdateStatus(pending, Some(user), StatusRequest(id, Executed, Some(false)), now).value;
    assert back.transactions == db.transactions;
  }
}

=== FILE: transactions_page.dfy ===
/** The transactions page: the caller's transactions, newest first, and each account's balance over
    the executed transactions. */
module TransactionsPage {
  import opened Wrappers
  import opened Dates
  import opened Ledger
  import opened Seqs
  import opened Sorting
  import opened AccountData

  /** A transaction's effect on its account: deposits add, every other type subtracts. */
  function Signed(t: Transaction): real {
    if t.kind == Deposit then t.amount else -t.amount
  }

  /** What a transaction adds to the balance of account `id` (the reference definition). */
  function Contribution(t: Transaction, id: Id): real {
    if t.status == Executed && t.accountId == Some(id) then Signed(t) else 0.0
  }

  /** The balance of account `id`: the signed sum of its executed transactions. */
  function BalanceOf(rows: seq<Transaction>, id: Id): real {
    if |rows| == 0 then 0.0 else Contribution(rows[0], id) + BalanceOf(rows[1..], id)
  }

  function Lookup(totals: map<Id, real>, id: Id): real {
    if id in totals then totals[id] else 0.0
  }

  function IsExecuted(): Transaction -> bool {
    (t: Transaction) => t.status == Executed
  }

  /** One step of the page's `reduce`: a row without an account (absent or the empty string) is
      skipped; otherwise its signed amount is added to its account's running total. */
  function Step(totals: map<Id, real>, t: Transaction): (r: map<Id, real>)
    ensures forall id :: id != "" ==>
      Lookup(r, id) == Lookup(totals, id) + (if t.accountId == Some(id) then Signed(t) else 0.0)
    ensures forall id :: id in r <==> id in totals || (id != "" && t.accountId == Some(id))
  {
    if t.accountId.None? || t.accountId.value == "" then totals
    else totals[t.accountId.value := Lookup(totals, t.accountId.value) + Signed(t)]
  }

  /** The fold keeps every entry it starts with and adds one for each non-empty account id a row
      names, and for no other id. */
  function Fold(rows: seq<Transaction>, totals: map<Id, real>): (r: map<Id, real>)
    ensures forall id :: id in r <==>
      id in totals || (id != "" && exists k :: 0 <= k < |rows| && rows[k].accountId == Some(id))
  {
    if |rows| == 0 then totals
    else
      assert forall k :: 1 <= k < |rows| ==> rows[k] == rows[1..][k - 1];
      Fold(rows[1..], Step(totals, rows[0]))
  }

  /** `executedBalances`: the executed rows folded into per-account totals. Every entry belongs to
      a non-empty account id that an executed row names. */
  function ExecutedBalances(rows: seq<Transaction>): (r: map<Id, real>)
    ensures forall id :: id in r ==>
      id != "" && exists k :: 0 <= k < |rows| && rows[k].status == Executed && rows[k].accountId == Some(id)
  {
    var executed := Filter(rows, IsExecuted());
    assert forall k :: 0 <= k < |executed| ==> executed[k] in rows && executed[k].status == Executed;
    Fold(executed, map[])
  }

  /** Folding adds each row's signed amount to its own account's total and to no other. */
  lemma {:induction false} FoldAdds(rows: seq<Transaction>, totals: map<Id, real>, id: Id)
    requires id != ""
    requires forall k :: 0 <= k < |rows| ==> rows[k].status == Executed
    ensures Lookup(Fold(rows, totals), id) == Lookup(totals, id) + BalanceOf(rows, id)
    ensures id in Fold(rows, totals) <==>
      id in totals || exists k :: 0 <= k < |rows| && rows[k].accountId == Some(id)
  {
    if |rows| > 0 {
      FoldAdds(rows[1..], Step(totals, rows[0]), id);
      if exists k :: 0 <= k < |rows| && rows[k].accountId == Some(id) {
        var k :| 0 <= k < |rows| && rows[k].accountId == Some(id);
        if k > 0 {
          assert rows[1..][k - 1].accountId == Some(id);
        }
      }
      if exists k :: 0 <= k < |rows[1..]| && rows[1..][k].accountId == Some(id) {
        var k :| 0 <= k < |rows[1..]| && rows[1..][k].accountId == Some(id);
        assert rows[k + 1].accountId == Some(id);
      }
    }
  }

  /** Selecting the executed rows first does not change any balance. */
  lemma {:induction false} ExecutedSelectionKeepsBalance(rows: seq<Transaction>, id: Id)
    ensures BalanceOf(Filter(rows, IsExecuted()), id) == BalanceOf(rows, id)
  {
    if |rows| > 0 {
      ExecutedSelectionKeepsBalance(rows[1..], id);
      var rest := Filter(rows[1..], IsExecuted());
      if rows[0].status == Executed {
        assert Filter(rows, IsExecuted()) == [rows[0]] + rest;
        assert ([rows[0]] + rest)[1..] == rest;
      } else {
        assert Filter(rows, IsExecuted()) == rest;
      }
    }
  }

  /** The page's totals are the reference balances: an account with a non-empty id gets the signed
      sum of its executed transactions, and has an entry exactly when one of them exists. */
  lemma ExecutedBalancesCorrect(rows: seq<Transaction>, id: Id)
    requires id != ""
    ensures Lookup(ExecutedBalances(rows), id) == BalanceOf(rows, id)
    ensures id in ExecutedBalances(rows) <==>
      exists k :: 0 <= k < |rows| && rows[k].status == Executed && rows[k].accountId == Some(id)
  {
    var executed := Filter(rows, IsExecuted());
    FoldAdds(executed, map[], id);
    ExecutedSelectionKeepsBalance(rows, id);
    if exists k :: 0 <= k < |rows| && rows[k].status == Executed && rows[k].accountId == Some(id) {
      var k :| 0 <= k < |rows| && rows[k].status == Executed && rows[k].accountId == Some(id);
      assert rows[k] in executed;
    }
    if exists k :: 0 <= k < |executed| && executed[k].accountId == Some(id) {
      var k :| 0 <= k < |executed| && executed[k].accountId == Some(id);
      assert executed[k] in rows;
    }
  }

  lemma {:induction false} BalanceOfConcat(a: seq<Transaction>, b: seq<Transaction>, id: Id)
    ensures BalanceOf(a + b, id) == BalanceOf(a, id) + BalanceOf(b, id)
  {
    if |a| > 0 {
      BalanceOfConcat(a[1..], b, id);
      assert (a + b)[1..] == a[1..] + b;
    } else {
      assert a + b == b;
    }
  }

  /** A balance does not depend on the order the rows were read in. */
  lemma {:induction false} BalanceOfPermutation(a: seq<Transaction>, b: seq<Transaction>, id: Id)
    requires multiset(a) == multiset(b)
    ensures BalanceOf(a, id) == BalanceOf(b, id)
    decreases |a|
  {
    if |a| > 0 {
      assert a[0] in multiset(b);
      var j :| 0 <= j < |b| && b[j] == a[0];
      var rest := b[..j] + b[j + 1..];
      RemoveOneMultiset(b, j);
      assert a == [a[0]] + a[1..];
      assert multiset(a[1..]) == multiset(a) - multiset{a[0]};
      BalanceOfPermutation(a[1..], rest, id);
      BalanceRemoveOne(b, j, id);
    } else {
      assert |b| == |multiset(b)| == 0;
    }
  }

  lemma RemoveOneMultiset(b: seq<Transaction>, j: nat)
    requires j < |b|
    ensures multiset(b[..j] + b[j + 1..]) == multiset(b) - multiset{b[j]}
  {
    assert b == b[..j] + [b[j]] + b[j + 1..];
    calc {
      multiset(b);
      multiset(b[..j] + [b[j]] + b[j + 1..]);
      multiset(b[..j]) + multiset{b[j]} + multiset(b[j + 1..]);
    }
  }

  lemma BalanceRemoveOne(b: seq<Transaction>, j: nat, id: Id)
    requires j < |b|
    ensures BalanceOf(b, id) == Contribution(b[j], id) + BalanceOf(b[..j] + b[j + 1..], id)
  {
    assert b == b[..j] + [b[j]] + b[j + 1..];
    BalanceOfConcat(b[..j] + [b[j]], b[j + 1..], id);
    BalanceOfConcat(b[..j], [b[j]], id);
    BalanceOfConcat(b[..j], b[j + 1..], id);
    assert [b[j]][1..] == [];
  }

  /** A pending row, or a row on another account or on none, leaves the balance of `id` as it was. */
  lemma IgnoredRowsKeepBalances(rows: seq<Transaction>, t: Transaction, id: Id)
    requires t.status == Pending || t.accountId != Some(id)
    ensures BalanceOf([t] + rows, id) == BalanceOf(rows, id)
  {
    assert ([t] + rows)[1..] == rows;
  }

  datatype ManageableAccount = ManageableAccount(account: Account, balance: real)

  datatype PageData = PageData(
    transactions: seq<Transaction>,
    accounts: seq<ManageableAccount>,
    userCanAddTransaction: bool)

  function OwnedTransaction(user: UserId): Transaction -> bool {
    (t: Transaction) => t.userId == user
  }

  function NewestFirst(t: Transaction): int {
    -t.date
  }

  /** Pairs each account with its total, or 0 when it has none. */
  function WithBalances(accounts: seq<Account>, totals: map<Id, real>): (r: seq<ManageableAccount>)
    ensures |r| == |accounts|
    ensures forall i :: 0 <= i < |r| ==>
      r[i].account == accounts[i] && r[i].balance == Lookup(totals, accounts[i].id)
  {
    seq(|accounts|, i requires 0 <= i < |accounts| => ManageableAccount(accounts[i], Lookup(totals, accounts[i].id)))
  }

  /** The caller's transactions, newest first. */
  function UserTransactions(db: Db, user: UserId): (r: seq<Transaction>)
    ensures SortedBy(r, NewestFirst)
    ensures multiset(r) == multiset(Filter(db.transactions, OwnedTransaction(user)))
  {
    SortBy(Filter(db.transactions, OwnedTransaction(user)), NewestFirst)
  }

  /** The page for a signed-in user (None is the redirect to the login page), together with the
      database as loading the accounts leaves it. The transactions are read before the accounts are
      loaded, so the list and the balances are over the rows as they were before transactions
      without an account were moved onto the first account. `canAdd` is the answer of
      `canUserAddTransaction`. */
  function TransactionsPageData(db: Db, auth: Option<UserId>, canAdd: bool, now: Day, mint: nat -> Id)
    : (r: Option<(Db, PageData)>)
    ensures r.None? <==> auth.None?
    ensures r.Some? ==> r.value.0 == GetAccountsForUserId(db, auth.value, now, mint).0
    ensures r.Some? ==> r.value.1.transactions == UserTransactions(db, auth.value)
    ensures r.Some? ==> r.value.1.userCanAddTransaction == canAdd
    ensures r.Some? ==>
      r.value.1.accounts == WithBalances(GetAccountsForUserId(db, auth.value, now, mint).1,
                                         ExecutedBalances(r.value.1.transactions))
  {
    match auth
    case None => None
    case Some(user) =>
      var rows := UserTransactions(db, user);
      var loaded := GetAccountsForUserId(db, user, now, mint);
      Some((loaded.0, PageData(rows, WithBalances(loaded.1, ExecutedBalances(rows)), canAdd)))
  }

  /** Each listed account's balance is the signed sum of the caller's executed transactions
      on it, as read when the page loaded. */
  lemma PageBalancesAreExecutedSums(db: Db, user: UserId, canAdd: bool, now: Day, mint: nat -> Id, i: int)
    requires 0 <= i < |TransactionsPageData(db, Some(user), canAdd, now, mint).value.1.accounts|
    requires TransactionsPageData(db, Some(user), canAdd, now, mint).value.1.accounts[i].account.id != ""
    ensures var page := TransactionsPageData(db, Some(user), canAdd, now, mint).value.1;
      page.accounts[i].balance == BalanceOf(Filter(db.transactions, OwnedTransaction(user)), page.accounts[i].account.id)
  {
    var page := TransactionsPageData(db, Some(user), canAdd, now, mint).value.1;
    var id := page.accounts[i].account.id;
    ExecutedBalancesCorrect(page.transactions, id);
    BalanceOfPermutation(page.transactions, Filter(db.transactions, OwnedTransaction(user)), id);
  }

  /** The page is read before the clean-up it triggers: a row of the caller's without an account is
      still listed as the database held it, although the database returned has no such row left. */
  lemma PageListsRowsBeforeAssignment(db: Db, user: UserId, canAdd: bool, now: Day, mint: nat -> Id, k: nat)
    requires k < |db.transactions| && db.transactions[k].userId == user && db.transactions[k].accountId.None?
    ensures var r := TransactionsPageData(db, Some(user), canAdd, now, mint).value;
            && db.transactions[k] in multiset(r.1.transactions)
            && (forall j :: 0 <= j < |r.0.transactions| && r.0.transactions[j].userId == user ==>
                  r.0.transactions[j].accountId.Some?)
  {
    var r := TransactionsPageData(db, Some(user), canAdd, now, mint).value;
    assert db.transactions[k] in Filter(db.transactions, OwnedTransaction(user));
    forall j | 0 <= j < |r.0.transactions| && r.0.transactions[j].userId == user
      ensures r.0.transactions[j].accountId.Some?
    {
      GetAccountsLeavesNoOrphans(db, user, now, mint, j);
    }
  }
}

=== FILE: upsert.dfy ===
/** `upsertTransaction`: normalising a request into the persisted root row, and regenerating the
    root's installment or recurrence children (`syncRelatedTransactions`). */
module UpsertTransaction {
  import opened Wrappers
  import opened Dates
  import opened Ledger
  import opened Seqs
  import opened TransactionSchema

  /** The cap on generated recurrence occurrences. */
  const MaxOccurrences: nat := 120

  /** The entered amount is a total to be split across the installments. */
  predicate SplitsValue(req: UpsertRequest) {
    && req.fulfillment == Installment
    && req.installmentValueIsTotal == Some(true)
    && req.installmentCount.Some? && req.installmentCount.value > 0
  }

  /** The row written for `req`: split amount, execution date from the status, installment and
      recurrence defaults. The name is stored as given (the schema's trimmed result is discarded). */
  function PersistedRow(req: UpsertRequest, user: UserId, id: Id, parentId: Option<Id>, createdAt: Day): (t: Transaction)
    ensures t.id == id && t.userId == user && t.parentId == parentId && t.createdAt == createdAt
    ensures t.name == req.name && t.kind == req.kind && t.category == req.category
    ensures t.paymentMethod == req.paymentMethod && t.date == req.date && t.status == req.status
    ensures t.accountId == Some(req.accountId) && t.fulfillment == req.fulfillment
    ensures SplitsValue(req) ==> t.amount * (req.installmentCount.value as real) == req.amount
    ensures !SplitsValue(req) ==> t.amount == req.amount
    ensures t.installmentValueIsTotal <==> req.fulfillment == Installment && req.installmentValueIsTotal == Some(true)
    ensures t.ExecutionConsistent()
    ensures t.executedAt.Some? ==> t.executedAt.value == req.date
    ensures t.fulfillment == Installment ==>
      t.installmentIndex == Some(req.installmentIndex.GetOr(1)) && t.installmentCount == req.installmentCount
    ensures t.fulfillment != Installment ==> t.installmentIndex.None? && t.installmentCount.None?
    ensures t.recurrence == req.recurrence
    ensures t.recurrence == Custom ==> t.recurrenceInterval == Some(req.recurrenceInterval.GetOr(1))
    ensures t.recurrence != Custom ==> t.recurrenceInterval.None?
    ensures t.recurrence == NoRecurrence ==> t.recurrenceEndsAt.None?
    ensures t.recurrence != NoRecurrence ==> t.recurrenceEndsAt == req.recurrenceEndsAt
    ensures t.recurrenceSkipWeekdays.Some? <==>
      req.recurrenceSkipWeekdays.Some? && |req.recurrenceSkipWeekdays.value| > 0
    ensures t.recurrenceSkipWeekdays.Some? ==> t.recurrenceSkipWeekdays == req.recurrenceSkipWeekdays
  {
    var amount := if SplitsValue(req) then req.amount / (req.installmentCount.value as real) else req.amount;
    var isInstallment := req.fulfillment == Installment;
    Transaction(
      id := id,
      userId := user,
      accountId := Some(req.accountId),
      name := req.name,
      amount := amount,
      kind := req.kind,
      category := req.category,
      paymentMethod := req.paymentMethod,
      date := req.date,
      status := req.status,
      executedAt := if req.status == Executed then Some(req.date) else None,
      fulfillment := req.fulfillment,
      installmentIndex := if isInstallment then Some(req.installmentIndex.GetOr(1)) else None,
      installmentCount := if isInstallment then req.installmentCount else None,
      installmentValueIsTotal := isInstallment && req.installmentValueIsTotal == Some(true),
      recurrence := req.recurrence,
      recurrenceInterval := if req.recurrence == Custom then Some(req.recurrenceInterval.GetOr(1)) else None,
      recurrenceEndsAt := if req.recurrence == NoRecurrence then None else req.recurrenceEndsAt,
      recurrenceSkipWeekdays :=
        if req.recurrenceSkipWeekdays.Some? && |req.recurrenceSkipWeekdays.value| > 0
        then req.recurrenceSkipWeekdays else None,
      parentId := parentId,
      createdAt := createdAt)
  }

  /** `getNextRecurrenceDate`: one step of the rule, or none for NONE. */
  function NextRecurrenceDate(cal: Calendar, d: Day, rule: Recurrence, interval: Option<int>): (r: Option<Day>)
    ensures r.None? <==> rule == NoRecurrence
    ensures rule == Monthly ==> r == Some(cal.addMonths(d, 1))
    ensures rule == Yearly ==> r == Some(cal.addYears(d, 1))
  {
    match rule
    case NoRecurrence => None
    case Daily => Some(AddDays(d, 1))
    case Weekly => Some(AddDays(d, 7))
    case Monthly => Some(cal.addMonths(d, 1))
    case Yearly => Some(cal.addYears(d, 1))
    case Custom => Some(AddDays(d, if interval.Some? && interval.value > 0 then interval.value else 1))
  }

  /** In a valid calendar every rule moves strictly forward: by 1, 7 or the positive interval (else 1)
      days, or by one month or year. */
  lemma NextDateIsLater(cal: Calendar, d: Day, rule: Recurrence, interval: Option<int>)
    requires ValidCalendar(cal)
    ensures rule != NoRecurrence ==> NextRecurrenceDate(cal, d, rule, interval).value > d
    ensures rule == Daily ==> NextRecurrenceDate(cal, d, rule, interval) == Some(d + 1)
    ensures rule == Weekly ==> NextRecurrenceDate(cal, d, rule, interval) == Some(d + 7)
    ensures rule == Monthly ==> NextRecurrenceDate(cal, d, rule, interval) == Some(cal.addMonths(d, 1))
    ensures rule == Yearly ==> NextRecurrenceDate(cal, d, rule, interval) == Some(cal.addYears(d, 1))
    ensures rule == Custom && interval.Some? && interval.value > 0 ==>
      NextRecurrenceDate(cal, d, rule, interval) == Some(d + interval.value)
    ensures rule == Custom && (interval.None? || interval.value <= 0) ==>
      NextRecurrenceDate(cal, d, rule, interval) == Some(d + 1)
  {
    assert cal.addMonths(d, 0) == d && cal.addMonths(d, 0) < cal.addMonths(d, 1);
    assert cal.addYears(d, 0) == d && cal.addYears(d, 0) < cal.addYears(d, 1);
  }

  /** The rule yields no date after `d`, or one past `end`: the generation loop ends there. */
  predicate StopsAfter(cal: Calendar, rule: Recurrence, interval: Option<int>, end: Day, d: Day) {
    match NextRecurrenceDate(cal, d, rule, interval)
    case None => true
    case Some(next) => next > end
  }

  /** The occurrence dates after `cursor`, at most `MaxOccurrences - iterations` of them. */
  function RecurrenceDates(cal: Calendar, rule: Recurrence, interval: Option<int>, end: Day,
                           cursor: Day, iterations: nat): (r: seq<Day>)
    requires iterations <= MaxOccurrences
    decreases MaxOccurrences - iterations
    ensures |r| <= MaxOccurrences - iterations
  {
    match NextRecurrenceDate(cal, cursor, rule, interval)
    case None => []
    case Some(next) =>
      if next <= end && iterations < MaxOccurrences then
        [next] + RecurrenceDates(cal, rule, interval, end, next, iterations + 1)
      else []
  }

  /** The occurrence dates form the rule's chain from `cursor`: the first is the next date after
      `cursor`, each later one the next date after its predecessor, all are on or before `end`,
      and the chain stops short of the cap only where the rule yields no date or one past `end`. */
  lemma {:induction false} RecurrenceDatesChain(cal: Calendar, rule: Recurrence, interval: Option<int>,
                                                end: Day, cursor: Day, iterations: nat)
    requires iterations <= MaxOccurrences
    decreases MaxOccurrences - iterations
    ensures var r := RecurrenceDates(cal, rule, interval, end, cursor, iterations);
      && (forall k :: 0 <= k < |r| ==> r[k] <= end)
      && (|r| > 0 ==> NextRecurrenceDate(cal, cursor, rule, interval) == Some(r[0]))
      && (forall j, k :: 0 <= j < k < |r| && k == j + 1 ==>
            NextRecurrenceDate(cal, r[j], rule, interval) == Some(r[k]))
      && (|r| == 0 && iterations < MaxOccurrences ==> StopsAfter(cal, rule, interval, end, cursor))
      && (0 < |r| < MaxOccurrences - iterations ==> StopsAfter(cal, rule, interval, end, r[|r| - 1]))
  {
    var r := RecurrenceDates(cal, rule, interval, end, cursor, iterations);
    match NextRecurrenceDate(cal, cursor, rule, interval)
    case None =>
    case Some(next) =>
      if next <= end && iterations < MaxOccurrences {
        var tail := RecurrenceDates(cal, rule, interval, end, next, iterations + 1);
        RecurrenceDatesChain(cal, rule, interval, end, next, iterations + 1);
        assert r == [next] + tail;
        forall j, k | 0 <= j < k < |r| && k == j + 1
          ensures NextRecurrenceDate(cal, r[j], rule, interval) == Some(r[k])
        {
          if j > 0 {
            assert r[j] == tail[j - 1] && r[k] == tail[k - 1];
          }
        }
        if 0 < |r| < MaxOccurrences - iterations && |tail| == 0 {
          assert r[|r| - 1] == next;
        } else if 0 < |r| < MaxOccurrences - iterations {
          assert r[|r| - 1] == tail[|tail| - 1];
        }
      }
  }

  /** The generation loop of `createRecurringChildren`, as written: it yields the chain above. */
  method CollectOccurrences(cal: Calendar, rule: Recurrence, interval: Option<int>, start: Day, end: Day)
    returns (occurrences: seq<Day>)
    ensures occurrences == RecurrenceDates(cal, rule, interval, end, start, 0)
  {
    occurrences := [];
    var iterations: nat := 0;
    var cursor := start;
    var nextDate := NextRecurrenceDate(cal, cursor, rule, interval);
    ghost var rest := RecurrenceDates(cal, rule, interval, end, cursor, iterations);
    while nextDate.Some? && nextDate.value <= end && iterations < MaxOccurrences
      invariant iterations <= MaxOccurrences
      invariant nextDate == NextRecurrenceDate(cal, cursor, rule, interval)
      invariant rest == RecurrenceDates(cal, rule, interval, end, cursor, iterations)
      invariant occurrences + rest == RecurrenceDates(cal, rule, interval, end, start, 0)
      decreases MaxOccurrences - iterations
    {
      var next := nextDate.value;
      ghost var tail := RecurrenceDates(cal, rule, interval, end, next, iterations + 1);
      RecurrenceDatesUnfold(cal, rule, interval, end, cursor, iterations);
      assert occurrences + [next] + tail == occurrences + ([next] + tail);
      occurrences := occurrences + [next];
      cursor := next;
      nextDate := NextRecurrenceDate(cal, cursor, rule, interval);
      iterations := iterations + 1;
      rest := tail;
    }
    RecurrenceDatesUnfold(cal, rule, interval, end, cursor, iterations);
  }

  /** One step of the chain: the next date, then the chain from it, unless the loop stops here. */
  lemma RecurrenceDatesUnfold(cal: Calendar, rule: Recurrence, interval: Option<int>, end: Day,
                              cursor: Day, iterations: nat)
    requires iterations <= MaxOccurrences
    ensures var next := NextRecurrenceDate(cal, cursor, rule, interval);
      RecurrenceDates(cal, rule, interval, end, cursor, iterations) ==
        if next.Some? && next.value <= end && iterations < MaxOccurrences
        then [next.value] + RecurrenceDates(cal, rule, interval, end, next.value, iterations + 1)
        else []
  {
  }

  /** A generated child copies the root's identity and money fields, points at the root, is PENDING
      with no execution date, and does not repeat itself. */
  predicate InheritsFrom(child: Transaction, root: Transaction) {
    && child.userId == root.userId
    && child.accountId == root.accountId
    && child.name == root.name
    && child.amount == root.amount
    && child.kind == root.kind
    && child.category == root.category
    && child.paymentMethod == root.paymentMethod
    && child.parentId == Some(root.id)
    && child.status == Pending
    && child.executedAt.None?
    && child.recurrence == NoRecurrence
    && child.recurrenceInterval.None?
    && child.recurrenceEndsAt.None?
    && child.recurrenceSkipWeekdays.None?
    && !child.installmentValueIsTotal
  }

  /** A child row for `root` with the given date and installment numbering. */
  function ChildRow(root: Transaction, id: Id, date: Day, fulfillment: Fulfillment,
                    index: Option<int>, count: Option<int>, createdAt: Day): (c: Transaction)
    ensures InheritsFrom(c, root)
    ensures c.id == id && c.date == date && c.fulfillment == fulfillment
    ensures c.installmentIndex == index && c.installmentCount == count && c.createdAt == createdAt
  {
    Transaction(id, root.userId, root.accountId, root.name, root.amount, root.kind, root.category,
                root.paymentMethod, date, Pending, None, fulfillment, index, count, false,
                NoRecurrence, None, None, None, Some(root.id), createdAt)
  }

  /** The installments after the root's: `count - index` rows, numbered `index + 1 .. count`,
      the k-th (from 0) dated `k + 1` months after the root. */
  function InstallmentChildren(root: Transaction, cal: Calendar, now: Day, mint: nat -> Id): (r: seq<Transaction>)
    ensures var total := root.installmentCount.GetOr(0);
            var current := root.installmentIndex.GetOr(1);
            && |r| == (if total - current > 0 then total - current else 0)
            && forall k :: 0 <= k < |r| ==>
                 && InheritsFrom(r[k], root)
                 && r[k].fulfillment == Installment
                 && r[k].installmentIndex == Some(current + k + 1)
                 && r[k].installmentCount == Some(total)
                 && r[k].date == cal.addMonths(root.date, k + 1)
  {
    var total := root.installmentCount.GetOr(0);
    var current := root.installmentIndex.GetOr(1);
    var remaining := total - current;
    if remaining <= 0 then []
    else
      var r := seq(remaining, k requires 0 <= k < remaining =>
                 ChildRow(root, mint(1 + k), cal.addMonths(root.date, k + 1), Installment,
                          Some(current + k + 1), Some(total), now));
      assert forall k :: 0 <= k < |r| ==>
        r[k] == ChildRow(root, mint(1 + k), cal.addMonths(root.date, k + 1), Installment,
                         Some(current + k + 1), Some(total), now);
      r
  }

  /** The recurrence occurrences of the root up to its end date: the chain of `RecurrenceDates`
      from the root's own date, each a child with the root's fulfilment and no installment numbers. */
  function RecurringChildren(root: Transaction, cal: Calendar, now: Day, mint: nat -> Id, offset: nat): (r: seq<Transaction>)
    requires root.recurrenceEndsAt.Some?
    ensures var dates := RecurrenceDates(cal, root.recurrence, root.recurrenceInterval,
                                         root.recurrenceEndsAt.value, root.date, 0);
            && |r| == |dates|
            && forall k :: 0 <= k < |r| ==>
                 && InheritsFrom(r[k], root)
                 && r[k].fulfillment == root.fulfillment
                 && r[k].installmentIndex.None? && r[k].installmentCount.None?
                 && r[k].date == dates[k]
  {
    var dates := RecurrenceDates(cal, root.recurrence, root.recurrenceInterval,
                                 root.recurrenceEndsAt.value, root.date, 0);
    seq(|dates|, k requires 0 <= k < |dates| =>
          ChildRow(root, mint(1 + offset + k), dates[k], root.fulfillment, None, None, now))
  }

  /** The dispatcher's installment condition: an INSTALLMENT with a non-zero count and installments
      left after the root's. For an index of at least 1 (the schema's lower bound) that is exactly
      an INSTALLMENT that has children to create. */
  predicate InstallmentTrigger(root: Transaction): (r: bool)
    ensures r ==> root.fulfillment == Installment
    ensures root.fulfillment == Installment && root.installmentIndex.GetOr(1) >= 1 ==>
      forall cal, now, mint :: r <==> |InstallmentChildren(root, cal, now, mint)| > 0
  {
    && root.fulfillment == Installment
    && root.installmentCount.Some? && root.installmentCount.value != 0
    && root.installmentIndex.GetOr(1) < root.installmentCount.value
  }

  /** The dispatcher's recurrence condition: a rule and an end date, whatever the fulfilment, so a
      row stored with a rule but not as a FORECAST still repeats. It guarantees the end date the
      recurring children are bounded by. */
  predicate RecurrenceTrigger(root: Transaction): (r: bool)
    ensures r ==> root.recurrenceEndsAt.Some?
    ensures root.recurrence == NoRecurrence ==> !r
    ensures root.recurrence != NoRecurrence && root.recurrenceEndsAt.Some? ==> r
  {
    root.recurrence != NoRecurrence && root.recurrenceEndsAt.Some?
  }

  /** Every child the dispatcher creates for `root`: installments first, then recurrences. */
  function GeneratedChildren(root: Transaction, cal: Calendar, now: Day, mint: nat -> Id): (r: seq<Transaction>)
    ensures forall k :: 0 <= k < |r| ==> InheritsFrom(r[k], root)
  {
    var installments := if InstallmentTrigger(root) then InstallmentChildren(root, cal, now, mint) else [];
    var recurrences :=
      if RecurrenceTrigger(root) then RecurringChildren(root, cal, now, mint, |installments|) else [];
    installments + recurrences
  }

  function ChildOf(id: Id): Transaction -> bool {
    (t: Transaction) => t.parentId == Some(id)
  }

  function NotChildOf(id: Id): Transaction -> bool {
    (t: Transaction) => t.parentId != Some(id)
  }

  /** `syncRelatedTransactions`: a child row triggers nothing; for a root, the rows pointing at it
      become exactly the freshly generated children, and every other row stays as and where it was. */
  function SyncRelated(db: Db, root: Transaction, cal: Calendar, now: Day, mint: nat -> Id): (r: Db)
    ensures r.accounts == db.accounts
    ensures !root.IsRoot() ==> r == db
    ensures root.IsRoot() ==>
      Filter(r.transactions, ChildOf(root.id)) == GeneratedChildren(root, cal, now, mint)
    ensures root.IsRoot() ==>
      Filter(r.transactions, NotChildOf(root.id)) == Filter(db.transactions, NotChildOf(root.id))
  {
    if !root.IsRoot() then db
    else
      var kept := Filter(db.transactions, NotChildOf(root.id));
      var children := GeneratedChildren(root, cal, now, mint);
      FilterConcat(kept, children, ChildOf(root.id));
      FilterConcat(kept, children, NotChildOf(root.id));
      FilterNone(kept, ChildOf(root.id));
      FilterAll(kept, NotChildOf(root.id));
      FilterAll(children, ChildOf(root.id));
      FilterNone(children, NotChildOf(root.id));
      db.(transactions := kept + children)
  }

  /** A row without the two values the database assigns when it inserts it: its id and its
      creation day. */
  function Content(t: Transaction): Transaction {
    t.(id := "", createdAt := 0)
  }

  /** Two runs of rows that agree position by position on everything but the database-assigned
      ids and creation days. */
  ghost predicate SameContent(a: seq<Transaction>, b: seq<Transaction>) {
    |a| == |b| && forall k :: 0 <= k < |a| ==> Content(a[k]) == Content(b[k])
  }

  lemma SameContentConcat(a: seq<Transaction>, b: seq<Transaction>, c: seq<Transaction>)
    requires SameContent(b, c)
    ensures SameContent(a + b, a + c)
  {
    forall k | 0 <= k < |a + b| ensures Content((a + b)[k]) == Content((a + c)[k]) {
      if k >= |a| {
        assert (a + b)[k] == b[k - |a|] && (a + c)[k] == c[k - |a|];
      }
    }
  }

  lemma SameContentAppend(a: seq<Transaction>, b: seq<Transaction>, c: seq<Transaction>, d: seq<Transaction>)
    requires SameContent(a, c) && SameContent(b, d)
    ensures SameContent(a + b, c + d)
  {
    forall k | 0 <= k < |a + b| ensures Content((a + b)[k]) == Content((c + d)[k]) {
      if k < |a| {
        assert (a + b)[k] == a[k] && (c + d)[k] == c[k];
      } else {
        assert (a + b)[k] == b[k - |a|] && (c + d)[k] == d[k - |a|];
      }
    }
  }

  lemma InstallmentChildrenSameContent(root: Transaction, cal: Calendar, now: Day, mint: nat -> Id,
                                       now2: Day, mint2: nat -> Id)
    ensures SameContent(InstallmentChildren(root, cal, now, mint), InstallmentChildren(root, cal, now2, mint2))
  {
    var a := InstallmentChildren(root, cal, now, mint);
    var b := InstallmentChildren(root, cal, now2, mint2);
    forall k | 0 <= k < |a| ensures Content(a[k]) == Content(b[k]) {
      assert Content(a[k]) == Content(a[k].(id := "", createdAt := 0));
    }
  }

  lemma RecurringChildrenSameContent(root: Transaction, cal: Calendar, now: Day, mint: nat -> Id,
                                     now2: Day, mint2: nat -> Id, offset: nat, offset2: nat)
    requires root.recurrenceEndsAt.Some?
    ensures SameContent(RecurringChildren(root, cal, now, mint, offset),
                        RecurringChildren(root, cal, now2, mint2, offset2))
  {
    var a := RecurringChildren(root, cal, now, mint, offset);
    var b := RecurringChildren(root, cal, now2, mint2, offset2);
    forall k | 0 <= k < |a| ensures Content(a[k]) == Content(b[k]) {
      assert Content(a[k]) == Content(a[k].(id := "", createdAt := 0));
    }
  }

  /** Children generated at another time with other ids differ from the first ones only in those
      ids and creation days. */
  lemma GeneratedChildrenSameContent(root: Transaction, cal: Calendar, now: Day, mint: nat -> Id,
                                     now2: Day, mint2: nat -> Id)
    ensures SameContent(GeneratedChildren(root, cal, now, mint), GeneratedChildren(root, cal, now2, mint2))
  {
    var i1 := if InstallmentTrigger(root) then InstallmentChildren(root, cal, now, mint) else [];
    var i2 := if InstallmentTrigger(root) then InstallmentChildren(root, cal, now2, mint2) else [];
    var r1 := if RecurrenceTrigger(root) then RecurringChildren(root, cal, now, mint, |i1|) else [];
    var r2 := if RecurrenceTrigger(root) then RecurringChildren(root, cal, now2, mint2, |i2|) else [];
    InstallmentChildrenSameContent(root, cal, now, mint, now2, mint2);
    if RecurrenceTrigger(root) {
      RecurringChildrenSameContent(root, cal, now, mint, now2, mint2, |i1|, |i2|);
    }
    SameContentAppend(i1, r1, i2, r2);
  }

  /** Regenerating a second time, at any time and with any new ids, replaces the children with
      copies that differ only in those ids and creation days: no duplicate children accumulate,
      and every row that does not point at the root is left exactly as it was. */
  lemma SyncIdempotent(db: Db, root: Transaction, cal: Calendar, now: Day, mint: nat -> Id,
                       now2: Day, mint2: nat -> Id)
    ensures var once := SyncRelated(db, root, cal, now, mint);
            var twice := SyncRelated(once, root, cal, now2, mint2);
            && twice.accounts == once.accounts
            && SameContent(twice.transactions, once.transactions)
            && Filter(twice.transactions, NotChildOf(root.id)) == Filter(once.transactions, NotChildOf(root.id))
            && (now2 == now && mint2 == mint ==> twice == once)
  {
    var once := SyncRelated(db, root, cal, now, mint);
    var twice := SyncRelated(once, root, cal, now2, mint2);
    if root.IsRoot() {
      var kept := Filter(db.transactions, NotChildOf(root.id));
      assert once.transactions == kept + GeneratedChildren(root, cal, now, mint);
      assert twice.transactions ==
        Filter(once.transactions, NotChildOf(root.id)) + GeneratedChildren(root, cal, now2, mint2);
      assert Filter(once.transactions, NotChildOf(root.id)) == kept;
      GeneratedChildrenSameContent(root, cal, now2, mint2, now, mint);
      SameContentConcat(kept, GeneratedChildren(root, cal, now2, mint2), GeneratedChildren(root, cal, now, mint));
    } else {
      assert twice == once;
    }
  }

  /** The rows of `db` after the database upsert keyed on `req.id` (on "" when absent), and the saved
      row. A matching row is overwritten in place: it keeps its id, parent and creation date and the
      caller becomes its owner, with no ownership check. Without a match one parentless row is
      appended, carrying the given id or a newly minted one. */
  function SaveRoot(db: Db, user: UserId, req: UpsertRequest, now: Day, mint: nat -> Id): (r: (Db, Transaction))
    ensures r.0.accounts == db.accounts
    ensures r.1 == PersistedRow(req, user, r.1.id, r.1.parentId, r.1.createdAt)
    ensures r.1 in r.0.transactions
    ensures FindTransaction(db.transactions, req.id.GetOr("")).Some? ==>
      var i := FindTransaction(db.transactions, req.id.GetOr("")).value;
      && |r.0.transactions| == |db.transactions| && r.0.transactions[i] == r.1
      && r.1.id == db.transactions[i].id && r.1.parentId == db.transactions[i].parentId
      && r.1.createdAt == db.transactions[i].createdAt
      && forall j :: 0 <= j < |db.transactions| && j != i ==> r.0.transactions[j] == db.transactions[j]
    ensures FindTransaction(db.transactions, req.id.GetOr("")).None? ==>
      && r.0.transactions == db.transactions + [r.1]
      && r.1.IsRoot() && r.1.createdAt == now && r.1.id == req.id.GetOr(mint(0))
  {
    match FindTransaction(db.transactions, req.id.GetOr(""))
    case Some(i) =>
      var existing := db.transactions[i];
      var row := PersistedRow(req, user, existing.id, existing.parentId, existing.createdAt);
      var rows := db.transactions[i := row];
      assert rows[i] == row;
      (db.(transactions := rows), row)
    case None =>
      var row := PersistedRow(req, user, req.id.GetOr(mint(0)), None, now);
      (db.(transactions := db.transactions + [row]), row)
  }

  /** `upsertTransaction`: the schema is checked first, then authentication; on success the root is
      saved and its children regenerated. `mint` stands for the ids the database assigns. */
  function Upsert(db: Db, auth: Option<UserId>, req: UpsertRequest, cal: Calendar, now: Day,
                  mint: nat -> Id): (r: Result<Db, Failure>)
    ensures r == Err(Invalid) <==> !ServerAccepts(req)
    ensures r == Err(Unauthorized) <==> ServerAccepts(req) && auth.None?
    ensures r.Ok? ==> r.value.accounts == db.accounts
  {
    if !ServerAccepts(req) then Err(Invalid)
    else if auth.None? then Err(Unauthorized)
    else
      var (saved, root) := SaveRoot(db, auth.value, req, now, mint);
      Ok(SyncRelated(saved, root, cal, now, mint))
  }

  /** A row found first by id stays first after the rows pointing at a root are dropped and new rows
      are appended. */
  lemma FirstMatchSurvivesSync(rows: seq<Transaction>, p: nat, key: Id, parent: Id, extra: seq<Transaction>)
    requires FindTransaction(rows, key) == Some(p)
    requires rows[p].parentId != Some(parent)
    ensures var after := Filter(rows, NotChildOf(parent)) + extra;
            FindTransaction(after, key).Some? && after[FindTransaction(after, key).value] == rows[p]
  {
    var keep := NotChildOf(parent);
    FilterSplitAt(rows, p, keep);
    SelectionKeepsIdAbsent(rows[..p], key, keep);
    FirstAfterPrefix(Filter(rows[..p], keep), rows[p], Filter(rows[p + 1..], keep), extra, key);
  }

  /** Selecting from rows none of which carries `key` yields rows none of which carries it. */
  lemma SelectionKeepsIdAbsent(rows: seq<Transaction>, key: Id, keep: Transaction -> bool)
    requires forall j :: 0 <= j < |rows| ==> rows[j].id != key
    ensures forall j :: 0 <= j < |Filter(rows, keep)| ==> Filter(rows, keep)[j].id != key
  {
    var r := Filter(rows, keep);
    forall j | 0 <= j < |r| ensures r[j].id != key {
      assert r[j] in rows;
    }
  }

  /** The row right after a prefix free of `key` is the one found for `key`. */
  lemma FirstAfterPrefix(before: seq<Transaction>, row: Transaction, mid: seq<Transaction>,
                          extra: seq<Transaction>, key: Id)
    requires row.id == key
    requires forall j :: 0 <= j < |before| ==> before[j].id != key
    ensures var after := before + [row] + mid + extra;
            FindTransaction(after, key) == Some(|before|) && after[|before|] == row
  {
    var after := before + [row] + mid + extra;
    assert after[|before|] == row;
    assert forall j :: 0 <= j < |before| ==> after[j] == before[j];
    FindIsFirst(after, key, |before|);
  }

  /** Re-submitting the same request for the same id, at any later time, rewrites the root with
      identical values and regenerates its children: the rows differ from what the first submission
      left only in the ids and creation days the database gives the new children, and with the same
      ids and time they are exactly the same. */
  lemma UpsertIdempotent(db: Db, auth: Option<UserId>, req: UpsertRequest, cal: Calendar, now: Day,
                         mint: nat -> Id, now2: Day, mint2: nat -> Id)
    requires req.id.Some?
    requires Upsert(db, auth, req, cal, now, mint).Ok?
    ensures var once := Upsert(db, auth, req, cal, now, mint).value;
            var again := Upsert(once, auth, req, cal, now2, mint2);
            && again.Ok?
            && again.value.accounts == once.accounts
            && SameContent(again.value.transactions, once.transactions)
            && Filter(again.value.transactions, NotChildOf(req.id.value))
               == Filter(once.transactions, NotChildOf(req.id.value))
            && (now2 == now && mint2 == mint ==> again == Ok(once))
  {
    var user := auth.value;
    var saved := SaveRoot(db, user, req, now, mint).0;
    var root := SaveRoot(db, user, req, now, mint).1;
    var once := SyncRelated(saved, root, cal, now, mint);
    SavedRowIsFound(db, user, req, now, mint);
    SavedRowSurvivesSync(saved, root, cal, now, mint);
    ResaveChangesNothing(once, user, req, root, now2, mint2);
    SyncIdempotent(saved, root, cal, now, mint, now2, mint2);
  }

  /** After saving, the saved row is the first row carrying the request's id. */
  lemma SavedRowIsFound(db: Db, user: UserId, req: UpsertRequest, now: Day, mint: nat -> Id)
    requires req.id.Some?
    ensures var (saved, root) := SaveRoot(db, user, req, now, mint);
            && root.id == req.id.value
            && FindTransaction(saved.transactions, root.id).Some?
            && saved.transactions[FindTransaction(saved.transactions, root.id).value] == root
  {
    var (saved, root) := SaveRoot(db, user, req, now, mint);
    var key := req.id.value;
    if FindTransaction(db.transactions, key).Some? {
      var p := FindTransaction(db.transactions, key).value;
      FindIsFirst(saved.transactions, key, p);
    } else {
      FindIsFirst(saved.transactions, key, |db.transactions|);
    }
  }

  /** Regenerating the children of a saved row keeps that row first for its id. */
  lemma SavedRowSurvivesSync(saved: Db, root: Transaction, cal: Calendar, now: Day, mint: nat -> Id)
    requires FindTransaction(saved.transactions, root.id).Some?
    requires saved.transactions[FindTransaction(saved.transactions, root.id).value] == root
    ensures var once := SyncRelated(saved, root, cal, now, mint);
            && FindTransaction(once.transactions, root.id).Some?
            && once.transactions[FindTransaction(once.transactions, root.id).value] == root
  {
    if root.IsRoot() {
      var p := FindTransaction(saved.transactions, root.id).value;
      FirstMatchSurvivesSync(saved.transactions, p, root.id, root.id, GeneratedChildren(root, cal, now, mint));
    }
  }

  /** Saving the values a row already holds, under its own id, leaves the rows as they are. */
  lemma ResaveChangesNothing(db: Db, user: UserId, req: UpsertRequest, row: Transaction, now: Day, mint: nat -> Id)
    requires req.id == Some(row.id)
    requires row == PersistedRow(req, user, row.id, row.parentId, row.createdAt)
    requires FindTransaction(db.transactions, row.id).Some?
    requires db.transactions[FindTransaction(db.transactions, row.id).value] == row
    ensures SaveRoot(db, user, req, now, mint) == (db, row)
  {
    var i := FindTransaction(db.transactions, row.id).value;
    assert db.transactions[i := row] == db.transactions;
  }

  /** When the entered value is the total of an installment plan starting at installment 1, the
      root's share plus the shares of the generated installments add up to the entered value. */
  lemma InstallmentSharesAddUpToTotal(req: UpsertRequest, user: UserId, id: Id, createdAt: Day,
                                      cal: Calendar, now: Day, mint: nat -> Id)
    requires SplitsValue(req) && req.installmentIndex == Some(1)
    ensures var root := PersistedRow(req, user, id, None, createdAt);
            root.amount + TotalAmount(InstallmentChildren(root, cal, now, mint)) == req.amount
  {
    var root := PersistedRow(req, user, id, None, createdAt);
    var children := InstallmentChildren(root, cal, now, mint);
    var n := req.installmentCount.value;
    assert |children| == n - 1;
    TotalOfEqualAmounts(children, root.amount);
    assert root.amount + (n - 1) as real * root.amount == n as real * root.amount;
  }

  /** In a valid calendar installments fall in strictly increasing months, all after the root. */
  lemma InstallmentDatesIncrease(root: Transaction, cal: Calendar, now: Day, mint: nat -> Id)
    requires ValidCalendar(cal)
    ensures var r := InstallmentChildren(root, cal, now, mint);
            && (forall k :: 0 <= k < |r| ==> root.date < r[k].date)
            && (forall j, k :: 0 <= j < k < |r| ==> r[j].date < r[k].date)
  {
    var r := InstallmentChildren(root, cal, now, mint);
    forall k | 0 <= k < |r| ensures root.date < r[k].date {
      assert cal.addMonths(root.date, 0) < cal.addMonths(root.date, k + 1);
    }
    forall j, k | 0 <= j < k < |r| ensures r[j].date < r[k].date {
      assert cal.addMonths(root.date, j + 1) < cal.addMonths(root.date, k + 1);
    }
  }

  /** Every date comes strictly after `start`, and the dates strictly increase. */
  ghost predicate IncreasingAfter(start: Day, r: seq<Day>) {
    && (forall k :: 0 <= k < |r| ==> start < r[k])
    && (forall j, k :: 0 <= j < k < |r| ==> r[j] < r[k])
  }

  lemma ConsIncreasing(start: Day, next: Day, tail: seq<Day>)
    requires start < next && IncreasingAfter(next, tail)
    ensures IncreasingAfter(start, [next] + tail)
  {
    var r := [next] + tail;
    forall k | 0 <= k < |r| ensures start < r[k] {
      if k > 0 {
        assert r[k] == tail[k - 1];
      }
    }
    forall j, k | 0 <= j < k < |r| ensures r[j] < r[k] {
      assert r[k] == tail[k - 1];
      if j > 0 {
        assert r[j] == tail[j - 1];
      }
    }
  }

  /** In a valid calendar the occurrence dates strictly increase, all after the starting date, so the
      starting date itself never reappears as an occurrence. */
  lemma {:induction false} RecurrenceDatesIncrease(cal: Calendar, rule: Recurrence, interval: Option<int>,
                                                   end: Day, cursor: Day, iterations: nat)
    requires ValidCalendar(cal) && iterations <= MaxOccurrences
    decreases MaxOccurrences - iterations
    ensures IncreasingAfter(cursor, RecurrenceDates(cal, rule, interval, end, cursor, iterations))
  {
    match NextRecurrenceDate(cal, cursor, rule, interval)
    case None =>
    case Some(next) =>
      if next <= end && iterations < MaxOccurrences {
        RecurrenceDatesIncrease(cal, rule, interval, end, next, iterations + 1);
        NextDateIsLater(cal, cursor, rule, interval);
        ConsIncreasing(cursor, next, RecurrenceDates(cal, rule, interval, end, next, iterations + 1));
      }
  }

  /** Child generation never reads the stored skip-weekday list: changing it changes no row. */
  lemma SyncIgnoresSkipWeekdays(db: Db, root: Transaction, skip: Option<seq<int>>, cal: Calendar,
                                now: Day, mint: nat -> Id)
    ensures SyncRelated(db, root.(recurrenceSkipWeekdays := skip), cal, now, mint)
         == SyncRelated(db, root, cal, now, mint)
  {
    var other := root.(recurrenceSkipWeekdays := skip);
    assert InstallmentChildren(other, cal, now, mint) == InstallmentChildren(root, cal, now, mint);
    if RecurrenceTrigger(root) {
      forall offset: nat ensures RecurringChildren(other, cal, now, mint, offset)
                              == RecurringChildren(root, cal, now, mint, offset) {
      }
    }
    assert GeneratedChildren(other, cal, now, mint) == GeneratedChildren(root, cal, now, mint);
  }

  /** Nothing gates the two generators on each other: a request the schema accepts as an INSTALLMENT
      that also names a recurrence and an end date gets both its installments and its occurrences. */
  lemma InstallmentWithRecurrenceGetsBoth(root: Transaction, cal: Calendar, now: Day, mint: nat -> Id)
    requires InstallmentTrigger(root) && RecurrenceTrigger(root)
    ensures |GeneratedChildren(root, cal, now, mint)| ==
      |InstallmentChildren(root, cal, now, mint)|
      + |RecurrenceDates(cal, root.recurrence, root.recurrenceInterval, root.recurrenceEndsAt.value, root.date, 0)|
  {
  }
}

=== FILE: wrappers.dfy ===
/** Optional values and results shared by the whole model. */
module Wrappers {

  /** A value that may be absent: stands for TypeScript's `null` and `undefined` alike. */
  datatype Option<+T> = None | Some(value: T) {

    /** The value, or `default` when absent (TypeScript's `??` operator). */
    function GetOr(default: T): T {
      match this
      case Some(v) => v
      case None => default
    }
  }

  /** The outcome of an operation that either succeeds or raises an error. */
  datatype Result<+T, +E> = Ok(value: T) | Err(error: E)
}
